=== FILE: README.md ===
# iarec-system — a Dafny model of the recommendation workflow

iarec-system is a product-recommendation demo for a computer retailer. A FastAPI backend
generates recommendations per client and records them with their feedback. It also
registers external data sources and manages users. A React front end lets the curation
team approve or reject recommendations. It also lets sellers consult suggestions, quote,
e-mail clients and send feedback. Administrators use it for data sources, imports,
processing pipelines and users, backed by a browser-storage service and a login service.

This project models that core as pure Dafny functions over immutable values:

- **Backend routes** (`RecEngine`, `Tally`, `RecHistory`, `Sources`, `UserApi`,
  `UserSchemas`) act on in-memory lists standing for the process-wide history and feedback
  lists and the database tables. Each route returns `Result`: `Ok` with the new state and the
  response, or `Err` with the HTTP status code the route raises.
- **Page handlers** (`Curation`, `Consulta`, `SellerFeedback`, `Email`, `ImportWizard`,
  `Pipelines`, `SourceForm`, `UserAdmin`) take a page state and return the next state, as
  the React `setState` updater they model does.
- **Services** (`Storage`, `Auth`) model the browser's local and session storage as a
  record of optional keys: a missing key is `None`.
- Anything the code takes from the outside world is a parameter of the model. This covers
  random draws (`random.uniform(a, b)` and `Math.random()` as a number `u` in [0, 1)), the
  clock, fresh ids, the answer to a `window.confirm` dialog, a connection failure and the
  password hash function.
- Shared helpers live in `Common` (`Option`, `Result`, truthiness), `Text` (ASCII
  lower-casing, substring search) and `Seqs` (filter, subsequence, stable descending sort,
  Python slicing, sums and means).

Each operation has a partner property. Filters are proved to be order-preserving
subsequences holding exactly the matching items. Updates change only the targeted entry.
Toggles are involutions, and counters add up to the list length. Stored records satisfy
the route's range bounds. Uniqueness of ids, names and e-mails is preserved where the
code checks it, and a concrete counterexample is proved where it does not.

Approval and rejection overwrite any status (`Curation.RejectAfterApprove`). Curation
rules are only stored and toggled, never evaluated, and the history list on the curation
page is static data.

## Model

| member | source | states |
|---|---|---|
| Curation.Ids | frontend/src/components/pages/ValidacaoRecomendacoesPage.jsx:188 | The ids of the filtered view, one per item, in view order. |
| Curation.SelectItem | frontend/src/components/pages/ValidacaoRecomendacoesPage.jsx:179-185 | A selected id is removed and every other selected id kept in order; an unselected id is appended at the end. |
| Curation.SelectItemTwice | frontend/src/components/pages/ValidacaoRecomendacoesPage.jsx:179-185 | Toggling the same id twice gives back the original selection, read as a set. |
| Curation.SelectAll | frontend/src/components/pages/ValidacaoRecomendacoesPage.jsx:187-194 | The result is either empty or exactly the view ids in view order. It is empty exactly when the selection is as long as the view. |
| Curation.SelectAllTwice | frontend/src/components/pages/ValidacaoRecomendacoesPage.jsx:187-194 | On a non-empty view that is not fully selected, the first click selects the view and the second clears it. |
| Curation.SelectAllComparesLengthOnly | frontend/src/components/pages/ValidacaoRecomendacoesPage.jsx:189 | A selection of an unrelated id that is as long as the view is cleared, not replaced by the view ids. |
| Curation.Decide | frontend/src/components/pages/ValidacaoRecomendacoesPage.jsx:196-208 | Every item with the id gets the new status and nothing else changes. All other items are unchanged, and the id leaves the selection. |
| Curation.Aprovar | frontend/src/components/pages/ValidacaoRecomendacoesPage.jsx:196-201 | Approving sets aprovado on the items with that id whatever their status, leaves the rest untouched, and deselects the id. |
| Curation.Rejeitar | frontend/src/components/pages/ValidacaoRecomendacoesPage.jsx:203-208 | Rejecting sets rejeitado on the items with that id whatever their status, leaves the rest untouched, and deselects the id. |
| Curation.RejectAfterApprove | frontend/src/components/pages/ValidacaoRecomendacoesPage.jsx:196-208 | An approved item can still be rejected: the handlers have no status guard. |
| Curation.DecideBatch | frontend/src/components/pages/ValidacaoRecomendacoesPage.jsx:216-230 | Every selected item gets the status whatever it was before. Unselected items are untouched and the selection ends empty. |
| Curation.AprovarLote | frontend/src/components/pages/ValidacaoRecomendacoesPage.jsx:210-220 | An empty selection changes nothing. Otherwise the selected items are approved, the others untouched, and the selection cleared. |
| Curation.RejeitarLote | frontend/src/components/pages/ValidacaoRecomendacoesPage.jsx:222-233 | An empty selection or a declined confirmation changes nothing. Otherwise the selected items are rejected and the selection cleared. |
| Curation.EditForm | frontend/src/components/pages/ValidacaoRecomendacoesPage.jsx:235-238 | The working copy of the edit modal keeps id, cliente, vendedor, produtoOriginal, confianca, status and data of the captured item. |
| Curation.SaveEdit | frontend/src/components/pages/ValidacaoRecomendacoesPage.jsx:240-246 | Items with the edited id become the working copy; all other items, the selection and the rules are unchanged. |
| Curation.SaveEditOnlyEditableFields | frontend/src/components/pages/ValidacaoRecomendacoesPage.jsx:240-246 | Saving an edit of item k changes that item only, and only in produtoRecomendado, categoria, preco and motivo. |
| Curation.ToggleRegra | frontend/src/components/pages/ValidacaoRecomendacoesPage.jsx:248-252 | Flips ativa on the rules with that id, changing no other field and no other rule. |
| Curation.ToggleRegraTwice | frontend/src/components/pages/ValidacaoRecomendacoesPage.jsx:248-252 | Toggling a rule twice restores the rule list. |
| Curation.SaveNovaRegra | frontend/src/components/pages/ValidacaoRecomendacoesPage.jsx:271-294 | An empty name or description leaves the rules and the form as they were. Otherwise exactly one rule, with the clock as id, is appended and the form reset. |
| Curation.DeleteRegra | frontend/src/components/pages/ValidacaoRecomendacoesPage.jsx:254-258 | A confirmed delete keeps, in order, exactly the rules with another id; a declined one changes nothing. |
| Curation.FilteredRecomendacoes | frontend/src/components/pages/ValidacaoRecomendacoesPage.jsx:296-303 | The view is an order-preserving subsequence holding exactly the items that match the status filter and contain the lower-cased term in cliente, produto or vendedor. |
| Curation.FilteredRecomendacoesAll | frontend/src/components/pages/ValidacaoRecomendacoesPage.jsx:296-303 | 'all' with an empty search term shows the whole list. |
| Curation.FilteredHistorico | frontend/src/components/pages/ValidacaoRecomendacoesPage.jsx:305-313 | The history view is an order-preserving subsequence holding exactly the entries that match action, user and search term. |
| Curation.FilteredHistoricoAll | frontend/src/components/pages/ValidacaoRecomendacoesPage.jsx:305-313 | Both drop-downs on 'all' and an empty search show the whole history. |
| Curation.CountersSum | frontend/src/components/pages/ValidacaoRecomendacoesPage.jsx:465-489 | The pendente, aprovado and rejeitado cards add up to the number of items. |
| Consulta.CatalogoIds | frontend/src/components/vendedor/VendedorConsulta.jsx:84-97 | The catalogue holds 12 products with ids 1 to 12, in order. |
| Consulta.Clamp | frontend/src/components/vendedor/VendedorConsulta.jsx:127 | The clamped value lies in [lo, hi] and equals the input when the input is already inside. |
| Consulta.Confianca | frontend/src/components/vendedor/VendedorConsulta.jsx:123-127 | The confidence always lies in [70, 95]. For a draw in [0, 1) it is 82 plus a variation in [-7.5, 7.5), so it lies in [74.5, 89.5) and the clamp never fires. |
| Consulta.Templates | frontend/src/components/vendedor/VendedorConsulta.jsx:139-185 | Each category has four templates; a category outside the table gets the 'Acessórios' ones. |
| Consulta.GerarMotivo | frontend/src/components/vendedor/VendedorConsulta.jsx:185-186 | The reason is one of the four templates of the product's category, with the same fallback. |
| Consulta.PreSort | frontend/src/components/vendedor/VendedorConsulta.jsx:100-133 | Before the score sort, slot i holds the permuted catalogue product, position i + 1 and a score in [100 - 5i, 110 - 5i). |
| Consulta.Quantidade | frontend/src/components/vendedor/VendedorConsulta.jsx:120 | 6 + floor(3u) lies in 6..8. |
| Consulta.SortedByPosicao | frontend/src/components/vendedor/VendedorConsulta.jsx:125-136 | After the score sort, each suggestion is still the pre-sort one at index posicao - 1. |
| Consulta.DistinctProducts | frontend/src/components/vendedor/VendedorConsulta.jsx:100-136 | Distinct slots of a catalogue permutation hold distinct products. |
| Consulta.GerarRecomendacoes | frontend/src/components/vendedor/VendedorConsulta.jsx:100-137 | The result has 6, 7 or 8 suggestions, sorted by score and non-increasing. The products are distinct catalogue products and the positions are distinct values in 1..N, each from its slot. |
| Consulta.PosicaoNotSorted | frontend/src/components/vendedor/VendedorConsulta.jsx:131-136 | Positions are assigned before the score sort, so position 2 can come out ahead of position 1. |
| Consulta.SelecionarCliente | frontend/src/components/vendedor/VendedorConsulta.jsx:195-199 | Picking a client discards the earlier suggestions and keeps the quote. |
| Consulta.HandleGerar | frontend/src/components/vendedor/VendedorConsulta.jsx:201-222 | Without a selected client nothing changes. With one, the suggestions shown are exactly `gerarRecomendacoes` for that client (6 to 8 of them) and the quote is kept. |
| Consulta.ClientesFiltrados | frontend/src/components/vendedor/VendedorConsulta.jsx:189-193 | Keeps, in order, exactly the clients whose name or e-mail contains the lower-cased term, or whose CPF contains the term as typed. |
| Consulta.ClientesFiltradosEmpty | frontend/src/components/vendedor/VendedorConsulta.jsx:189-193 | An empty search keeps every client. |
| Consulta.AdicionarAoOrcamento | frontend/src/components/vendedor/VendedorConsulta.jsx:224-234 | A product already in the quote leaves it unchanged; otherwise one item with quantidade 1 is appended. |
| Consulta.AdicionarKeepsUnique | frontend/src/components/vendedor/VendedorConsulta.jsx:224-234 | Adding keeps product ids in the quote unique. |
| Consulta.RemoverDoOrcamento | frontend/src/components/vendedor/VendedorConsulta.jsx:236-238 | Removes exactly the items with that id, keeping the order of the rest. |
| Consulta.TotalOrcamento | frontend/src/components/vendedor/VendedorConsulta.jsx:240-245 | With prices and quantities non-negative and discounts in [0, 100], the total lies between 0 and the undiscounted sum. |
| Consulta.TotalBounds | frontend/src/components/vendedor/VendedorConsulta.jsx:240-245 | The sum of discounted lines is between 0 and the undiscounted sum when every item is in range. |
| Consulta.LineBounds | frontend/src/components/vendedor/VendedorConsulta.jsx:242-243 | One discounted line lies between 0 and price times quantity. |
| RecEngine.SimularScore | backend/routes/recomendacoes.py:1026-1028 | The simulated confidence lies in [65, 98]. |
| RecEngine.Complementos | backend/routes/recomendacoes.py:1038-1047 | Each "Complementa seu" reason names a purchased category whose complement list contains the product category. |
| RecEngine.Motivos | backend/routes/recomendacoes.py:1033-1070 | A category already bought gives the first reason, "Você já comprou"; a client with no history, no truthy average value and no "Alta" frequency gets no reason. |
| RecEngine.TextoNotGeneric | backend/routes/recomendacoes.py:1068-1079 | No rendered reason, whatever follows it, equals one of the generic texts. |
| RecEngine.GerarMotivo | backend/routes/recomendacoes.py:1030-1079 | The text is never empty. It is generic exactly when no rule fired, and otherwise joins the first one or two reasons with " | ". A bought category makes it start with "Você já comprou produtos de". |
| RecEngine.AplicarDesconto | backend/routes/recomendacoes.py:1081-1097 | The discount lies in [5, 15] for "Alta", in [3, 10] for an empty history, and otherwise is 0 exactly when the 30% chance misses, else in [2, 8]. It always lies in [0, 15]. |
| RecEngine.PrecoFinal | backend/routes/recomendacoes.py:1168 | After a discount in [0, 15] the final price lies between 0.85 times the price and the price. |
| RecEngine.NumPriorizados | backend/routes/recomendacoes.py:1118 | The prioritised share int(0.6q) of the quantity lies in 0..q. |
| RecEngine.SelecionarProdutos | backend/routes/recomendacoes.py:1099-1130 | Returns at most q products, at least min(q, catalogue size), all from the candidate list. |
| RecEngine.MixShape | backend/routes/recomendacoes.py:1107-1124 | The mix is at most int(0.6q) products of bought categories followed by at most the rest from other categories. |
| RecEngine.SelecionarShape | backend/routes/recomendacoes.py:1126-1130 | The selection is the mix followed by a top-up that repeats the candidate list from its start. |
| RecEngine.EmptyHistoryNoPriority | backend/routes/recomendacoes.py:1110-1115 | With an empty history nothing is prioritised and every candidate is new. |
| RecEngine.SelectorCanRepeat | backend/routes/recomendacoes.py:1127-1128 | The top-up can select the same product twice. |
| RecEngine.Recomendar | backend/routes/recomendacoes.py:1167-1182 | A recommended product copies id, name, category, price, stock and tags. Its discount is in [0, 15], its confidence in [65, 98] and its final price in [0.85 price, price]. |
| RecEngine.Preparar | backend/routes/recomendacoes.py:1164-1182 | One recommendation per selected product, in selection order: the i-th is the i-th product priced and scored with the i-th draw. |
| RecEngine.Montar | backend/routes/recomendacoes.py:1164-1185 | A permutation of the prepared recommendations, one per selected product, sorted by confidence, non-increasing, each in range and taken from the candidates. |
| RecEngine.GerarRecomendacao | backend/routes/recomendacoes.py:1148-1221 | An empty candidate list is a 500. Otherwise exactly one record is appended. Its products are Montar of the selection, its total is their number, and its two averages are the means of their confidences and discounts, which lie in [65, 98] and [0, 15]. |
| Tally.Tally | backend/routes/recomendacoes.py:1368-1373 | The count dict holds one entry per distinct category, with its number of occurrences. |
| Tally.Ranked | backend/routes/recomendacoes.py:1375-1377 | The entries are sorted by count, non-increasing, with no key repeated and exactly the tally entries. |
| Seqs.SortDescEstavel | backend/routes/recomendacoes.py:1374-1378 | The descending sort is stable: for every key value, the elements with that key keep their input order. |
| Tally.Top | backend/routes/recomendacoes.py:1374-1378 | Exactly min(n, number of distinct categories) entries: the first ones of the count-sorted tally, each holding a real element and its true count. |
| Tally.TopIsMaximal | backend/routes/recomendacoes.py:1375-1378 | No category left out of the top has a higher count than one kept. |
| Tally.TopNaoVazio | backend/routes/recomendacoes.py:1374-1378 | A non-empty list gives a non-empty top for any positive n. |
| Common.TaxaExtremos | backend/routes/recomendacoes.py:1394-1395 | A share of a non-empty count is 0 percent exactly when the part is 0 and 100 percent exactly when it is the whole. |
| RecHistory.DoCliente | backend/routes/recomendacoes.py:1260-1264 | Exactly the client's records; empty exactly when no record has that id. |
| RecHistory.DoClienteEmOrdem | backend/routes/recomendacoes.py:1260-1264 | The client's records keep their order in the history. |
| RecHistory.IdClienteExemplos | backend/routes/recomendacoes.py:1270 | "CLI001" and "CLI001\n" match the client-id pattern; "CLI0012", "cli001" and "CLI01" do not. |
| RecHistory.IdClienteValidoSse | backend/routes/recomendacoes.py:1270 | Valid exactly for CLI followed by three ASCII digits, optionally followed by one final newline, which Python's $ accepts. |
| RecHistory.Ordenar | backend/routes/recomendacoes.py:1284-1300 | A permutation of the records, same length and multiset, sorted by date (newest or oldest first) or by mean confidence, highest first. |
| RecHistory.ListarRecomendacoesCliente | backend/routes/recomendacoes.py:1223-1306 | No match is an error: 400 exactly when the id is not CLI plus three digits, else 404. Otherwise it returns the first limite records of the client's records sorted in the requested order. |
| RecHistory.PrefixoOrdenado | backend/routes/recomendacoes.py:1284-1306 | The first limite of the client's records in the requested order are min(limite, count) client records of the history, in that order. |
| RecHistory.CategoriasDe | backend/routes/recomendacoes.py:1368-1372 | One category per product, in order. |
| RecHistory.TotalProdutos | backend/routes/recomendacoes.py:1345-1350 | Summing the per-record product counts gives the number of the client's products. |
| RecHistory.MaisRecente | backend/routes/recomendacoes.py:1398-1401 | The first record with the latest date. |
| RecHistory.ObterResumoCliente | backend/routes/recomendacoes.py:1309-1428 | 404 exactly when the client has no record; otherwise the summary of the client's records and feedbacks. |
| RecHistory.FeedbacksDe | backend/routes/recomendacoes.py:1381-1387 | Exactly the feedbacks whose recommendation id belongs to one of the given records, in order. |
| RecHistory.Resumir | backend/routes/recomendacoes.py:1344-1428 | Record and product totals; the mean confidence and discount over the records; the first five categories by count; feedback, acceptance and purchase counts over the matching feedbacks with their rates; the name and date of the first record with the latest date, as `max` picks it. |
| RecHistory.ResumoTaxas | backend/routes/recomendacoes.py:1389-1395 | The acceptance rate is 0 exactly when no matching feedback is accepted, and 100 exactly when there are some and all are accepted. |
| RecHistory.ResumoEmFaixa | backend/routes/recomendacoes.py:1352-1392 | With each record's confidence in [65, 98] and discount in [0, 15], both means stay in those ranges, and accepted ≤ feedback count ≤ all feedbacks. |
| RecHistory.Pos | backend/routes/recomendacoes.py:1470-1480 | The first index of an entry. |
| RecHistory.IdIndex | backend/routes/recomendacoes.py:1470-1480 | The index of a product id in the consolidated list, or -1 when absent. |
| RecHistory.PosAppend | backend/routes/recomendacoes.py:1470-1480 | Appending does not move the first index of an entry already present. |
| RecHistory.MelhorBound | backend/routes/recomendacoes.py:1474-1478 | A kept entry has the highest confidence among its id. |
| RecHistory.KeepsEntry | backend/routes/recomendacoes.py:1474-1478 | An entry stays the best for its id when a product with another id, or with no higher confidence, arrives. |
| RecHistory.NewBest | backend/routes/recomendacoes.py:1474-1478 | A product with strictly higher confidence than every earlier one with its id becomes the best. |
| RecHistory.AppendCase | backend/routes/recomendacoes.py:1476-1477 | A first occurrence of an id is appended and keeps the list a consolidation. |
| RecHistory.ReplaceCase | backend/routes/recomendacoes.py:1474-1475 | A strictly better confidence replaces the kept entry and keeps the list a consolidation. |
| RecHistory.KeepCase | backend/routes/recomendacoes.py:1474-1478 | An equal or lower confidence leaves the kept entry and the list a consolidation. |
| RecHistory.UpsertConsolidation | backend/routes/recomendacoes.py:1470-1480 | One dict update step keeps the list a consolidation of the products seen so far. |
| RecHistory.Consolidar | backend/routes/recomendacoes.py:1470-1480 | Unique product ids, each entry the first occurrence with the highest confidence for its id, and every seen id present. |
| RecHistory.FiltrarOrdenar | backend/routes/recomendacoes.py:1486-1499 | Exactly the consolidated entries that pass the category and minimum-confidence filters, unique and sorted by confidence. |
| RecHistory.InConsolidation | backend/routes/recomendacoes.py:1470-1480 | Every entry of a consolidation is the best for its id. |
| RecHistory.ListarProdutosCliente | backend/routes/recomendacoes.py:1431-1513 | 404 exactly when the client has no record. Otherwise at most limite entries, unique, sorted, each the best for its id and passing the filters. No passing entry left out has a higher confidence than one kept, and a short page holds every passing entry. |
| RecHistory.Classificar | backend/routes/recomendacoes.py:1542-1549 | The contribution follows the priority comprado > aceito > motivo_recusa > default, stated both ways. |
| RecHistory.RegistrarFeedback | backend/routes/recomendacoes.py:1515-1577 | 404 exactly for an unknown recommendation. Otherwise exactly one entry with the request fields is appended, with its classification. |
| RecHistory.ListarHistorico | backend/routes/recomendacoes.py:1579-1596 | Exactly min(limite, max(0, |history| - offset)) records of the history sorted newest first, starting at offset. |
| RecHistory.PaginasConsecutivas | backend/routes/recomendacoes.py:1579-1596 | Two consecutive pages are the same as one page of twice the size. |
| RecHistory.BuscarRecomendacao | backend/routes/recomendacoes.py:1598-1616 | The first record with that id, or 404 exactly when there is none. |
| RecHistory.ObterEstatisticas | backend/routes/recomendacoes.py:1618-1675 | An empty history gives all zeros, even when feedbacks exist. Otherwise the total is the record count, the rates are the accepted and purchased shares of all feedbacks, the categories are the first five by count and the hours are the three fixed windows. |
| RecHistory.EstatisticasSignificado | backend/routes/recomendacoes.py:1636-1665 | The acceptance and conversion rates are 0 exactly when no feedback is accepted or purchased and 100 exactly when there are some and all are. The category list has min(5, number of distinct categories) entries. |
| RecHistory.LimparHistorico | backend/routes/recomendacoes.py:1677-1690 | Both the history and the feedback list end empty. |
| SellerFeedback.Marcar | frontend/src/components/vendedor/VendedorFeedback.jsx:63-71 | Sets aceito on the product with that id only, keeping its other fields. |
| SellerFeedback.AvaliarProduto | frontend/src/components/vendedor/VendedorFeedback.jsx:61-75 | Only that product of the recommendations with that id changes. There is no guard for feedback already sent. |
| SellerFeedback.Encontrar | frontend/src/components/vendedor/VendedorFeedback.jsx:78 | The first recommendation with that id, or -1. |
| SellerFeedback.EnviarFeedback | frontend/src/components/vendedor/VendedorFeedback.jsx:77-101 | An unknown id or an unmarked product changes nothing. Otherwise exactly the recommendations with that id become sent and the form is cleared. |
| SellerFeedback.EnvioNuncaDesfeito | frontend/src/components/vendedor/VendedorFeedback.jsx:61-101 | Once sent, a recommendation stays sent under marking and sending. |
| SellerFeedback.AvaliarSemGuarda | frontend/src/components/vendedor/VendedorFeedback.jsx:61-75 | A product of an already sent recommendation can still be re-marked. |
| SellerFeedback.AceitosAteProdutos | frontend/src/components/vendedor/VendedorFeedback.jsx:106-113 | Accepted products never outnumber products. |
| SellerFeedback.CalcularEstatisticas | frontend/src/components/vendedor/VendedorFeedback.jsx:103-121 | Only sent recommendations count: their number, their products, their accepted products and the rate of those two, accepted ≤ products; all zeros when nothing was sent. |
| SellerFeedback.TodosAceitos | frontend/src/components/vendedor/VendedorFeedback.jsx:106-113 | The accepted count equals the product count exactly when every product is accepted, and is 0 exactly when none is. |
| SellerFeedback.TaxaDasEnviadas | frontend/src/components/vendedor/VendedorFeedback.jsx:103-121 | The rate is 0 exactly when no sent product is accepted, and 100 exactly when there are sent products and all are accepted. |
| SellerFeedback.NenhumaEnviada | frontend/src/components/vendedor/VendedorFeedback.jsx:104 | With nothing sent, the sent list is empty. |
| SellerFeedback.AvaliarPendenteMantemEstatisticas | frontend/src/components/vendedor/VendedorFeedback.jsx:61-121 | Marking a product of an unsent recommendation leaves the statistics unchanged. |
| Email.TotalMaisEconomia | frontend/src/components/vendedor/VendedorEmail.jsx:184-194 | Total plus saving equals the undiscounted subtotal, for every product list. |
| Email.TotalAteSubtotal | frontend/src/components/vendedor/VendedorEmail.jsx:184-194 | With prices non-negative and discounts in [0, 100], the saving is ≥ 0 and the total lies between 0 and the subtotal. |
| Email.PrimeiroNome | frontend/src/components/vendedor/VendedorEmail.jsx:139 | The prefix of the name before the first space. |
| Email.SelecionarCliente | frontend/src/components/vendedor/VendedorEmail.jsx:133-144 | Selecting sets the personalised subject and a message starting with the greeting by first name, keeping the sent list. |
| Email.EnviarEmail | frontend/src/components/vendedor/VendedorEmail.jsx:146-182 | Without a client, subject or message nothing changes. Otherwise exactly one record is prepended, with the client's name, e-mail and product count; its total plus the saving equals the subtotal. |
| Email.ResetarFormulario | frontend/src/components/vendedor/VendedorEmail.jsx:173-180 | The form is cleared, sending is no longer possible, and the sent list is kept. |
| Email.EnvioUnico | frontend/src/components/vendedor/VendedorEmail.jsx:146-182 | After a send and the reset, a second send changes nothing. |
| ImportWizard.FormularioVazio | frontend/src/components/recomendador/ImportacaoDadosHistoricos.jsx:60-63 | The empty wizard: step 1, no file, source upload, empty mapping. |
| ImportWizard.Resetar | frontend/src/components/recomendador/ImportacaoDadosHistoricos.jsx:182-187 | Resetting gives the empty wizard and keeps whether the modal is open. |
| ImportWizard.SelecionarArquivo | frontend/src/components/recomendador/ImportacaoDadosHistoricos.jsx:119-128 | A chosen file is stored; no file leaves the wizard as it was. |
| ImportWizard.Mapear | frontend/src/components/recomendador/ImportacaoDadosHistoricos.jsx:313 | Sets one mapping key, keeping all other keys and the step. |
| ImportWizard.Proxima | frontend/src/components/recomendador/ImportacaoDadosHistoricos.jsx:130-136 | Moves 1 to 2 exactly when a file is chosen or the source is not upload, and 2 to 3 exactly when the mapping has at least 6 keys; otherwise the step is unchanged, and it stays in 1..3. |
| ImportWizard.Voltar | frontend/src/components/recomendador/ImportacaoDadosHistoricos.jsx:649-656 | Above step 1 it goes back one step; at step 1 it closes and resets the wizard. |
| ImportWizard.ProximaVoltar | frontend/src/components/recomendador/ImportacaoDadosHistoricos.jsx:130-136 | Back undoes a successful Next. |
| ImportWizard.NomeFonte | frontend/src/components/recomendador/ImportacaoDadosHistoricos.jsx:99-105 | The name of the chosen source, or "Upload Manual" when the id is unknown. |
| ImportWizard.TotalSorteado | frontend/src/components/recomendador/ImportacaoDadosHistoricos.jsx:146 | The simulated record count lies in 10000..59999. |
| ImportWizard.NomeArquivo | frontend/src/components/recomendador/ImportacaoDadosHistoricos.jsx:144 | The chosen file name when it is non-empty, else "Importação_DB_" plus the clock in epoch milliseconds. |
| ImportWizard.IniciarImportacao | frontend/src/components/recomendador/ImportacaoDadosHistoricos.jsx:138-154 | Exactly one entry is prepended: processing, progress 0, zero counts, 10000..59999 records and a copy of the mapping. Its id is the list length + 1, its name comes from the millisecond clock, its date is the same reading in seconds, and the form resets. |
| ImportWizard.IdsPodemColidir | frontend/src/components/recomendador/ImportacaoDadosHistoricos.jsx:140 | After a delete, a new import can reuse an existing id. |
| ImportWizard.ContagemFinal | frontend/src/components/recomendador/ImportacaoDadosHistoricos.jsx:166-168 | floor(0.98t) + floor(0.02t) is never more than t. |
| ImportWizard.Tick | frontend/src/components/recomendador/ImportacaoDadosHistoricos.jsx:157-179 | Progress is capped at 100. Only the matching import changes; the final tick sets concluido with the final counts. |
| ImportWizard.TickMonotono | frontend/src/components/recomendador/ImportacaoDadosHistoricos.jsx:157-179 | A tick never decreases progress. |
| ImportWizard.Reprocessar | frontend/src/components/recomendador/ImportacaoDadosHistoricos.jsx:195-199 | Sets processing and progress 0 on the matching imports only. |
| ImportWizard.ReprocessarIdempotente | frontend/src/components/recomendador/ImportacaoDadosHistoricos.jsx:195-199 | Reprocessing twice is reprocessing once. |
| ImportWizard.Excluir | frontend/src/components/recomendador/ImportacaoDadosHistoricos.jsx:189-193 | A confirmed delete keeps, in order, exactly the imports with another id. |
| ImportWizard.Filtradas | frontend/src/components/recomendador/ImportacaoDadosHistoricos.jsx:202-207 | Keeps, in order, exactly the imports matching the status filter and the lower-cased term. |
| ImportWizard.FiltradasTudo | frontend/src/components/recomendador/ImportacaoDadosHistoricos.jsx:202-207 | 'todos' with an empty term keeps every import. |
| Pipelines.Alternar | frontend/src/components/recomendador/ProcessamentoInformacoes.jsx:141-143 | Swaps executando and pausado and leaves every other status. |
| Pipelines.PlayPause | frontend/src/components/recomendador/ProcessamentoInformacoes.jsx:138-149 | Only the matching pipelines change status; all others are untouched. |
| Pipelines.PlayPauseDuasVezes | frontend/src/components/recomendador/ProcessamentoInformacoes.jsx:138-149 | Play/pause twice is the identity. |
| Pipelines.Parar | frontend/src/components/recomendador/ProcessamentoInformacoes.jsx:151-157 | A confirmed stop rewrites the matching pipelines to aguardando with progress 0 and 0 processed records, every other field kept; other pipelines are unchanged. |
| Pipelines.PararDepoisPlayPause | frontend/src/components/recomendador/ProcessamentoInformacoes.jsx:138-157 | Play/pause has no effect on a stopped pipeline. |
| Pipelines.Excluir | frontend/src/components/recomendador/ProcessamentoInformacoes.jsx:159-163 | A confirmed delete keeps, in order, exactly the pipelines with another id. |
| Pipelines.Filtrados | frontend/src/components/recomendador/ProcessamentoInformacoes.jsx:171-174 | 'todos' keeps the whole list; a status keeps exactly the pipelines with it, in order. |
| Sources.Criptografar | backend/routes/fontes.py:35-42 | Empty or missing passwords give no cipher text. |
| Sources.Descriptografar | backend/routes/fontes.py:46-51 | No cipher text gives no password. |
| Sources.SenhaIdaEVolta | backend/routes/fontes.py:35-51 | Decrypting an encrypted non-empty password gives it back; empty or missing gives None. |
| Sources.ExecutarSincronizacao | backend/routes/fontes.py:91-143 | Without force, a sync within an hour of the last one changes nothing and reports zeros. Otherwise it sets the clocks and adds the batch counts; status becomes ATIVA only with zero errors; every other field is kept. |
| Sources.SincronizarFonte | backend/routes/fontes.py:432-485 | An unknown id is 404 and a source already syncing is 409, both with nothing changed. A failure sets ERRO with its message and returns 500. |
| Sources.SincronizarContadores | backend/routes/fontes.py:122-127 | A sync never decreases the imported and error totals of any source. |
| Sources.ThrottleTravaFonte | backend/routes/fontes.py:457-475 | As written, a throttled sync leaves the source SINCRONIZANDO, so the next sync is refused with 409. |
| Sources.ErrosTravamFonte | backend/routes/fontes.py:129-133 | As written, a batch with errors leaves the source SINCRONIZANDO. |
| Sources.SincronizarFonteCorrigida | backend/routes/fontes.py:457-475 | The corrected sync gives the same response as the code as written, changes only that source, and never leaves it SINCRONIZANDO. |
| Sources.CorrigidaNaoTrava | backend/routes/fontes.py:457-475 | With the corrected sync, a second sync right after the first is never refused with 409. |
| Sources.CriarFonte | backend/routes/fontes.py:288-323 | A name in use is a 400 and changes nothing. Otherwise one PENDENTE source is appended, and unique names and ids stay unique. |
| Sources.Aplicar | backend/routes/fontes.py:346-373 | Every supplied field replaces the stored one and every absent field is kept. A supplied password is stored encrypted, the update time is set, and the sync clock, error message and sync duration are kept. |
| Sources.AtualizarFonte | backend/routes/fontes.py:335-375 | 404 for an unknown id. 400 exactly when renaming to another source's name; keeping its own name is allowed. Otherwise only that source changes, and ids and names stay unique. |
| Sources.NomesPreservados | backend/routes/fontes.py:350-360 | Replacing one source by one whose name is its own or unused keeps names and ids unique. |
| Sources.DefinirStatus | backend/routes/fontes.py:487-521 | 404 for an unknown id. Otherwise ATIVA or INATIVA is set on that source only. |
| Sources.DesativarAtivar | backend/routes/fontes.py:487-521 | Deactivating then activating gives ATIVA back. |
| Sources.ExcluirFonte | backend/routes/fontes.py:384-395 | 404 for an unknown id. Otherwise exactly that source is removed. |
| SourceForm.PortaPadrao | frontend/src/components/admin/DataSourceManager.jsx:46-54 | Each type has its default port; csv and excel have none. |
| SourceForm.MudarTipo | frontend/src/components/admin/DataSourceManager.jsx:56-63 | Changing the type sets the type's default port and leaves the other fields. |
| SourceForm.MudarTipoUltimoVence | frontend/src/components/admin/DataSourceManager.jsx:56-63 | Two type changes in a row are the last one. |
| SourceForm.ResetForm | frontend/src/components/admin/DataSourceManager.jsx:87-101 | Restores the empty form with type mysql, hides it and clears the edited id, keeping the sources. |
| SourceForm.Sobrescrever | frontend/src/components/admin/DataSourceManager.jsx:69-73 | The edited source keeps its id, takes every form field including the extra parameters, and becomes active and 'Nunca sincronizado'. |
| SourceForm.Submit | frontend/src/components/admin/DataSourceManager.jsx:65-85 | Editing overwrites only the edited source. Otherwise exactly one pending source is appended, numbered by the clock, with every connection field taken from the form. The form always resets. |
| SourceForm.Edit | frontend/src/components/admin/DataSourceManager.jsx:103-116 | Opening an edit copies name, type, host, port, database and user from the source into the form, with an empty password and no extra parameters, and records its id. |
| SourceForm.EditarSemMudar | frontend/src/components/admin/DataSourceManager.jsx:65-116 | Editing and submitting without changes empties the stored password and sets the source active. |
| SourceForm.TestConnection | frontend/src/components/admin/DataSourceManager.jsx:124-130 | Only the matching sources become active; an unknown id changes nothing. |
| SourceForm.Delete | frontend/src/components/admin/DataSourceManager.jsx:118-122 | A confirmed delete keeps, in order, exactly the sources with another id. |
| UserSchemas.SemFormatacao | backend/schemas.py:41 | Removing separators keeps only characters of the input that are not separators. |
| UserSchemas.SemFormatacaoMembros | backend/schemas.py:41 | A character is in the stripped phone exactly when it is in the input and not a separator. |
| UserSchemas.ValidarTelefone | backend/schemas.py:37-44 | A missing or empty phone is accepted as is. Otherwise it is accepted, unchanged, exactly when the stripped text is non-empty and all digits; anything else is a 422. |
| UserSchemas.TelefoneAceitoSse | backend/schemas.py:37-44 | A non-empty phone is accepted exactly when every character is a digit or a separator and at least one is a digit. |
| UserSchemas.TelefoneFormatadoAceito | backend/schemas.py:40-44 | "(85) 9-1" is accepted. |
| UserSchemas.TelefoneRecusado | backend/schemas.py:40-44 | "()- " and "85a" are refused. |
| UserSchemas.ValidarCreate | backend/schemas.py:26-44 | Accepted exactly when nome has 3..200 characters, senha ≥ 6, departamento ≤ 100 and a valid telefone ≤ 20. tipo defaults to vendedor and status to ativo. |
| UserSchemas.ValidarUpdate | backend/schemas.py:59-76 | Every field is optional, and a present field obeys the same bounds and phone rule. |
| UserSchemas.CreateAceitoUpdateAceito | backend/schemas.py:26-76 | A payload valid for creation is valid as an update. |
| UserSchemas.UpdateVazioAceito | backend/schemas.py:59-76 | The empty update is accepted. |
| UserApi.IndiceDe | backend/routes/usuarios.py:164 | The first user with that id, or -1. |
| UserApi.ObterUsuario | backend/routes/usuarios.py:147-171 | The user with that id, or 404 exactly when there is none. |
| UserApi.CriarUsuario | backend/routes/usuarios.py:205-228 | An e-mail in use is a 400 and changes nothing. Otherwise exactly one user is appended, storing hash(senha), and unique e-mails stay unique. |
| UserApi.Aplicar | backend/routes/usuarios.py:283-300 | Only supplied fields change, a supplied password replaces the hash, and the update time is set. |
| UserApi.AtualizarUsuario | backend/routes/usuarios.py:265-305 | 404 for an unknown id. 400 exactly when a new non-empty e-mail differs from the user's own and is in use. Otherwise only that user changes; unless the new e-mail is empty, unique e-mails stay unique. |
| UserApi.EmailsPreservados | backend/routes/usuarios.py:274-280 | Rewriting a user with its own or an unused e-mail keeps e-mails unique. |
| UserApi.CriarAtualizarMantemEmails | backend/routes/usuarios.py:206-280 | A create followed by an update keeps e-mails unique. |
| UserApi.DeletarUsuario | backend/routes/usuarios.py:324-335 | 404 for an unknown id. Otherwise exactly that user is removed. |
| UserApi.ParseStatus | backend/routes/usuarios.py:373-380 | Only ativo, inativo and bloqueado parse. |
| UserApi.ParseTipo | backend/routes/usuarios.py:66-75 | Only admin, gestor and vendedor parse. |
| UserApi.AlterarStatus | backend/routes/usuarios.py:365-385 | 404 first for an unknown id, then 400 for a status outside the three. Otherwise only status and the update time change. |
| UserApi.AlterarStatusMantemEmails | backend/routes/usuarios.py:365-385 | Changing a status keeps e-mails unique. |
| UserApi.ObterEstatisticas | backend/routes/usuarios.py:120-144 | The total and each status and type count are the true counts over the users. |
| UserApi.StatusSomam | backend/routes/usuarios.py:120-123 | The three status counts add up to the number of users. |
| UserApi.TiposSomam | backend/routes/usuarios.py:125-129 | The three type counts add up to the number of users. |
| UserApi.ComStatusSignificado | backend/routes/usuarios.py:120-123 | A status count is 0 exactly when no user has that status, and the total exactly when all do. |
| UserApi.ComTipoSignificado | backend/routes/usuarios.py:125-129 | A type count is 0 exactly when no user has that type, and the total exactly when all do. |
| UserApi.ListarUsuarios | backend/routes/usuarios.py:30-95 | Error exactly for an unknown tipo or status. Otherwise the page holds min(limite, max(0, matches - offset)) users: the matches sorted newest first, from offset. |
| UserApi.Ordenados | backend/routes/usuarios.py:55-93 | Exactly the users passing every filter, as a permutation of the filtered list, newest first. |
| UserApi.Pagina | backend/routes/usuarios.py:92-95 | The slice of the sorted matches from offset, of length min(limite, max(0, matches - offset)). |
| UserApi.ListarUsuariosComoEscrito | backend/routes/usuarios.py:69-87 | As written, the same error cases come back as 500. |
| UserApi.TipoInvalidoDa500 | backend/routes/usuarios.py:69-75 | An unknown tipo gives 500 as written and 400 as intended. |
| UserAdmin.AbrirModal | frontend/src/components/admin/UserManagement.jsx:65-88 | Editing a given user copies its fields with empty passwords and selects it. Otherwise the default form is shown and the selection kept. |
| UserAdmin.FecharModal | frontend/src/components/admin/UserManagement.jsx:90-93 | Closing hides the modal and clears the selection, keeping the users. |
| UserAdmin.MaiorId | frontend/src/components/admin/UserManagement.jsx:119 | The largest id, or 0 for an empty list; every id is at most it. |
| UserAdmin.EditarTodos | frontend/src/components/admin/UserManagement.jsx:135-139 | Users with the selected id take the form's name, e-mail, role and status; others are unchanged. |
| UserAdmin.Submeter | frontend/src/components/admin/UserManagement.jsx:95-144 | An empty name or e-mail changes nothing. A create succeeds exactly when both passwords are non-empty and equal and the e-mail is new, appending one user with id max + 1. An edit with a non-empty password that differs from its confirmation, or with no selected user, changes nothing; any other edit rewrites every user with the selected id from the form and closes the modal. |
| UserAdmin.Excluir | frontend/src/components/admin/UserManagement.jsx:146-151 | A confirmed delete keeps, in order, exactly the users with another id. |
| UserAdmin.Filtrados | frontend/src/components/admin/UserManagement.jsx:153-157 | Keeps exactly the users whose name, e-mail or role contains the lower-cased term, in their order. |
| UserAdmin.BuscaVaziaListaTodos | frontend/src/components/admin/UserManagement.jsx:153-157 | An empty search lists every user. |
| UserAdmin.SubmeterMantemIds | frontend/src/components/admin/UserManagement.jsx:118-141 | Every submit keeps ids unique: the new id is larger than all others and an edit never changes one. |
| UserAdmin.CriarMantemEmails | frontend/src/components/admin/UserManagement.jsx:112-127 | A create keeps e-mails unique. |
| UserAdmin.EdicaoDuplicaEmail | frontend/src/components/admin/UserManagement.jsx:129-141 | An edit can give a user another user's e-mail. |
| Storage.PadraoBemFormado | frontend/src/services/storageService.js:42-104 | The six default users have ids 1..6, distinct e-mails, and exactly one administrator. |
| Storage.Lista | frontend/src/services/storageService.js:135-138 | The stored list, or the empty list when the key is missing. |
| Storage.CriarPadrao | frontend/src/services/storageService.js:42-106 | Writes the default users and no other key. |
| Storage.Inicializar | frontend/src/services/storageService.js:19-39 | Writes the defaults exactly when the user list is missing or empty, and leaves a non-empty list alone. |
| Storage.InicializarIdempotente | frontend/src/services/storageService.js:19-39 | Initializing twice is initializing once. |
| Storage.AdicionarUsuario | frontend/src/services/storageService.js:144-149 | Appends exactly one user at the end and returns it. |
| Storage.Mesclar | frontend/src/services/storageService.js:155 | Spreading the changes over a user: each supplied field wins and each absent field keeps its value. |
| Storage.Todos | frontend/src/services/storageService.js:155 | Spreading a whole user object yields that user. |
| Storage.IndiceDe | frontend/src/services/storageService.js:153 | The first user with that id, or -1. |
| Storage.AtualizarUsuario | frontend/src/services/storageService.js:151-160 | Merges the changes into the first user with that id and returns it. With no match it returns null and storage is unchanged. |
| Storage.AtualizarMantemIds | frontend/src/services/storageService.js:151-160 | An update that keeps the id keeps ids unique. |
| Storage.SemId | frontend/src/services/storageService.js:164 | Keeps exactly the users with another id, in their order. |
| Storage.ExcluirUsuario | frontend/src/services/storageService.js:162-167 | Removes every user with that id, writing the list back even when it was missing. |
| Storage.ExcluirAusente | frontend/src/services/storageService.js:162-167 | Deleting an absent id keeps the list. |
| Storage.LimparTudo | frontend/src/services/storageService.js:213-219 | All four keys are removed. |
| Storage.ForcarReset | frontend/src/services/storageService.js:222-227 | Only the default users remain. |
| Storage.ResetEInicializar | frontend/src/services/storageService.js:19-39 | Initializing after a reset changes nothing; after clearing it restores the defaults. |
| Auth.Credenciado | frontend/src/services/authService.js:11-15 | The first stored user with that e-mail and password and status Ativo, or -1 when none. |
| Auth.Entrar | frontend/src/services/authService.js:9-36 | Succeeds exactly when an active user has that e-mail and password. On success the first such user, with the new last access, becomes the current user, and storage holds that user rewritten in place. On failure nothing changes. |
| Auth.EntrarSoMudaAcesso | frontend/src/services/authService.js:17-23 | With unique ids, a login changes only the last access of the user who logged in. |
| Auth.Sair | frontend/src/services/authService.js:39-42 | No user is current in memory or in the session. |
| Auth.UsuarioAtual | frontend/src/services/authService.js:45-57 | The in-memory user, else the session one, which is then cached. |
| Auth.Autenticado | frontend/src/services/authService.js:60-62 | Authenticated exactly when a user is in memory or in the session. |
| Auth.EhAdmin | frontend/src/services/authService.js:65-68 | Admin exactly when the current user's role is Administrador. |
| Auth.Nivel | frontend/src/services/authService.js:75-80 | Only Administrador, Supervisor, Consultor and Vendedor are ranked, in 1..4, and only Administrador ranks 4. |
| Auth.TemPermissao | frontend/src/services/authService.js:71-83 | Granted exactly when a user is current, both roles are ranked and the user's rank is at least the required one. |
| Auth.PermissaoHierarquica | frontend/src/services/authService.js:75-82 | Permission for a role implies permission for every lower one, and an administrator holds every known role. |
| Auth.EntrarESair | frontend/src/services/authService.js:9-68 | After logout no one is authenticated or permitted. After a successful login the user is current and holds their own known role. |
| Consulta.CatalogoInjective | frontend/src/components/vendedor/VendedorConsulta.jsx:84-97 | Distinct catalogue slots hold distinct products. |
| Tally.BumpTally | backend/routes/recomendacoes.py:1370-1372 | One counting step keeps the dict a true count of the categories seen so far. |
| Pipelines.TodosPassam | frontend/src/components/recomendador/ProcessamentoInformacoes.jsx:171-174 | 'todos' lets every pipeline through the filter. |

## Left out

- Rendering: JSX markup, alerts, modals opened purely for display, icons and CSS are not modelled; only the state each handler computes is.
- Timers: `setTimeout` delays and `time.sleep` are dropped; one `setInterval` step of the import progress is `ImportWizard.Tick`, and the timer itself is not modelled.
- Randomness, the clock and `window.confirm`: these are parameters. The model states what holds for every draw in range, not the distribution.
- Rounding and formatting: `round(..., 2)`, `toFixed` and `toLocaleString` are not modelled, and amounts are exact reals rather than floats.
- Dates: ISO timestamps are integers (seconds); ISO strings of one format order the same way.
- Connection testing (`simular_teste_conexao`, backend/routes/fontes.py:53-89): a simulated random check with no state change, left out.
- Listing, statistics and single-item reads of data sources (`listar_fontes`, the fontes statistics route, `obter_fonte`): read-only queries, left out.
- Password protection: base64 encoding is an abstract wrapper that decodes back to the plain text, and SHA-256 is an uninterpreted function parameter.
- Frameworks and storage engines: FastAPI routing, pydantic parsing and SQLAlchemy sessions are not modelled. Tables are lists, and `commit` is the returned list.
- Not part of this model: application startup, configuration, seed scripts and static pages. The data-source ORM model and schemas are not part of this model either; their enumeration values are those the route uses.
- Text: lower-casing and `isdigit` are ASCII only, and so is the `\d` of the client-id pattern `^CLI\d{3}$`, where Python's `re` also accepts other Unicode decimal digits. SQL `ILIKE` wildcards in a search term are taken literally. A NULL `departamento` never matches a department filter.
- `EmailStr` format validation is not modelled; any string is an e-mail.
- Explicit `null` in an update payload is treated like an absent field.
- A sync that fails after partial updates: the model applies the failure to the source as it was when marked SINCRONIZANDO.
- `PRODUTOS_MOCK` contents: the catalogue is a parameter, and its prices and categories are data, not constants.
- Per-department grouping in the user statistics (`por_departamento`) is not modelled.
- The contents of the stored data-source, recommendation and report lists, and parsing of the session JSON, are not modelled. Only whether those keys are present is.
- RecHistory.ObterEstatisticas: the rates are exact shares, not `round(..., 2)` values, and the fixed model-performance block (accuracy, precision, version, timestamp) is not modelled.
- RecHistory.Resumir: the means and rates are exact, not `round(..., 2)` and `round(..., 1)` values, and the client profile copied from the latest record is not modelled.
- RecEngine.NumPriorizados: `int(q * 0.6)` is computed exactly as `(6q) / 10`; no binary floating-point error is modelled.
- UserApi.AtualizarUsuario: e-mail uniqueness is promised only when the new e-mail is not empty, because the route skips its duplicate check for an empty e-mail.
- UserApi.ListarUsuariosComoEscrito: the as-written listing states only its error cases and membership, not the page order and completeness that the corrected listing proves.

## Findings

| source | as written | input that shows it | evidently intended | confidence | as-written member | corrected member |
|---|---|---|---|---|---|---|
| backend/routes/fontes.py:129-133,457-475 | The route marks the source SINCRONIZANDO before syncing, and the sync sets ATIVA only when the batch has no errors. A sync throttled by the one-hour rule, or one whose batch has errors, leaves it SINCRONIZANDO. | An ATIVA source last synced 30 minutes ago, synced twice without `force`: the first call reports that nothing was synced, and the second returns 409. | A sync that did not run, or that ran with errors, leaves the source out of SINCRONIZANDO, so a later sync is accepted. | not executed | Sources.ThrottleTravaFonte, Sources.ErrosTravamFonte | Sources.SincronizarFonteCorrigida, Sources.CorrigidaNaoTrava |
| backend/routes/usuarios.py:33,69-87 | The query parameter `status` shadows the imported `fastapi.status` module, so building the 400 response for a bad `tipo` or `status` fails with an attribute error, which is a 500. | `GET /api/usuarios?tipo=x` | 400 with the message naming the valid values | not executed | UserApi.ListarUsuariosComoEscrito, UserApi.TipoInvalidoDa500 | UserApi.ListarUsuarios |

The first finding cannot be reached through the application as shipped. backend/app.py:53-56 leaves
the `include_router` calls for the fontes and recomendacoes routers commented out. backend/routes/fontes.py:16-26
also imports schema names (`FonteDadosCreate`, `FonteDadosResponse` and others) that backend/schemas.py does not
define, so that module fails at import. The model treats both routers as if they were mounted and their schemas existed.

=== FILE: auth.dfy ===
/**
 * The browser-side login over the mock database: the current user is kept
 * both in memory and in `sessionStorage`, and roles are ranked for
 * permission checks. `agora` is the formatted local time a login records.
 */
module Auth {
  import opened Common
  import opened Seqs
  import opened Storage

  datatype Sessao = Sessao(memoria: Option<UsuarioSalvo>, armazenada: Option<UsuarioSalvo>)

  /** `users.find(...)` of `login`: the first active user with that e-mail and password. */
  function Credenciado(us: seq<UsuarioSalvo>, email: string, senha: string): (k: int)
    ensures -1 <= k < |us|
    ensures k >= 0 ==> us[k].email == email && us[k].senha == senha && us[k].status == "Ativo"
    ensures k >= 0 ==> forall j :: 0 <= j < k ==> !(us[j].email == email && us[j].senha == senha && us[j].status == "Ativo")
    ensures k < 0 <==> forall j :: 0 <= j < |us| ==> !(us[j].email == email && us[j].senha == senha && us[j].status == "Ativo")
  {
    FirstWhere(us, (u: UsuarioSalvo) => u.email == email && u.senha == senha && u.status == "Ativo")
  }

  /**
   * `login`: on a match the user's last access is rewritten in the stored
   * list and the updated user becomes the current one; otherwise nothing
   * changes and the result is a failure.
   */
  function Entrar(st: Armazenamento, s: Sessao, email: string, senha: string, agora: string): (r: (Armazenamento, Sessao, Option<UsuarioSalvo>))
    ensures r.2.Some? <==> exists j :: 0 <= j < |Lista(st)| && Lista(st)[j].email == email && Lista(st)[j].senha == senha && Lista(st)[j].status == "Ativo"
    ensures r.2.None? ==> r.0 == st && r.1 == s
    ensures r.2.Some? ==>
              && r.2.value.email == email && r.2.value.senha == senha && r.2.value.status == "Ativo"
              && r.2.value.ultimoAcesso == agora
              && r.1 == Sessao(r.2, r.2)
              && r.2.value in Lista(r.0)
    ensures r.2.Some? ==>
              var k := Credenciado(Lista(st), email, senha);
              var u := Lista(st)[k].(ultimoAcesso := agora);
              && r.2 == Some(u)
              && r.0 == AtualizarUsuario(st, u.id, Todos(u)).0
  {
    var us := Lista(st);
    var k := Credenciado(us, email, senha);
    if k < 0 then (st, s, None)
    else
      var u := us[k].(ultimoAcesso := agora);
      var (st', _) := AtualizarUsuario(st, u.id, Todos(u));
      assert IndiceDe(us, u.id) >= 0;
      assert u in Lista(st');
      (st', Sessao(Some(u), Some(u)), Some(u))
  }

  /** With unique ids, a login changes only the last-access time of the user who logged in. */
  lemma EntrarSoMudaAcesso(st: Armazenamento, s: Sessao, email: string, senha: string, agora: string)
    requires IdsUnicos(Lista(st))
    requires Entrar(st, s, email, senha, agora).2.Some?
    ensures var r := Entrar(st, s, email, senha, agora);
            var k := Credenciado(Lista(st), email, senha);
            && Lista(r.0) == Lista(st)[k := Lista(st)[k].(ultimoAcesso := agora)]
            && r.0.fontes == st.fontes && r.0.recomendacoes == st.recomendacoes && r.0.relatorios == st.relatorios
  {
    var us := Lista(st);
    var k := Credenciado(us, email, senha);
    assert IndiceDe(us, us[k].id) == k;
  }

  /** `logout`. */
  function Sair(s: Sessao): (r: Sessao)
    ensures r.memoria.None? && r.armazenada.None?
  {
    Sessao(None, None)
  }

  /** `getCurrentUser`: the in-memory user, else the one in `sessionStorage`, which is then cached. */
  function UsuarioAtual(s: Sessao): (r: (Sessao, Option<UsuarioSalvo>))
    ensures s.memoria.Some? ==> r == (s, s.memoria)
    ensures s.memoria.None? ==> r == (s.(memoria := s.armazenada), s.armazenada)
    ensures r.1.Some? ==> r.0.memoria == r.1
  {
    if s.memoria.Some? then (s, s.memoria)
    else (s.(memoria := s.armazenada), s.armazenada)
  }

  /** `isAuthenticated`. */
  function Autenticado(s: Sessao): (b: bool)
    ensures b <==> s.memoria.Some? || s.armazenada.Some?
  {
    UsuarioAtual(s).1.Some?
  }

  /** `isAdmin`. */
  function EhAdmin(s: Sessao): (b: bool)
    ensures b <==> Autenticado(s) && UsuarioAtual(s).1.value.papel == "Administrador"
  {
    var u := UsuarioAtual(s).1;
    u.Some? && u.value.papel == "Administrador"
  }

  /** The role hierarchy; a role outside it has no rank (`undefined`). */
  function Nivel(papel: string): (n: Option<int>)
    ensures n.Some? <==> papel in {"Administrador", "Supervisor", "Consultor", "Vendedor"}
    ensures n.Some? ==> 1 <= n.value <= 4
    ensures n == Some(4) <==> papel == "Administrador"
  {
    if papel == "Administrador" then Some(4)
    else if papel == "Supervisor" then Some(3)
    else if papel == "Consultor" then Some(2)
    else if papel == "Vendedor" then Some(1)
    else None
  }

  /**
   * `hasPermission`: a logged-in user whose rank is at least the required
   * one. A comparison with `undefined` is false, so an unknown role on
   * either side denies.
   */
  function TemPermissao(s: Sessao, exigido: string): (b: bool)
    ensures b <==> Autenticado(s) && Nivel(UsuarioAtual(s).1.value.papel).Some? && Nivel(exigido).Some?
                   && Nivel(UsuarioAtual(s).1.value.papel).value >= Nivel(exigido).value
  {
    var u := UsuarioAtual(s).1;
    if u.None? then false
    else
      var a := Nivel(u.value.papel);
      var e := Nivel(exigido);
      a.Some? && e.Some? && a.value >= e.value
  }

  /** An administrator holds every known role; anyone holding a role holds every lower one. */
  lemma PermissaoHierarquica(s: Sessao, alto: string, baixo: string)
    requires Nivel(baixo).Some? && Nivel(alto).Some? && Nivel(baixo).value <= Nivel(alto).value
    ensures TemPermissao(s, alto) ==> TemPermissao(s, baixo)
    ensures EhAdmin(s) ==> TemPermissao(s, baixo)
  {
  }

  /** After logout no one is authenticated or permitted; after a successful login the user holds their own role. */
  lemma EntrarESair(st: Armazenamento, s: Sessao, email: string, senha: string, agora: string, papel: string)
    ensures !Autenticado(Sair(s)) && !TemPermissao(Sair(s), papel)
    ensures var r := Entrar(st, s, email, senha, agora);
            r.2.Some? ==> Autenticado(r.1) && UsuarioAtual(r.1).1 == r.2
                          && (Nivel(r.2.value.papel).Some? ==> TemPermissao(r.1, r.2.value.papel))
  {
  }
}

=== FILE: common.dfy ===
/** Result shapes shared by every page and route of the model. */
module Common {

  /** A value that may be absent: JavaScript `null`/`undefined`, Python `None`. */
  datatype Option<+T> = None | Some(value: T)

  /** The outcome of a route: a value, or the HTTP status code of the exception it raises. */
  datatype Result<+T> = Ok(value: T) | Err(code: int)

  /** Python truthiness of an optional string: `None` and `''` are both false. */
  predicate Truthy(s: Option<string>) {
    s.Some? && s.value != ""
  }

  function Min(a: int, b: int): int {
    if a <= b then a else b
  }

  function Max(a: int, b: int): int {
    if a >= b then a else b
  }

  /** A value of `Math.random()` or Python's `random.random()`: a real in [0, 1). */
  predicate IsUnit(u: real) { 0.0 <= u < 1.0 }

  /** `parte / total * 100`, guarded to 0 when `total` is 0. */
  function Taxa(parte: nat, total: nat): (t: real)
    requires parte <= total
    ensures 0.0 <= t <= 100.0
    ensures total == 0 ==> t == 0.0
    ensures total > 0 && parte == total ==> t == 100.0
    ensures total > 0 ==> t * total as real == parte as real * 100.0
  {
    if total > 0 then
      assert parte as real / total as real <= 1.0 by {
        assert (parte as real / total as real) * total as real == parte as real;
      }
      assert parte as real / total as real * 100.0 * total as real == parte as real * 100.0 by {
        assert (parte as real / total as real) * total as real == parte as real;
      }
      parte as real / total as real * 100.0
    else 0.0
  }

  /** A rate is 0 exactly when the part is 0, and 100 exactly when the part is the whole of a non-empty total. */
  lemma TaxaExtremos(parte: nat, total: nat)
    requires parte <= total
    ensures Taxa(parte, total) == 0.0 <==> parte == 0
    ensures Taxa(parte, total) == 100.0 <==> total > 0 && parte == total
  {
    if total > 0 {
      var t := Taxa(parte, total);
      assert t * total as real == parte as real * 100.0;
    }
  }
}

=== FILE: consulta.dfy ===
/**
 * The seller's consultation page: a client search, the front-end ranker that
 * turns a fixed 12-product catalogue into 6 to 8 scored suggestions, the
 * reason templates attached to each suggestion, and a quote cart.
 *
 * The ranker first sorts favourite categories to the front and then sorts
 * again with a random comparator, which discards that order; the order that
 * reaches the slice is therefore taken as an arbitrary permutation `perm` of
 * the catalogue indices. Every `Math.random()` draw is a parameter in [0, 1).
 */
module Consulta {
  import opened Common
  import opened Text
  import opened Seqs

  datatype Produto = Produto(id: int, nome: string, preco: real, categoria: string,
                             estoque: int, desconto: real)

  datatype Cliente = Cliente(id: int, nome: string, email: string, cpf: string, fidelidade: string)

  /** `produtosMock`: the catalogue every suggestion is drawn from. */
  const Catalogo: seq<Produto> := [
    Produto(1, "Notebook Dell Inspiron 15 i5 11ª Gen 8GB 256GB SSD", 3299.99, "Notebooks", 12, 0.0),
    Produto(2, "Monitor LG 27\" UltraWide Full HD IPS 75Hz", 1799.99, "Monitores", 8, 10.0),
    Produto(3, "Mouse Logitech MX Master 3 Wireless", 449.99, "Periféricos", 25, 0.0),
    Produto(4, "Teclado Mecânico Redragon K552 RGB", 279.99, "Periféricos", 18, 15.0),
    Produto(5, "Webcam Logitech C920 Full HD 1080p", 419.99, "Áudio", 15, 0.0),
    Produto(6, "SSD Kingston NV2 500GB M.2 NVMe", 289.99, "Armazenamento", 30, 0.0),
    Produto(7, "Headset HyperX Cloud II Gaming 7.1", 549.99, "Áudio", 10, 20.0),
    Produto(8, "Hub USB-C 7 em 1 com HDMI e Ethernet", 159.99, "Acessórios", 22, 0.0),
    Produto(9, "Suporte Ergonômico para Monitor Articulado", 189.99, "Ergonomia", 14, 0.0),
    Produto(10, "Mousepad Gamer Grande 90x40cm", 79.99, "Acessórios", 35, 0.0),
    Produto(11, "Notebook Lenovo IdeaPad 3 i7 16GB 512GB", 4199.99, "Notebooks", 6, 0.0),
    Produto(12, "Monitor Samsung 24\" Curvo Full HD 75Hz", 899.99, "Monitores", 11, 0.0)
  ]

  /** Catalogue ids are 1..12 in catalogue order, so no product occurs twice. */
  lemma CatalogoIds()
    ensures |Catalogo| == 12
    ensures forall i :: 0 <= i < |Catalogo| ==> Catalogo[i].id == i + 1
  {
  }

  /** One suggestion: the product plus what the ranker attaches to it. */
  datatype Sugestao = Sugestao(produto: Produto, posicao: int, confianca: real, motivo: string, score: real)

  /** The three draws made for the product at one pre-sort index. */
  datatype Sorteio = Sorteio(uConfianca: real, uMotivo: real, uScore: real)

  predicate ValidSorteio(d: Sorteio) {
    IsUnit(d.uConfianca) && IsUnit(d.uMotivo) && IsUnit(d.uScore)
  }

  /** `perm` lists each index below `n` exactly once. */
  predicate IsPermutation(perm: seq<int>, n: nat) {
    && |perm| == n
    && (forall i :: 0 <= i < n ==> 0 <= perm[i] < n)
    && Distinct(perm)
  }

  function RealMin(a: real, b: real): real { if a <= b then a else b }
  function RealMax(a: real, b: real): real { if a >= b then a else b }

  /** `Math.min(hi, Math.max(lo, x))`. */
  function Clamp(x: real, lo: real, hi: real): (c: real)
    requires lo <= hi
    ensures lo <= c <= hi
    ensures lo <= x <= hi ==> c == x
    ensures x < lo ==> c == lo
    ensures x > hi ==> c == hi
  {
    RealMin(hi, RealMax(lo, x))
  }

  const ConfiancaBase: real := 82.0

  /**
   * The confidence for variation draw `u`: 82 plus a variation in [-7.5, 7.5),
   * clamped to [70, 95]. For a draw in [0, 1) the clamp never fires.
   */
  function Confianca(u: real): (c: real)
    ensures 70.0 <= c <= 95.0
    ensures IsUnit(u) ==> c == ConfiancaBase + (u * 15.0 - 7.5) && 74.5 <= c < 89.5
  {
    Clamp(ConfiancaBase + (u * 15.0 - 7.5), 70.0, 95.0)
  }

  /** The categories that have their own reason templates. */
  const Categorias: set<string> :=
    {"Notebooks", "Monitores", "Periféricos", "Áudio", "Acessórios", "Armazenamento", "Ergonomia"}

  const AcessoriosTemplates: seq<string> := [
    "Complemento de alto valor agregado",
    "Melhora organização e produtividade",
    "Preço acessível com alta utilidade",
    "Facilita conexão de múltiplos dispositivos"
  ]

  function NotebooksTemplates(fidelidade: string): (t: seq<string>)
    ensures |t| == 4
  {
    ["Cliente " + fidelidade + " com histórico em notebooks - Alta probabilidade de upgrade",
     "Baseado nas últimas 3 compras em tecnologia do cliente",
     "Tendência de renovação de equipamento a cada 2 anos",
     "Perfil de uso profissional intensivo identificado"]
  }

  const MonitoresTemplates: seq<string> := [
    "Setup multi-monitor aumenta produtividade em 42%",
    "Clientes com notebook costumam adquirir monitor externo",
    "Tendência crescente de trabalho híbrido",
    "Compatível com equipamentos já adquiridos"]

  const PerifericosTemplates: seq<string> := [
    "Complemento natural para setup de trabalho/gaming",
    "Alto índice de satisfação nesta categoria",
    "Acessório essencial para produtividade",
    "Frequentemente adquirido junto com computadores"]

  const AudioTemplates: seq<string> := [
    "Essencial para reuniões online e entretenimento",
    "Qualidade de áudio valorizada pelo perfil do cliente",
    "Combo popular com computadores",
    "Investimento em conforto sonoro"]

  const ArmazenamentoTemplates: seq<string> := [
    "Upgrade de performance comprovado",
    "Necessidade identificada no perfil de uso",
    "Solução para limitação de espaço",
    "ROI imediato em velocidade"]

  const ErgonomiaTemplates: seq<string> := [
    "Saúde e conforto são prioridades",
    "Investimento em bem-estar no trabalho",
    "Reduz fadiga em longas jornadas",
    "Recomendado por especialistas"]

  /** The reason templates of a category; categories outside the table fall back to 'Acessórios'. */
  function Templates(categoria: string, fidelidade: string): (t: seq<string>)
    ensures |t| == 4
    ensures categoria !in Categorias ==> t == AcessoriosTemplates
    ensures categoria == "Acessórios" ==> t == AcessoriosTemplates
  {
    if categoria == "Notebooks" then NotebooksTemplates(fidelidade)
    else if categoria == "Monitores" then MonitoresTemplates
    else if categoria == "Periféricos" then PerifericosTemplates
    else if categoria == "Áudio" then AudioTemplates
    else if categoria == "Armazenamento" then ArmazenamentoTemplates
    else if categoria == "Ergonomia" then ErgonomiaTemplates
    else AcessoriosTemplates
  }

  /** `gerarMotivo`: picks template `floor(4u)` of the category's four. */
  function GerarMotivo(categoria: string, fidelidade: string, u: real): (m: string)
    requires IsUnit(u)
    ensures m in Templates(categoria, fidelidade)
    ensures categoria !in Categorias ==> m in AcessoriosTemplates
  {
    var t := Templates(categoria, fidelidade);
    t[(u * 4.0).Floor]
  }

  /** Slot `i` before the score sort: product `perm[i]` at position `i + 1`, score `100 - 5i + 10u`. */
  function Slot(perm: seq<int>, draws: seq<Sorteio>, fidelidade: string, i: nat): (x: Sugestao)
    requires i < |perm| && i < |draws| && 0 <= perm[i] < |Catalogo| && ValidSorteio(draws[i])
    ensures x.posicao == i + 1 && x.produto == Catalogo[perm[i]]
    ensures FromSlot(x, perm, draws, fidelidade)
  {
    Sugestao(
      Catalogo[perm[i]],
      i + 1,
      Confianca(draws[i].uConfianca),
      GerarMotivo(Catalogo[perm[i]].categoria, fidelidade, draws[i].uMotivo),
      (100 - i * 5) as real + draws[i].uScore * 10.0)
  }

  /** The list before the score sort, one slot per index. */
  function PreSort(perm: seq<int>, n: nat, draws: seq<Sorteio>, fidelidade: string): (pre: seq<Sugestao>)
    requires n <= |perm| && n <= |draws|
    requires forall i :: 0 <= i < n ==> 0 <= perm[i] < |Catalogo| && ValidSorteio(draws[i])
    ensures |pre| == n
    ensures forall i :: 0 <= i < n ==> pre[i].posicao == i + 1 && pre[i].produto == Catalogo[perm[i]]
    ensures forall i :: 0 <= i < n ==> FromSlot(pre[i], perm, draws, fidelidade)
  {
    seq(n, i requires 0 <= i < n && n <= |perm| && n <= |draws|
                      && 0 <= perm[i] < |Catalogo| && ValidSorteio(draws[i]) =>
      Slot(perm, draws, fidelidade, i))
  }

  /**
   * What a suggestion at position `p` carries: the permuted catalogue product
   * of slot `p - 1`, a confidence in [70, 95] equal to 82 plus that slot's
   * variation, a score in [100 - 5(p-1), 110 - 5(p-1)), and one of its
   * category's reasons.
   */
  predicate FromSlot(x: Sugestao, perm: seq<int>, draws: seq<Sorteio>, fidelidade: string) {
    && 1 <= x.posicao <= |perm| && x.posicao <= |draws|
    && 0 <= perm[x.posicao - 1] < |Catalogo|
    && x.produto == Catalogo[perm[x.posicao - 1]]
    && 70.0 <= x.confianca <= 95.0
    && x.confianca == ConfiancaBase + (draws[x.posicao - 1].uConfianca * 15.0 - 7.5)
    && (100 - 5 * (x.posicao - 1)) as real <= x.score < (110 - 5 * (x.posicao - 1)) as real
    && x.motivo in Templates(x.produto.categoria, fidelidade)
  }

  function ScoreOf(s: Sugestao): real { s.score }

  /** The number of products kept: `6 + floor(3u)`. */
  function Quantidade(uQuantidade: real): (n: int)
    requires IsUnit(uQuantidade)
    ensures 6 <= n <= 8
  {
    6 + (uQuantidade * 3.0).Floor
  }

  /** Each sorted suggestion is the pre-sort one at index `posicao - 1`. */
  lemma SortedByPosicao(pre: seq<Sugestao>, r: seq<Sugestao>)
    requires forall k :: 0 <= k < |pre| ==> pre[k].posicao == k + 1
    requires forall y :: y in r <==> y in pre
    ensures forall i :: 0 <= i < |r| ==> 1 <= r[i].posicao <= |pre| && r[i] == pre[r[i].posicao - 1]
  {
    forall i | 0 <= i < |r| ensures 1 <= r[i].posicao <= |pre| && r[i] == pre[r[i].posicao - 1] {
      assert r[i] in pre;
      var k :| 0 <= k < |pre| && pre[k] == r[i];
    }
  }

  /** Different catalogue indices hold different products. */
  lemma CatalogoInjective(x: int, y: int)
    requires 0 <= x < |Catalogo| && 0 <= y < |Catalogo| && x != y
    ensures Catalogo[x] != Catalogo[y]
  {
    CatalogoIds();
    assert Catalogo[x].id != Catalogo[y].id;
  }

  /** Distinct pre-sort slots hold distinct catalogue products. */
  lemma DistinctProducts(perm: seq<int>, r: seq<Sugestao>)
    requires IsPermutation(perm, |Catalogo|)
    requires forall i :: 0 <= i < |r| ==> 1 <= r[i].posicao <= |perm| && r[i].produto == Catalogo[perm[r[i].posicao - 1]]
    requires forall i, j :: 0 <= i < j < |r| ==> r[i].posicao != r[j].posicao
    ensures forall i, j :: 0 <= i < j < |r| ==> r[i].produto != r[j].produto
  {
    forall i, j | 0 <= i < j < |r| ensures r[i].produto != r[j].produto {
      var a, b := r[i].posicao - 1, r[j].posicao - 1;
      assert perm[a] != perm[b];
      CatalogoInjective(perm[a], perm[b]);
    }
  }

  /**
   * `gerarRecomendacoes`: keeps the first `6 + floor(3u)` products of the
   * permuted catalogue, attaches position, confidence, reason and score, and
   * sorts by score, highest first. `draws` holds one triple per possible slot.
   */
  function GerarRecomendacoes(fidelidade: string, perm: seq<int>, uQuantidade: real, draws: seq<Sorteio>): (r: seq<Sugestao>)
    requires IsPermutation(perm, |Catalogo|) && IsUnit(uQuantidade)
    requires |draws| >= 8 && forall i :: 0 <= i < |draws| ==> ValidSorteio(draws[i])
    ensures |r| == Quantidade(uQuantidade) && 6 <= |r| <= 8
    ensures SortedDesc(r, ScoreOf)
    ensures forall i :: 0 <= i < |r| ==> r[i].posicao <= |r| && FromSlot(r[i], perm, draws, fidelidade)
    ensures forall i, j :: 0 <= i < j < |r| ==> r[i].posicao != r[j].posicao
    ensures forall i, j :: 0 <= i < j < |r| ==> r[i].produto != r[j].produto
    ensures forall i :: 0 <= i < |r| ==> r[i].produto in Catalogo
  {
    var n := Quantidade(uQuantidade);
    var pre := PreSort(perm, n, draws, fidelidade);
    PosicoesDistintas(pre);
    var r := SortDesc(pre, ScoreOf);
    SortDescDistinct(pre, ScoreOf);
    OrdenadasDeSlots(fidelidade, perm, draws, pre, r);
    OrdenadasPosicoes(pre, r);
    DistinctProducts(perm, r);
    r
  }

  /** Slots numbered 1, 2, ... hold distinct suggestions. */
  lemma PosicoesDistintas(pre: seq<Sugestao>)
    requires forall k :: 0 <= k < |pre| ==> pre[k].posicao == k + 1
    ensures Distinct(pre)
  {
    forall i, j | 0 <= i < j < |pre| ensures pre[i] != pre[j] {
      assert pre[i].posicao != pre[j].posicao;
    }
  }

  /** A reordering of the numbered slots keeps every slot's facts. */
  lemma OrdenadasDeSlots(fidelidade: string, perm: seq<int>, draws: seq<Sorteio>, pre: seq<Sugestao>, r: seq<Sugestao>)
    requires |pre| <= |perm| && |pre| <= |draws|
    requires forall k :: 0 <= k < |pre| ==> pre[k].posicao == k + 1 && FromSlot(pre[k], perm, draws, fidelidade)
    requires forall y :: y in r <==> y in pre
    ensures forall i :: 0 <= i < |r| ==> r[i].posicao <= |pre| && FromSlot(r[i], perm, draws, fidelidade)
    ensures forall i :: 0 <= i < |r| ==> r[i].produto in Catalogo
  {
    SortedByPosicao(pre, r);
  }

  /** A duplicate-free reordering of the numbered slots has one suggestion per position. */
  lemma OrdenadasPosicoes(pre: seq<Sugestao>, r: seq<Sugestao>)
    requires forall k :: 0 <= k < |pre| ==> pre[k].posicao == k + 1
    requires forall y :: y in r <==> y in pre
    requires Distinct(r)
    ensures forall i, j :: 0 <= i < j < |r| ==> r[i].posicao != r[j].posicao
  {
    SortedByPosicao(pre, r);
  }

  /**
   * Positions are given before the score sort, so the output need not list them
   * in increasing order: whenever the second product's noise outweighs its
   * 5-point handicap, position 2 comes out ahead of position 1.
   */
  lemma PosicaoNotSorted(fidelidade: string, perm: seq<int>, uQuantidade: real, draws: seq<Sorteio>)
    requires IsPermutation(perm, |Catalogo|) && IsUnit(uQuantidade)
    requires |draws| >= 8 && forall i :: 0 <= i < |draws| ==> ValidSorteio(draws[i])
    requires draws[1].uScore * 10.0 - 5.0 > draws[0].uScore * 10.0
    ensures var r := GerarRecomendacoes(fidelidade, perm, uQuantidade, draws);
            exists i, j :: 0 <= i < j < |r| && r[i].posicao == 2 && r[j].posicao == 1
  {
    var n := Quantidade(uQuantidade);
    var pre := PreSort(perm, n, draws, fidelidade);
    assert pre[0] == Slot(perm, draws, fidelidade, 0) && pre[1] == Slot(perm, draws, fidelidade, 1);
    var a, b := SortDescPutsAhead(pre, ScoreOf, pre[0], pre[1]);
    var r := GerarRecomendacoes(fidelidade, perm, uQuantidade, draws);
    assert r == SortDesc(pre, ScoreOf);
    assert r[b].posicao == 2 && r[a].posicao == 1;
  }

  /** The page state the handlers change. */
  datatype Tela = Tela(cliente: Option<Cliente>, recomendacoes: Option<seq<Sugestao>>, orcamento: seq<ItemOrcamento>)

  /** `handleSelecionarCliente`: picks the client and discards earlier suggestions. */
  function SelecionarCliente(t: Tela, c: Cliente): (r: Tela)
    ensures r.cliente == Some(c) && r.recomendacoes.None? && r.orcamento == t.orcamento
  {
    Tela(Some(c), None, t.orcamento)
  }

  /** `handleGerarRecomendacoes`: nothing happens without a selected client. */
  function HandleGerar(t: Tela, perm: seq<int>, uQuantidade: real, draws: seq<Sorteio>): (r: Tela)
    requires IsPermutation(perm, |Catalogo|) && IsUnit(uQuantidade)
    requires |draws| >= 8 && forall i :: 0 <= i < |draws| ==> ValidSorteio(draws[i])
    ensures t.cliente.None? ==> r == t
    ensures t.cliente.Some? ==> r.cliente == t.cliente && r.orcamento == t.orcamento
                                && r.recomendacoes.Some? && 6 <= |r.recomendacoes.value| <= 8
    ensures t.cliente.Some? ==> r.recomendacoes == Some(GerarRecomendacoes(t.cliente.value.fidelidade, perm, uQuantidade, draws))
  {
    match t.cliente
    case None => t
    case Some(c) => t.(recomendacoes := Some(GerarRecomendacoes(c.fidelidade, perm, uQuantidade, draws)))
  }

  // --------------------------------------------------------- client search

  predicate MatchesCliente(c: Cliente, busca: string) {
    ContainsCI(c.nome, busca) || ContainsCI(c.email, busca) || Contains(c.cpf, busca)
  }

  /** `clientesFiltrados`: name and email are compared lower-cased, the CPF as typed. */
  function ClientesFiltrados(cs: seq<Cliente>, busca: string): (r: seq<Cliente>)
    ensures IsSubseq(r, cs)
    ensures forall c :: c in r <==> c in cs && MatchesCliente(c, busca)
  {
    FilterIsSubseq(cs, c => MatchesCliente(c, busca));
    Filter(cs, c => MatchesCliente(c, busca))
  }

  /** An empty search keeps every client. */
  lemma ClientesFiltradosEmpty(cs: seq<Cliente>)
    ensures ClientesFiltrados(cs, "") == cs
  {
    forall i | 0 <= i < |cs| ensures MatchesCliente(cs[i], "") {
      ContainsEmpty(cs[i].nome);
    }
    FilterAll(cs, c => MatchesCliente(c, ""));
  }

  // ----------------------------------------------------------------- quote

  datatype ItemOrcamento = ItemOrcamento(produto: Produto, quantidade: int)

  predicate InOrcamento(q: seq<ItemOrcamento>, id: int) {
    exists i :: 0 <= i < |q| && q[i].produto.id == id
  }

  predicate UniqueQuoteIds(q: seq<ItemOrcamento>) {
    forall i, j :: 0 <= i < j < |q| ==> q[i].produto.id != q[j].produto.id
  }

  /** `handleAdicionarAoOrcamento`: a product already in the quote is refused. */
  function AdicionarAoOrcamento(q: seq<ItemOrcamento>, p: Produto): (r: seq<ItemOrcamento>)
    ensures InOrcamento(q, p.id) ==> r == q
    ensures !InOrcamento(q, p.id) ==> |r| == |q| + 1 && r[..|q|] == q && r[|q|] == ItemOrcamento(p, 1)
    ensures InOrcamento(r, p.id)
  {
    if InOrcamento(q, p.id) then q else q + [ItemOrcamento(p, 1)]
  }

  /** Adding keeps quote ids unique. */
  lemma AdicionarKeepsUnique(q: seq<ItemOrcamento>, p: Produto)
    requires UniqueQuoteIds(q)
    ensures UniqueQuoteIds(AdicionarAoOrcamento(q, p))
  {
  }

  /** `handleRemoverDoOrcamento`: removes exactly the items with that id. */
  function RemoverDoOrcamento(q: seq<ItemOrcamento>, id: int): (r: seq<ItemOrcamento>)
    ensures IsSubseq(r, q)
    ensures forall x :: x in r <==> x in q && x.produto.id != id
    ensures !InOrcamento(r, id)
  {
    FilterIsSubseq(q, (x: ItemOrcamento) => x.produto.id != id);
    var r := Filter(q, (x: ItemOrcamento) => x.produto.id != id);
    assert forall i :: 0 <= i < |r| ==> r[i] in r;
    r
  }

  /** One line of the quote: discounted unit price times quantity. */
  function Linha(x: ItemOrcamento): real {
    x.produto.preco * (1.0 - x.produto.desconto / 100.0) * x.quantidade as real
  }

  function SomaLinhas(q: seq<ItemOrcamento>): real
    decreases |q|
  {
    if |q| == 0 then 0.0 else Linha(q[0]) + SomaLinhas(q[1..])
  }

  /** The same quote without discounts. */
  function SomaSemDesconto(q: seq<ItemOrcamento>): real
    decreases |q|
  {
    if |q| == 0 then 0.0 else q[0].produto.preco * q[0].quantidade as real + SomaSemDesconto(q[1..])
  }

  predicate SaneItem(x: ItemOrcamento) {
    x.produto.preco >= 0.0 && 0.0 <= x.produto.desconto <= 100.0 && x.quantidade >= 0
  }

  /** `calcularTotalOrcamento`: the sum of the discounted lines. */
  function TotalOrcamento(q: seq<ItemOrcamento>): (t: real)
    ensures (forall i :: 0 <= i < |q| ==> SaneItem(q[i])) ==> 0.0 <= t <= SomaSemDesconto(q)
  {
    TotalBounds(q);
    SomaLinhas(q)
  }

  /** With prices, quantities and discounts in range, the discounted total lies between 0 and the undiscounted sum. */
  lemma {:induction false} TotalBounds(q: seq<ItemOrcamento>)
    ensures (forall i :: 0 <= i < |q| ==> SaneItem(q[i])) ==> 0.0 <= SomaLinhas(q) <= SomaSemDesconto(q)
    decreases |q|
  {
    if |q| > 0 && forall i :: 0 <= i < |q| ==> SaneItem(q[i]) {
      assert SaneItem(q[0]);
      assert forall i :: 0 <= i < |q[1..]| ==> SaneItem(q[1..][i]) by {
        forall i | 0 <= i < |q[1..]| ensures SaneItem(q[1..][i]) { assert q[1..][i] == q[i + 1]; }
      }
      TotalBounds(q[1..]);
      LineBounds(q[0]);
    }
  }

  lemma LineBounds(x: ItemOrcamento)
    requires SaneItem(x)
    ensures 0.0 <= Linha(x) <= x.produto.preco * x.quantidade as real
  {
    var f := 1.0 - x.produto.desconto / 100.0;
    var pq := x.produto.preco * x.quantidade as real;
    assert 0.0 <= f <= 1.0;
    assert pq >= 0.0;
    assert Linha(x) == pq * f;
    assert pq * f <= pq * 1.0;
  }
}

=== FILE: curation.dfy ===
/**
 * The recommendation-curation page: reviewers select recommendations from a
 * filtered view, approve or reject them one by one or in batch, edit them,
 * and maintain a list of business rules. Every handler is a pure function
 * from the page state (and the handler's input) to the next page state.
 *
 * The handlers carry no status guard: the page only renders the approve,
 * reject and edit buttons for pending items, but the handlers themselves
 * overwrite whatever status an item has. The rule list is stored and edited
 * but never evaluated against any recommendation.
 */
module Curation {
  import opened Text
  import opened Seqs

  datatype Status = Pendente | Aprovado | Rejeitado

  datatype Recomendacao = Recomendacao(
    id: int,
    cliente: string,
    vendedor: string,
    produtoOriginal: string,
    produtoRecomendado: string,
    confianca: real,
    status: Status,
    data: string,
    categoria: string,
    preco: real,
    motivo: string)

  /** A business rule; `tipo` is one of 'preco', 'confianca', 'categoria', 'estoque'. */
  datatype Regra = Regra(id: int, nome: string, descricao: string, ativa: bool, tipo: string)

  /** The new-rule modal's form. */
  datatype RuleForm = RuleForm(nome: string, descricao: string, tipo: string, ativa: bool)

  const EmptyRuleForm := RuleForm("", "", "preco", true)

  /** The page's component state that the handlers change. */
  datatype Page = Page(recs: seq<Recomendacao>, selected: seq<int>, regras: seq<Regra>)

  /** An entry of the (read-only) action history. */
  datatype HistoricoItem = HistoricoItem(
    id: int, acao: string, usuario: string, recomendacao: string, data: string, detalhes: string)

  /** The status drop-down: 'all' or one status. */
  datatype StatusFilter = AllStatuses | OnlyStatus(status: Status)

  /** `b` is `a` with at most its status replaced. */
  predicate OnlyStatusDiffers(a: Recomendacao, b: Recomendacao) {
    a.(status := b.status) == b
  }

  /** The ids of a view, in view order: `filteredRecomendacoes.map(r => r.id)`. */
  function Ids(view: seq<Recomendacao>): (r: seq<int>)
    ensures |r| == |view|
    ensures forall i :: 0 <= i < |view| ==> r[i] == view[i].id
  {
    seq(|view|, i requires 0 <= i < |view| => view[i].id)
  }

  // ---------------------------------------------------------------- selection

  /** Checkbox on one item: removes the id when present, appends it otherwise. */
  function SelectItem(sel: seq<int>, id: int): (r: seq<int>)
    ensures id in sel ==> id !in r && IsSubseq(r, sel)
    ensures id in sel ==> forall x :: x in r <==> x in sel && x != id
    ensures id !in sel ==> |r| == |sel| + 1 && r[..|sel|] == sel && r[|sel|] == id
  {
    if id in sel then
      FilterIsSubseq(sel, x => x != id);
      Filter(sel, x => x != id)
    else
      sel + [id]
  }

  /** Toggling the same id twice gives back the same selection, read as a set. */
  lemma SelectItemTwice(sel: seq<int>, id: int)
    ensures forall x :: x in SelectItem(SelectItem(sel, id), id) <==> x in sel
  {
    var once := SelectItem(sel, id);
    if id !in sel {
      assert once == sel + [id];
    }
  }

  /**
   * The "select all" checkbox. It compares only the LENGTH of the selection
   * with the length of the view: equal lengths clear the selection, anything
   * else selects exactly the view's ids.
   */
  function SelectAll(sel: seq<int>, view: seq<Recomendacao>): (r: seq<int>)
    ensures r == [] || r == Ids(view)
    ensures |sel| == |view| ==> r == []
    ensures |sel| != |view| ==> |r| == |view| && forall i :: 0 <= i < |view| ==> r[i] == view[i].id
  {
    if |sel| == |view| then [] else Ids(view)
  }

  /** Clicking "select all" twice on a non-empty view that was not fully selected clears it again. */
  lemma SelectAllTwice(sel: seq<int>, view: seq<Recomendacao>)
    requires |view| > 0 && |sel| != |view|
    ensures SelectAll(sel, view) == Ids(view)
    ensures SelectAll(SelectAll(sel, view), view) == []
  {
  }

  /** Because only lengths are compared, a selection of other ids that happens to be as long as the view is cleared, not replaced. */
  lemma SelectAllComparesLengthOnly()
    ensures var view := [Recomendacao(1, "a", "v", "o", "p", 80.0, Pendente, "d", "c", 1.0, "m")];
            SelectAll([7], view) == [] && 7 !in Ids(view)
  {
  }

  // ------------------------------------------------------ single decisions

  /** Sets status `s` on every item with `id` and drops `id` from the selection. */
  function Decide(p: Page, id: int, s: Status): (r: Page)
    ensures |r.recs| == |p.recs|
    ensures forall i :: 0 <= i < |p.recs| && p.recs[i].id == id ==>
              r.recs[i].status == s && OnlyStatusDiffers(p.recs[i], r.recs[i])
    ensures forall i :: 0 <= i < |p.recs| && p.recs[i].id != id ==> r.recs[i] == p.recs[i]
    ensures id !in r.selected && IsSubseq(r.selected, p.selected)
    ensures forall x :: x in r.selected <==> x in p.selected && x != id
    ensures r.regras == p.regras
  {
    var recs := seq(|p.recs|, i requires 0 <= i < |p.recs| =>
      if p.recs[i].id == id then p.recs[i].(status := s) else p.recs[i]);
    FilterIsSubseq(p.selected, x => x != id);
    Page(recs, Filter(p.selected, x => x != id), p.regras)
  }

  /** `handleAprovar`: no check of the item's current status. */
  function Aprovar(p: Page, id: int): (r: Page)
    ensures |r.recs| == |p.recs|
    ensures forall i :: 0 <= i < |p.recs| && p.recs[i].id == id ==>
              r.recs[i].status == Aprovado && OnlyStatusDiffers(p.recs[i], r.recs[i])
    ensures forall i :: 0 <= i < |p.recs| && p.recs[i].id != id ==> r.recs[i] == p.recs[i]
    ensures id !in r.selected && IsSubseq(r.selected, p.selected)
    ensures r.regras == p.regras
  {
    Decide(p, id, Aprovado)
  }

  /** `handleRejeitar`: no check of the item's current status. */
  function Rejeitar(p: Page, id: int): (r: Page)
    ensures |r.recs| == |p.recs|
    ensures forall i :: 0 <= i < |p.recs| && p.recs[i].id == id ==>
              r.recs[i].status == Rejeitado && OnlyStatusDiffers(p.recs[i], r.recs[i])
    ensures forall i :: 0 <= i < |p.recs| && p.recs[i].id != id ==> r.recs[i] == p.recs[i]
    ensures id !in r.selected && IsSubseq(r.selected, p.selected)
    ensures r.regras == p.regras
  {
    Decide(p, id, Rejeitado)
  }

  /** An already approved item can still be rejected by the handler: the status is not a guard. */
  lemma RejectAfterApprove(p: Page, id: int, i: int)
    requires 0 <= i < |p.recs| && p.recs[i].id == id
    ensures Aprovar(p, id).recs[i].status == Aprovado
    ensures Rejeitar(Aprovar(p, id), id).recs[i].status == Rejeitado
  {
  }

  // -------------------------------------------------------- batch decisions

  /** Sets status `s` on every selected item, whatever its status, and empties the selection. */
  function DecideBatch(p: Page, s: Status): (r: Page)
    ensures |r.recs| == |p.recs|
    ensures forall i :: 0 <= i < |p.recs| && p.recs[i].id in p.selected ==>
              r.recs[i].status == s && OnlyStatusDiffers(p.recs[i], r.recs[i])
    ensures forall i :: 0 <= i < |p.recs| && p.recs[i].id !in p.selected ==> r.recs[i] == p.recs[i]
    ensures r.selected == [] && r.regras == p.regras
  {
    var recs := seq(|p.recs|, i requires 0 <= i < |p.recs| =>
      if p.recs[i].id in p.selected then p.recs[i].(status := s) else p.recs[i]);
    Page(recs, [], p.regras)
  }

  /** `handleAprovarLote`: an empty selection changes nothing. */
  function AprovarLote(p: Page): (r: Page)
    ensures |p.selected| == 0 ==> r == p
    ensures |p.selected| > 0 ==> r.selected == [] && |r.recs| == |p.recs|
    ensures |p.selected| > 0 ==> forall i :: 0 <= i < |p.recs| ==>
              if p.recs[i].id in p.selected
              then r.recs[i].status == Aprovado && OnlyStatusDiffers(p.recs[i], r.recs[i])
              else r.recs[i] == p.recs[i]
    ensures r.regras == p.regras
  {
    if |p.selected| == 0 then p else DecideBatch(p, Aprovado)
  }

  /** `handleRejeitarLote`: an empty selection or a declined confirmation changes nothing. */
  function RejeitarLote(p: Page, confirmed: bool): (r: Page)
    ensures |p.selected| == 0 || !confirmed ==> r == p
    ensures |p.selected| > 0 && confirmed ==> r.selected == [] && |r.recs| == |p.recs|
    ensures |p.selected| > 0 && confirmed ==> forall i :: 0 <= i < |p.recs| ==>
              if p.recs[i].id in p.selected
              then r.recs[i].status == Rejeitado && OnlyStatusDiffers(p.recs[i], r.recs[i])
              else r.recs[i] == p.recs[i]
    ensures r.regras == p.regras
  {
    if |p.selected| == 0 then p
    else if confirmed then DecideBatch(p, Rejeitado)
    else p
  }

  // ------------------------------------------------------------------ edit

  /**
   * The edit modal's working copy: the item captured when the modal opened,
   * with the four fields the form exposes replaced.
   */
  function EditForm(item: Recomendacao, produtoRecomendado: string, categoria: string,
                    preco: real, motivo: string): (e: Recomendacao)
    ensures e.id == item.id && e.cliente == item.cliente && e.vendedor == item.vendedor
    ensures e.produtoOriginal == item.produtoOriginal && e.confianca == item.confianca
    ensures e.status == item.status && e.data == item.data
  {
    item.(produtoRecomendado := produtoRecomendado, categoria := categoria,
          preco := preco, motivo := motivo)
  }

  /** `handleSaveEdit`: every item carrying the edited id is replaced by the working copy. */
  function SaveEdit(p: Page, editing: Recomendacao): (r: Page)
    ensures |r.recs| == |p.recs|
    ensures forall i :: 0 <= i < |p.recs| && p.recs[i].id == editing.id ==> r.recs[i] == editing
    ensures forall i :: 0 <= i < |p.recs| && p.recs[i].id != editing.id ==> r.recs[i] == p.recs[i]
    ensures r.selected == p.selected && r.regras == p.regras
  {
    var recs := seq(|p.recs|, i requires 0 <= i < |p.recs| =>
      if p.recs[i].id == editing.id then editing else p.recs[i]);
    Page(recs, p.selected, p.regras)
  }

  predicate UniqueIds(recs: seq<Recomendacao>) {
    forall i, j :: 0 <= i < j < |recs| ==> recs[i].id != recs[j].id
  }

  /**
   * Saving a form opened on item `k` changes that item only, and only in the
   * four editable fields; id, cliente, vendedor, produtoOriginal, confianca,
   * status and data keep their values.
   */
  lemma SaveEditOnlyEditableFields(p: Page, k: int, produto: string, categoria: string,
                                   preco: real, motivo: string)
    requires 0 <= k < |p.recs| && UniqueIds(p.recs)
    ensures var r := SaveEdit(p, EditForm(p.recs[k], produto, categoria, preco, motivo));
            && |r.recs| == |p.recs|
            && r.recs[k].(produtoRecomendado := p.recs[k].produtoRecomendado,
                          categoria := p.recs[k].categoria,
                          preco := p.recs[k].preco,
                          motivo := p.recs[k].motivo) == p.recs[k]
            && (forall j :: 0 <= j < |p.recs| && j != k ==> r.recs[j] == p.recs[j])
  {
  }

  // ----------------------------------------------------------------- rules

  /** `toggleRegra`: flips `ativa` on the rules with that id only. */
  function ToggleRegra(regras: seq<Regra>, id: int): (r: seq<Regra>)
    ensures |r| == |regras|
    ensures forall i :: 0 <= i < |regras| && regras[i].id == id ==>
              r[i].ativa == !regras[i].ativa && r[i].(ativa := regras[i].ativa) == regras[i]
    ensures forall i :: 0 <= i < |regras| && regras[i].id != id ==> r[i] == regras[i]
  {
    seq(|regras|, i requires 0 <= i < |regras| =>
      if regras[i].id == id then regras[i].(ativa := !regras[i].ativa) else regras[i])
  }

  /** Toggling a rule twice restores the rule list. */
  lemma ToggleRegraTwice(regras: seq<Regra>, id: int)
    ensures ToggleRegra(ToggleRegra(regras, id), id) == regras
  {
    var r2 := ToggleRegra(ToggleRegra(regras, id), id);
    assert forall i :: 0 <= i < |regras| ==> r2[i] == regras[i];
  }

  /**
   * `handleSaveNovaRegra`: an empty name or description leaves rules and form
   * as they are; otherwise exactly one rule, with the clock reading as its id,
   * is appended and the form is reset.
   */
  function SaveNovaRegra(regras: seq<Regra>, form: RuleForm, now: int): (r: (seq<Regra>, RuleForm))
    ensures form.nome == "" || form.descricao == "" ==> r == (regras, form)
    ensures form.nome != "" && form.descricao != "" ==>
              && |r.0| == |regras| + 1
              && r.0[..|regras|] == regras
              && r.0[|regras|] == Regra(now, form.nome, form.descricao, form.ativa, form.tipo)
              && r.1 == EmptyRuleForm
  {
    if form.nome == "" || form.descricao == "" then (regras, form)
    else (regras + [Regra(now, form.nome, form.descricao, form.ativa, form.tipo)], EmptyRuleForm)
  }

  /** `handleDeleteRegra`: a confirmed delete removes exactly the rules with that id. */
  function DeleteRegra(regras: seq<Regra>, id: int, confirmed: bool): (r: seq<Regra>)
    ensures !confirmed ==> r == regras
    ensures confirmed ==> IsSubseq(r, regras)
    ensures confirmed ==> forall x :: x in r <==> x in regras && x.id != id
  {
    if confirmed then
      FilterIsSubseq(regras, (x: Regra) => x.id != id);
      Filter(regras, (x: Regra) => x.id != id)
    else regras
  }

  // --------------------------------------------------------------- filters

  predicate MatchesRec(x: Recomendacao, f: StatusFilter, term: string) {
    && (f.AllStatuses? || x.status == f.status)
    && (ContainsCI(x.cliente, term) || ContainsCI(x.produtoRecomendado, term)
        || ContainsCI(x.vendedor, term))
  }

  /** `filteredRecomendacoes`: an order-preserving subsequence of the items that match. */
  function FilteredRecomendacoes(recs: seq<Recomendacao>, f: StatusFilter, term: string): (r: seq<Recomendacao>)
    ensures IsSubseq(r, recs)
    ensures forall x :: x in r <==> x in recs && MatchesRec(x, f, term)
  {
    FilterIsSubseq(recs, x => MatchesRec(x, f, term));
    Filter(recs, x => MatchesRec(x, f, term))
  }

  /** With 'all' and an empty search box the view is the whole list. */
  lemma FilteredRecomendacoesAll(recs: seq<Recomendacao>)
    ensures FilteredRecomendacoes(recs, AllStatuses, "") == recs
  {
    forall i | 0 <= i < |recs|
      ensures MatchesRec(recs[i], AllStatuses, "")
    {
      ContainsEmpty(recs[i].cliente);
    }
    FilterAll(recs, x => MatchesRec(x, AllStatuses, ""));
  }

  predicate MatchesHistorico(x: HistoricoItem, acao: string, usuario: string, term: string) {
    && (acao == "all" || x.acao == acao)
    && (usuario == "all" || x.usuario == usuario)
    && (ContainsCI(x.recomendacao, term) || ContainsCI(x.usuario, term) || ContainsCI(x.detalhes, term))
  }

  /** `filteredHistorico`: same shape as the recommendation filter, over the action history. */
  function FilteredHistorico(items: seq<HistoricoItem>, acao: string, usuario: string, term: string): (r: seq<HistoricoItem>)
    ensures IsSubseq(r, items)
    ensures forall x :: x in r <==> x in items && MatchesHistorico(x, acao, usuario, term)
  {
    FilterIsSubseq(items, x => MatchesHistorico(x, acao, usuario, term));
    Filter(items, x => MatchesHistorico(x, acao, usuario, term))
  }

  /** With both drop-downs on 'all' and an empty search box the history is shown whole. */
  lemma FilteredHistoricoAll(items: seq<HistoricoItem>)
    ensures FilteredHistorico(items, "all", "all", "") == items
  {
    forall i | 0 <= i < |items|
      ensures MatchesHistorico(items[i], "all", "all", "")
    {
      ContainsEmpty(items[i].recomendacao);
    }
    FilterAll(items, x => MatchesHistorico(x, "all", "all", ""));
  }

  // -------------------------------------------------------------- counters

  function CountStatus(recs: seq<Recomendacao>, s: Status): nat {
    Count(recs, (x: Recomendacao) => x.status == s)
  }

  /**
   * The three status cards add up to the list length: a status is always one
   * of pendente, aprovado, rejeitado, since no handler writes any other value.
   */
  lemma {:induction false} CountersSum(recs: seq<Recomendacao>)
    ensures CountStatus(recs, Pendente) + CountStatus(recs, Aprovado) + CountStatus(recs, Rejeitado) == |recs|
    decreases |recs|
  {
    if |recs| > 0 {
      CountersSum(recs[1..]);
    }
  }
}

=== FILE: email.dfy ===
/**
 * The seller's e-mail page: choosing a client fills in the subject and the
 * message, the preview shows the discounted total and the saving, and
 * sending prepends a record to the list of sent e-mails.
 */
module Email {
  import opened Common
  import opened Seqs

  /** `desconto` is a percentage. */
  datatype ProdutoEmail = ProdutoEmail(nome: string, preco: real, desconto: real, categoria: string)

  datatype ClienteEmail = ClienteEmail(id: int, nome: string, email: string, telefone: string, produtos: seq<ProdutoEmail>)

  /** `dataEnvio` is the send time in epoch seconds. */
  datatype EmailEnviado = EmailEnviado(
    id: int,
    cliente: string,
    email: string,
    dataEnvio: int,
    status: string,
    produtos: nat,
    valorTotal: real)

  datatype Tela = Tela(
    selecionado: Option<ClienteEmail>,
    assunto: string,
    mensagem: string,
    enviados: seq<EmailEnviado>,
    emailEnviado: bool,
    preview: bool)

  function PrecoOf(p: ProdutoEmail): real { p.preco }
  function ComDesconto(p: ProdutoEmail): real { p.preco * (1.0 - p.desconto / 100.0) }
  function Desconto(p: ProdutoEmail): real { p.preco * p.desconto / 100.0 }

  /** The undiscounted subtotal the preview shows. */
  function Subtotal(ps: seq<ProdutoEmail>): real { SumBy(ps, PrecoOf) }

  /** `calcularTotal`: the sum of the discounted prices. */
  function CalcularTotal(ps: seq<ProdutoEmail>): real { SumBy(ps, ComDesconto) }

  /** `calcularEconomia`: the sum of the discounts. */
  function CalcularEconomia(ps: seq<ProdutoEmail>): real { SumBy(ps, Desconto) }

  /** The total and the saving always add up to the undiscounted subtotal. */
  lemma {:induction false} TotalMaisEconomia(ps: seq<ProdutoEmail>)
    ensures CalcularTotal(ps) + CalcularEconomia(ps) == Subtotal(ps)
    decreases |ps|
  {
    if |ps| > 0 {
      TotalMaisEconomia(ps[1..]);
      assert ComDesconto(ps[0]) + Desconto(ps[0]) == PrecoOf(ps[0]);
    }
  }

  predicate ProdutoSensato(p: ProdutoEmail) {
    p.preco >= 0.0 && 0.0 <= p.desconto <= 100.0
  }

  /** With prices non-negative and discounts in [0, 100], the saving is non-negative and the total at most the subtotal. */
  lemma {:induction false} TotalAteSubtotal(ps: seq<ProdutoEmail>)
    requires forall i :: 0 <= i < |ps| ==> ProdutoSensato(ps[i])
    ensures 0.0 <= CalcularEconomia(ps) && 0.0 <= CalcularTotal(ps) <= Subtotal(ps)
    decreases |ps|
  {
    if |ps| > 0 {
      assert forall i :: 0 <= i < |ps[1..]| ==> ps[1..][i] == ps[i + 1];
      TotalAteSubtotal(ps[1..]);
      var p := ps[0];
      assert Desconto(p) >= 0.0 by {
        assert p.preco * p.desconto >= 0.0;
      }
      assert ComDesconto(p) >= 0.0 by {
        assert 1.0 - p.desconto / 100.0 >= 0.0;
      }
      TotalMaisEconomia(ps);
    }
  }

  /** `nome.split(' ')[0]`: the text before the first space. */
  function PrimeiroNome(s: string): (r: string)
    ensures |r| <= |s| && r == s[..|r|]
    ensures ' ' !in r
    ensures |r| < |s| ==> s[|r|] == ' '
    decreases |s|
  {
    if |s| == 0 || s[0] == ' ' then "" else [s[0]] + PrimeiroNome(s[1..])
  }

  /** The message's opening line: `Olá`, the first name and a comma. */
  function Saudacao(nome: string): string {
    "Olá " + PrimeiroNome(nome) + ","
  }

  /** `handleSelecionarCliente`: the subject names the client and the message greets the first name. */
  function SelecionarCliente(t: Tela, c: ClienteEmail): (r: Tela)
    ensures r.selecionado == Some(c)
    ensures r.assunto == "Recomendações Personalizadas para " + c.nome + " - SHOPINFO"
    ensures var s := Saudacao(c.nome); |s| <= |r.mensagem| && r.mensagem[..|s|] == s
    ensures r.enviados == t.enviados
  {
    var saudacao := Saudacao(c.nome);
    assert (saudacao + CorpoMensagem)[..|saudacao|] == saudacao;
    t.(selecionado := Some(c), assunto := "Recomendações Personalizadas para " + c.nome + " - SHOPINFO",
       mensagem := saudacao + CorpoMensagem)
  }

  /** The fixed body of the message that follows the greeting. */
  const CorpoMensagem: string :=
    "\n\n" + "Obrigado por visitar a SHOPINFO! Com base no seu perfil e preferências, "
    + "selecionamos alguns produtos especiais que podem interessar a você.\n\n"
    + "Confira as recomendações abaixo e aproveite as condições exclusivas!\n\n"
    + "Qualquer dúvida, estou à disposição.\n\n"
    + "Atenciosamente,\nEquipe SHOPINFO"

  /** The guard of `handleEnviarEmail`: a client, a subject and a message. */
  predicate PodeEnviar(t: Tela) {
    t.selecionado.Some? && t.assunto != "" && t.mensagem != ""
  }

  /**
   * `handleEnviarEmail`, as one step: without a client, a subject or a
   * message nothing changes; otherwise one record is prepended, stamped with
   * the clock, carrying the client's product count and discounted total.
   */
  function EnviarEmail(t: Tela, agora: int): (r: Tela)
    ensures !PodeEnviar(t) ==> r == t
    ensures PodeEnviar(t) ==>
              && |r.enviados| == |t.enviados| + 1 && r.enviados[1..] == t.enviados
              && r.enviados[0].cliente == t.selecionado.value.nome
              && r.enviados[0].email == t.selecionado.value.email
              && r.enviados[0].status == "Enviado"
              && r.enviados[0].produtos == |t.selecionado.value.produtos|
              && r.enviados[0].valorTotal + CalcularEconomia(t.selecionado.value.produtos)
                 == Subtotal(t.selecionado.value.produtos)
              && r.emailEnviado
  {
    if !PodeEnviar(t) then t
    else
      var c := t.selecionado.value;
      TotalMaisEconomia(c.produtos);
      var novo := EmailEnviado(agora, c.nome, c.email, agora, "Enviado", |c.produtos|, CalcularTotal(c.produtos));
      t.(enviados := [novo] + t.enviados, emailEnviado := true)
  }

  /** The delayed reset after a send: the form is emptied and the sent list kept. */
  function ResetarFormulario(t: Tela): (r: Tela)
    ensures r.selecionado.None? && r.assunto == "" && r.mensagem == ""
    ensures !r.emailEnviado && !r.preview
    ensures r.enviados == t.enviados
    ensures !PodeEnviar(r)
  {
    Tela(None, "", "", t.enviados, false, false)
  }

  /** A send followed by a second send without the form refilled records only once. */
  lemma EnvioUnico(t: Tela, agora: int, depois: int)
    ensures EnviarEmail(ResetarFormulario(EnviarEmail(t, agora)), depois) == ResetarFormulario(EnviarEmail(t, agora))
  {
  }
}

=== FILE: import_wizard.dfy ===
/**
 * The historical-data import page: a three-step wizard (choose a file or a
 * source, map the columns, confirm), the list of imports with its progress
 * ticks, reprocessing, deletion and the filtered view.
 */
module ImportWizard {
  import opened Common
  import opened Text
  import opened Seqs

  datatype StatusImportacao = Concluido | Processando | Aguardando | Erro

  datatype Arquivo = Arquivo(nome: string, tamanho: real, tipo: string)

  /** `dataImportacao` is epoch seconds; `mapeamento` is `null` for imports never mapped. */
  datatype Importacao = Importacao(
    id: int,
    nomeArquivo: string,
    fonte: string,
    dataImportacao: int,
    totalRegistros: int,
    registrosValidos: int,
    registrosInvalidos: int,
    status: StatusImportacao,
    progresso: int,
    mapeamento: Option<map<string, string>>)

  /** The modal's state: open or not, the step, the chosen file, the chosen source and the column mapping. */
  datatype Wizard = Wizard(
    modalAberto: bool,
    etapa: int,
    arquivo: Option<Arquivo>,
    fonte: string,
    mapeamento: map<string, string>)

  predicate EtapaValida(w: Wizard) { 1 <= w.etapa <= 3 }

  /** The form as `resetarFormulario` leaves it. */
  function FormularioVazio(aberto: bool): (w: Wizard)
    ensures EtapaValida(w) && w.etapa == 1 && w.arquivo.None? && w.fonte == "upload" && |w.mapeamento| == 0
  {
    Wizard(aberto, 1, None, "upload", map[])
  }

  /** `resetarFormulario`: step 1, no file, source 'upload', empty mapping; the modal flag is kept. */
  function Resetar(w: Wizard): (r: Wizard)
    ensures r == FormularioVazio(w.modalAberto)
  {
    w.(etapa := 1, arquivo := None, fonte := "upload", mapeamento := map[])
  }

  /** `handleFileSelect`: only a chosen file replaces the current one. */
  function SelecionarArquivo(w: Wizard, f: Option<Arquivo>): (r: Wizard)
    ensures f.Some? ==> r == w.(arquivo := f)
    ensures f.None? ==> r == w
    ensures EtapaValida(w) ==> EtapaValida(r)
  {
    if f.Some? then w.(arquivo := f) else w
  }

  /** The mapping drop-down of one standard field; an empty choice still adds the key. */
  function Mapear(w: Wizard, campo: string, coluna: string): (r: Wizard)
    ensures r.mapeamento.Keys == w.mapeamento.Keys + {campo}
    ensures r.mapeamento[campo] == coluna
    ensures r.etapa == w.etapa && r.arquivo == w.arquivo && r.fonte == w.fonte
  {
    w.(mapeamento := w.mapeamento[campo := coluna])
  }

  /**
   * `handleProximaEtapa`: 1 to 2 when a file is chosen or the source is not
   * 'upload'; 2 to 3 when at least six fields are mapped; otherwise nothing.
   */
  function Proxima(w: Wizard): (r: Wizard)
    ensures r.etapa == 2 && w.etapa == 1 <==> w.etapa == 1 && (w.arquivo.Some? || w.fonte != "upload")
    ensures r.etapa == 3 && w.etapa == 2 <==> w.etapa == 2 && |w.mapeamento| >= 6
    ensures r == w || r == w.(etapa := w.etapa + 1)
    ensures EtapaValida(w) ==> EtapaValida(r)
  {
    if w.etapa == 1 && (w.arquivo.Some? || w.fonte != "upload") then w.(etapa := 2)
    else if w.etapa == 2 && |w.mapeamento| >= 6 then w.(etapa := 3)
    else w
  }

  /** The back button: one step back, or at step 1 close the modal and reset the form. */
  function Voltar(w: Wizard): (r: Wizard)
    ensures w.etapa > 1 ==> r == w.(etapa := w.etapa - 1)
    ensures w.etapa <= 1 ==> r == FormularioVazio(false)
    ensures EtapaValida(w) ==> EtapaValida(r)
  {
    if w.etapa > 1 then w.(etapa := w.etapa - 1)
    else Resetar(w.(modalAberto := false))
  }

  /** "Next" from step 1 and "back" from step 2 return to the same form. */
  lemma ProximaVoltar(w: Wizard)
    requires w.etapa == 1 && (w.arquivo.Some? || w.fonte != "upload")
    ensures Voltar(Proxima(w)) == w
  {
  }

  // ------------------------------------------------------ importing

  datatype Fonte = Fonte(id: string, nome: string)

  /** The sources offered by the wizard. */
  const FontesDisponiveis: seq<Fonte> := [
    Fonte("upload", "Upload de Arquivo"),
    Fonte("mysql-prod", "MySQL Produção"),
    Fonte("postgres-analytics", "PostgreSQL Analytics"),
    Fonte("sqlserver-erp", "SQL Server ERP"),
    Fonte("api-rest", "API REST")
  ]

  /** `fontesDisponiveis.find(f => f.id === id)?.nome || 'Upload Manual'`. */
  function NomeFonte(fontes: seq<Fonte>, id: string): (r: string)
    ensures (exists i :: 0 <= i < |fontes| && fontes[i].id == id && fontes[i].nome == r) || r == "Upload Manual"
    ensures (forall i :: 0 <= i < |fontes| ==> fontes[i].id != id) ==> r == "Upload Manual"
    decreases |fontes|
  {
    if |fontes| == 0 then "Upload Manual"
    else if fontes[0].id == id then (if fontes[0].nome != "" then fontes[0].nome else "Upload Manual")
    else
      var r := NomeFonte(fontes[1..], id);
      assert r != "Upload Manual" ==> exists i :: 1 <= i < |fontes| && fontes[i].id == id && fontes[i].nome == r;
      r
  }

  /** `Math.floor(u * 50000) + 10000` for `u = Math.random()`. */
  function TotalSorteado(u: real): (t: int)
    requires IsUnit(u)
    ensures 10000 <= t < 60000
  {
    (u * 50000.0).Floor + 10000
  }

  /**
   * The file name: the chosen file's if it is truthy, else `Importação_DB_`
   * and the clock in epoch milliseconds (`getTime()`).
   */
  function NomeArquivo(w: Wizard, agoraMs: nat): (r: string)
    ensures w.arquivo.Some? && w.arquivo.value.nome != "" ==> r == w.arquivo.value.nome
    ensures !(w.arquivo.Some? && w.arquivo.value.nome != "") ==> r == "Importação_DB_" + NatToString(agoraMs)
  {
    if w.arquivo.Some? && w.arquivo.value.nome != "" then w.arquivo.value.nome
    else "Importação_DB_" + NatToString(agoraMs)
  }

  /**
   * `handleIniciarImportacao`: prepends one import in 'processando' with no
   * progress and no counts, numbered `length + 1`, carrying a copy of the
   * mapping; then the modal closes and the form is reset. One clock reading
   * `agoraMs`, in epoch milliseconds, gives the file-name suffix and, in whole
   * seconds, the import date.
   */
  function IniciarImportacao(lista: seq<Importacao>, w: Wizard, agoraMs: nat, u: real): (r: (seq<Importacao>, Wizard))
    requires IsUnit(u)
    ensures |r.0| == |lista| + 1 && r.0[1..] == lista
    ensures var n := r.0[0];
            && n.id == |lista| + 1
            && n.nomeArquivo == NomeArquivo(w, agoraMs)
            && n.fonte == NomeFonte(FontesDisponiveis, w.fonte)
            && n.status == Processando && n.progresso == 0
            && n.registrosValidos == 0 && n.registrosInvalidos == 0
            && 10000 <= n.totalRegistros < 60000
            && n.mapeamento == Some(w.mapeamento)
            && n.dataImportacao == agoraMs / 1000
    ensures r.1 == FormularioVazio(false)
  {
    var nova := Importacao(|lista| + 1, NomeArquivo(w, agoraMs), NomeFonte(FontesDisponiveis, w.fonte), agoraMs / 1000,
                           TotalSorteado(u), 0, 0, Processando, 0, Some(w.mapeamento));
    ([nova] + lista, Resetar(w.(modalAberto := false)))
  }

  /** Numbering by length repeats an id once an import was deleted. */
  lemma IdsPodemColidir(agoraMs: nat)
    ensures var imp := Importacao(2, "b.csv", "API REST", 0, 10000, 0, 0, Aguardando, 0, None);
            IniciarImportacao([imp], FormularioVazio(true), agoraMs, 0.0).0[0].id == imp.id
  {
  }

  /** `Math.floor(total * 0.98)` and `Math.floor(total * 0.02)`. */
  function Validos(total: int): int { (total as real * 0.98).Floor }
  function Invalidos(total: int): int { (total as real * 0.02).Floor }

  /** The final counts never exceed the total. */
  lemma ContagemFinal(total: int)
    requires total >= 0
    ensures 0 <= Validos(total) && 0 <= Invalidos(total)
    ensures Validos(total) + Invalidos(total) <= total
  {
    var a := total as real * 0.98;
    var b := total as real * 0.02;
    assert Validos(total) as real <= a && Invalidos(total) as real <= b;
    assert a + b == total as real;
  }

  /**
   * One tick of the progress interval, with `incremento = Math.random() * 15`:
   * the accumulator grows; at 100 or more the import with that id is
   * completed with its final counts, otherwise its progress is the
   * accumulator's floor. Returns the list, the accumulator and whether the
   * interval stops.
   */
  function Tick(lista: seq<Importacao>, id: int, acc: real, incremento: real): (r: (seq<Importacao>, real, bool))
    requires 0.0 <= incremento < 15.0
    ensures |r.0| == |lista|
    ensures r.1 == if acc + incremento >= 100.0 then 100.0 else acc + incremento
    ensures r.2 <==> acc + incremento >= 100.0
    ensures forall i :: 0 <= i < |lista| && lista[i].id != id ==> r.0[i] == lista[i]
    ensures forall i :: 0 <= i < |lista| && lista[i].id == id ==>
              && r.0[i].progresso <= 100
              && r.0[i].progresso == r.1.Floor
              && (r.2 ==> r.0[i] == lista[i].(status := Concluido, progresso := 100,
                                              registrosValidos := Validos(lista[i].totalRegistros),
                                              registrosInvalidos := Invalidos(lista[i].totalRegistros)))
              && (!r.2 ==> r.0[i] == lista[i].(progresso := r.1.Floor))
  {
    var novo := acc + incremento;
    if novo >= 100.0 then
      var l := seq(|lista|, i requires 0 <= i < |lista| =>
                 if lista[i].id == id then
                   lista[i].(status := Concluido, progresso := 100,
                             registrosValidos := Validos(lista[i].totalRegistros),
                             registrosInvalidos := Invalidos(lista[i].totalRegistros))
                 else lista[i]);
      (l, 100.0, true)
    else
      var l := seq(|lista|, i requires 0 <= i < |lista| =>
                 if lista[i].id == id then lista[i].(progresso := novo.Floor) else lista[i]);
      (l, novo, false)
  }

  /** While only ticks touch it, an import's progress never goes down. */
  lemma TickMonotono(lista: seq<Importacao>, id: int, acc: real, incremento: real, i: int)
    requires 0.0 <= incremento < 15.0 && 0.0 <= acc < 100.0
    requires 0 <= i < |lista| && lista[i].id == id && lista[i].progresso <= acc.Floor
    ensures lista[i].progresso <= Tick(lista, id, acc, incremento).0[i].progresso
  {
    var r := Tick(lista, id, acc, incremento);
    assert acc.Floor <= r.1.Floor by {
      assert acc <= r.1;
      FloorMonotone(acc, r.1);
    }
  }

  lemma FloorMonotone(a: real, b: real)
    requires a <= b
    ensures a.Floor <= b.Floor
  {
    assert a.Floor as real <= a;
    assert (a.Floor as real) <= b;
  }

  /** `handleReprocessar`: that id goes back to 'processando' at 0%; everything else is kept. */
  function Reprocessar(lista: seq<Importacao>, id: int): (r: seq<Importacao>)
    ensures |r| == |lista|
    ensures forall i :: 0 <= i < |lista| ==>
              r[i] == if lista[i].id == id then lista[i].(status := Processando, progresso := 0) else lista[i]
  {
    seq(|lista|, i requires 0 <= i < |lista| =>
      if lista[i].id == id then lista[i].(status := Processando, progresso := 0) else lista[i])
  }

  /** Reprocessing twice is reprocessing once. */
  lemma ReprocessarIdempotente(lista: seq<Importacao>, id: int)
    ensures Reprocessar(Reprocessar(lista, id), id) == Reprocessar(lista, id)
  {
  }

  /** `handleExcluirImportacao`: when confirmed, exactly the imports with that id disappear, order kept. */
  function Excluir(lista: seq<Importacao>, id: int, confirmado: bool): (r: seq<Importacao>)
    ensures !confirmado ==> r == lista
    ensures confirmado ==> IsSubseq(r, lista) && forall x :: x in r <==> x in lista && x.id != id
  {
    if confirmado then
      FilterIsSubseq(lista, (x: Importacao) => x.id != id);
      Filter(lista, (x: Importacao) => x.id != id)
    else lista
  }

  datatype FiltroStatus = Todos | SoStatus(status: StatusImportacao)

  predicate Corresponde(x: Importacao, filtro: FiltroStatus, busca: string) {
    && (filtro.Todos? || x.status == filtro.status)
    && (ContainsCI(x.nomeArquivo, busca) || ContainsCI(x.fonte, busca))
  }

  /** `importacoesFiltradas`: the matching imports, order kept. */
  function Filtradas(lista: seq<Importacao>, filtro: FiltroStatus, busca: string): (r: seq<Importacao>)
    ensures IsSubseq(r, lista)
    ensures forall x :: x in r <==> x in lista && Corresponde(x, filtro, busca)
  {
    FilterIsSubseq(lista, x => Corresponde(x, filtro, busca));
    Filter(lista, x => Corresponde(x, filtro, busca))
  }

  /** 'todos' with an empty search box shows every import. */
  lemma FiltradasTudo(lista: seq<Importacao>)
    ensures Filtradas(lista, Todos, "") == lista
  {
    forall i | 0 <= i < |lista| ensures Corresponde(lista[i], Todos, "") {
      ContainsEmpty(lista[i].nomeArquivo);
    }
    FilterAll(lista, x => Corresponde(x, Todos, ""));
  }
}

=== FILE: pipelines.dfy ===
/**
 * The processing page: the list of data pipelines with play/pause, stop,
 * delete and the status filter.
 */
module Pipelines {
  import opened Seqs

  datatype StatusPipeline = Executando | Pausado | Concluido | Aguardando | Erro

  datatype Etapa = Etapa(id: int, nome: string, status: StatusPipeline, duracao: string, registros: int)

  datatype Pipeline = Pipeline(
    id: int,
    nome: string,
    status: StatusPipeline,
    progresso: int,
    etapaAtual: string,
    registrosProcessados: int,
    registrosTotal: int,
    etapas: seq<Etapa>,
    transformacoes: seq<string>)

  /** The status after one press of the play/pause button. */
  function Alternar(s: StatusPipeline): (r: StatusPipeline)
    ensures s == Executando ==> r == Pausado
    ensures s == Pausado ==> r == Executando
    ensures s != Executando && s != Pausado ==> r == s
  {
    match s
    case Executando => Pausado
    case Pausado => Executando
    case _ => s
  }

  /** `handlePlayPause`: only the status of the pipelines with that id changes. */
  function PlayPause(ps: seq<Pipeline>, id: int): (r: seq<Pipeline>)
    ensures |r| == |ps|
    ensures forall i :: 0 <= i < |ps| ==>
              r[i] == if ps[i].id == id then ps[i].(status := Alternar(ps[i].status)) else ps[i]
  {
    seq(|ps|, i requires 0 <= i < |ps| =>
      if ps[i].id == id then ps[i].(status := Alternar(ps[i].status)) else ps[i])
  }

  /** Pressing play/pause twice restores the list. */
  lemma PlayPauseDuasVezes(ps: seq<Pipeline>, id: int)
    ensures PlayPause(PlayPause(ps, id), id) == ps
  {
    var r := PlayPause(PlayPause(ps, id), id);
    forall i | 0 <= i < |ps| ensures r[i] == ps[i] {
      assert Alternar(Alternar(ps[i].status)) == ps[i].status;
    }
  }

  /**
   * `handleStop`: when confirmed, the pipelines with that id go back to
   * 'aguardando' with no progress and no processed records; their steps and
   * total are kept.
   */
  function Parar(ps: seq<Pipeline>, id: int, confirmado: bool): (r: seq<Pipeline>)
    ensures !confirmado ==> r == ps
    ensures |r| == |ps|
    ensures confirmado ==> forall i :: 0 <= i < |ps| ==>
              if ps[i].id == id then
                && r[i].status == Aguardando && r[i].progresso == 0 && r[i].registrosProcessados == 0
                && r[i].etapas == ps[i].etapas && r[i].registrosTotal == ps[i].registrosTotal
                && r[i].nome == ps[i].nome && r[i].id == id
              else r[i] == ps[i]
    ensures confirmado ==> forall i :: 0 <= i < |ps| && ps[i].id == id ==>
              r[i] == ps[i].(status := Aguardando, progresso := 0, registrosProcessados := 0)
  {
    if !confirmado then ps
    else
      seq(|ps|, i requires 0 <= i < |ps| =>
        if ps[i].id == id then ps[i].(status := Aguardando, progresso := 0, registrosProcessados := 0) else ps[i])
  }

  /** A stopped pipeline no longer responds to play/pause. */
  lemma PararDepoisPlayPause(ps: seq<Pipeline>, id: int)
    ensures PlayPause(Parar(ps, id, true), id) == Parar(ps, id, true)
  {
  }

  /** `handleDelete`: when confirmed, exactly the pipelines with that id disappear, order kept. */
  function Excluir(ps: seq<Pipeline>, id: int, confirmado: bool): (r: seq<Pipeline>)
    ensures !confirmado ==> r == ps
    ensures confirmado ==> IsSubseq(r, ps) && forall x :: x in r <==> x in ps && x.id != id
  {
    if confirmado then
      FilterIsSubseq(ps, (p: Pipeline) => p.id != id);
      Filter(ps, (p: Pipeline) => p.id != id)
    else ps
  }

  datatype FiltroStatus = Todos | SoStatus(status: StatusPipeline)

  predicate Passa(p: Pipeline, filtro: FiltroStatus) {
    match filtro
    case Todos => true
    case SoStatus(s) => p.status == s
  }

  /** `pipelinesFiltrados`: the whole list for 'todos', otherwise the pipelines with that status. */
  function Filtrados(ps: seq<Pipeline>, filtro: FiltroStatus): (r: seq<Pipeline>)
    ensures filtro.Todos? ==> r == ps
    ensures IsSubseq(r, ps)
    ensures filtro.SoStatus? ==> forall x :: x in r <==> x in ps && x.status == filtro.status
  {
    FilterIsSubseq(ps, (p: Pipeline) => Passa(p, filtro));
    TodosPassam(ps, filtro);
    Filter(ps, (p: Pipeline) => Passa(p, filtro))
  }

  lemma TodosPassam(ps: seq<Pipeline>, filtro: FiltroStatus)
    ensures filtro.Todos? ==> Filter(ps, (p: Pipeline) => Passa(p, filtro)) == ps
  {
    if filtro.Todos? {
      FilterAll(ps, (p: Pipeline) => Passa(p, filtro));
    }
  }
}

=== FILE: rec_engine.dfy ===
/**
 * The backend's simulated recommender: the confidence score, the reason
 * builder, the personalised discount, the product selector and the
 * `/gerar` route that assembles them and appends the result to the
 * in-memory recommendation history.
 *
 * `random.uniform(a, b)` is `a + (b - a) * u` for a draw `u` in [0, 1),
 * `random.shuffle` is replaced by its outcome (the candidate list handed to
 * the selector), and `random.choice` by an index. Rounding to two decimals
 * is not modelled.
 */
module RecEngine {
  import opened Common
  import opened Seqs

  /** The request body. `historico` is `[]` when the client sent `None`; both are falsy. */
  datatype ClienteInfo = ClienteInfo(
    idCliente: string,
    nome: string,
    historico: seq<string>,
    valorMedio: Option<real>,
    frequencia: Option<string>)

  /** An entry of the product catalogue. */
  datatype ProdutoMock = ProdutoMock(
    id: string, nome: string, categoria: string, preco: real, estoque: int, tags: seq<string>)

  datatype ProdutoRecomendado = ProdutoRecomendado(
    idProduto: string,
    nome: string,
    categoria: string,
    preco: real,
    desconto: real,
    precoFinal: real,
    confianca: real,
    motivo: string,
    estoque: int,
    tags: seq<string>)

  /** A history record, with the two metadata averages the queries read. */
  datatype Registro = Registro(
    idRecomendacao: string,
    idCliente: string,
    nomeCliente: string,
    data: int,
    produtos: seq<ProdutoRecomendado>,
    total: int,
    confiancaMedia: real,
    descontoMedio: real)

  /** Python truthiness of `valor_medio_compra`: `None` and `0.0` are false. */
  predicate ValorTruthy(c: ClienteInfo) {
    c.valorMedio.Some? && c.valorMedio.value != 0.0
  }

  // ------------------------------------------------------------ score

  /** `simular_score_ia`: `uniform(65, 98)`. */
  function SimularScore(u: real): (s: real)
    requires IsUnit(u)
    ensures 65.0 <= s <= 98.0
  {
    65.0 + 33.0 * u
  }

  // ---------------------------------------------------------- reasons

  /** The reasons the rules can produce, before they are rendered as text. */
  datatype Motivo =
    | JaComprou(categoria: string)
    | Complementa(categoria: string)
    | FaixaHabitual
    | CustoBeneficio
    | ClienteVip
    | MelhorDaCategoria
    | Premium

  function Texto(m: Motivo): string {
    match m
    case JaComprou(cat) => "Você já comprou produtos de " + cat
    case Complementa(cat) => "Complementa seu " + cat
    case FaixaHabitual => "Dentro da sua faixa de preço habitual"
    case CustoBeneficio => "Excelente custo-benefício para você"
    case ClienteVip => "Cliente VIP - produto em destaque"
    case MelhorDaCategoria => "Melhor custo-benefício da categoria"
    case Premium => "Produto premium recomendado"
  }

  const Genericos: seq<string> := [
    "Tendência de compra identificada pela IA",
    "Produto mais vendido para perfis similares",
    "Alta taxa de satisfação " + "entre clientes parecidos",
    "Promoção exclusiva detectada",
    "Estoque limitado - oportunidade única"
  ]

  /** Which categories complement a purchased one. */
  const Complementares: map<string, seq<string>> := map[
    "Notebooks" := ["Periféricos", "Monitores", "Acessórios"],
    "Smartphones" := ["Acessórios", "Armazenamento"],
    "Tablets" := ["Acessórios", "Periféricos"]
  ]

  /** One "Complementa seu" reason per history entry (duplicates included) that the category complements. */
  function Complementos(hist: seq<string>, categoria: string): (ms: seq<Motivo>)
    ensures forall m :: m in ms ==>
              (m.Complementa? && m.categoria in hist
               && m.categoria in Complementares && categoria in Complementares[m.categoria])
    decreases |hist|
  {
    if |hist| == 0 then []
    else
      var here := if hist[0] in Complementares && categoria in Complementares[hist[0]]
                  then [Complementa(hist[0])] else [];
      here + Complementos(hist[1..], categoria)
  }

  /** The reasons that fire for a client and product, in the order the rules run. */
  function Motivos(c: ClienteInfo, p: ProdutoMock): (ms: seq<Motivo>)
    ensures p.categoria in c.historico ==> |ms| > 0 && ms[0] == JaComprou(p.categoria)
    ensures |c.historico| == 0 && !ValorTruthy(c) && c.frequencia != Some("Alta") ==> ms == []
  {
    var hist :=
      if |c.historico| == 0 then []
      else if p.categoria in c.historico then [JaComprou(p.categoria)]
      else Complementos(c.historico, p.categoria);
    var preco :=
      if !ValorTruthy(c) then []
      else if -1000.0 < p.preco - c.valorMedio.value < 1000.0 then [FaixaHabitual]
      else if p.preco < c.valorMedio.value then [CustoBeneficio]
      else [];
    var vip := if c.frequencia == Some("Alta") then [ClienteVip] else [];
    var cb := if "custo-beneficio" in p.tags && ValorTruthy(c) && c.valorMedio.value < 3000.0
              then [MelhorDaCategoria] else [];
    var pr := if "premium" in p.tags && ValorTruthy(c) && c.valorMedio.value > 5000.0
              then [Premium] else [];
    hist + preco + vip + cb + pr
  }

  predicate StartsWith(s: string, prefix: string) {
    |prefix| <= |s| && s[..|prefix|] == prefix
  }

  /** A text that differs from every generic one in its first, second, fourth or ninth character. */
  lemma NotGenericByChars(t: string)
    requires |t| >= 9
    requires || t[0] !in {'T', 'P', 'A', 'E'}
             || (t[0] == 'E' && t[1] != 's')
             || (t[0] == 'P' && t[3] == 'd' && t[8] == 'p')
    ensures t !in Genericos
  {
    assert Genericos[0][0] == 'T';
    assert Genericos[1][0] == 'P' && Genericos[1][8] == 'm';
    assert Genericos[2][0] == 'A';
    assert Genericos[3][0] == 'P' && Genericos[3][3] == 'm';
    assert Genericos[4][0] == 'E' && Genericos[4][1] == 's';
  }

  /** No rendered reason, whatever follows it, reads as one of the generic texts. */
  lemma TextoNotGeneric(m: Motivo, rest: string)
    ensures Texto(m) + rest !in Genericos
  {
    var t := Texto(m) + rest;
    var h := Texto(m);
    assert |h| >= 9;
    assert t[0] == h[0] && t[1] == h[1] && t[3] == h[3] && t[8] == h[8];
    match m {
      case JaComprou(_) => assert h[0] == 'V';
      case Complementa(_) => assert h[0] == 'C';
      case FaixaHabitual => assert h[0] == 'D';
      case CustoBeneficio => assert h[0] == 'E' && h[1] == 'x';
      case ClienteVip => assert h[0] == 'C';
      case MelhorDaCategoria => assert h[0] == 'M';
      case Premium => assert h[0] == 'P' && h[3] == 'd' && h[8] == 'p';
    }
    NotGenericByChars(t);
  }

  /**
   * `gerar_motivo_recomendacao`: the first two reasons joined with " | ", or
   * generic text number `g` when no rule fired.
   */
  function GerarMotivo(c: ClienteInfo, p: ProdutoMock, g: int): (r: string)
    requires 0 <= g < |Genericos|
    ensures r != ""
    ensures r in Genericos <==> |Motivos(c, p)| == 0
    ensures p.categoria in c.historico ==> StartsWith(r, "Você já comprou produtos de " + p.categoria)
    ensures |Motivos(c, p)| == 1 ==> r == Texto(Motivos(c, p)[0])
    ensures |Motivos(c, p)| >= 2 ==> r == Texto(Motivos(c, p)[0]) + " | " + Texto(Motivos(c, p)[1])
  {
    var ms := Motivos(c, p);
    if |ms| == 0 then Genericos[g]
    else if |ms| == 1 then
      TextoNotGeneric(ms[0], "");
      assert Texto(ms[0]) + "" == Texto(ms[0]);
      Texto(ms[0])
    else
      TextoNotGeneric(ms[0], " | " + Texto(ms[1]));
      assert Texto(ms[0]) + " | " + Texto(ms[1]) == Texto(ms[0]) + (" | " + Texto(ms[1]));
      Texto(ms[0]) + " | " + Texto(ms[1])
  }

  // --------------------------------------------------------- discount

  /**
   * `aplicar_desconto_personalizado`: VIP clients draw from [5, 15], clients
   * with no history from [3, 10], the rest get [2, 8] when the 30% chance
   * `uChance < 0.3` hits and nothing otherwise.
   */
  function AplicarDesconto(c: ClienteInfo, uChance: real, u: real): (d: real)
    requires IsUnit(uChance) && IsUnit(u)
    ensures 0.0 <= d <= 15.0
    ensures c.frequencia == Some("Alta") ==> 5.0 <= d <= 15.0
    ensures c.frequencia != Some("Alta") && |c.historico| == 0 ==> 3.0 <= d <= 10.0
    ensures c.frequencia != Some("Alta") && |c.historico| > 0 ==>
              (d == 0.0 <==> uChance >= 0.3) && (d != 0.0 ==> 2.0 <= d <= 8.0)
  {
    if c.frequencia == Some("Alta") then 5.0 + 10.0 * u
    else if |c.historico| == 0 then 3.0 + 7.0 * u
    else if uChance < 0.3 then 2.0 + 6.0 * u
    else 0.0
  }

  /** `preco_final`: after a discount in [0, 15]% it lies between 85% of the price and the price. */
  function PrecoFinal(preco: real, d: real): (f: real)
    requires 0.0 <= d <= 15.0
    ensures preco >= 0.0 ==> 0.85 * preco <= f <= preco
  {
    assert preco * (1.0 - d / 100.0) == preco - preco * (d / 100.0);
    assert preco >= 0.0 ==> 0.0 <= preco * (d / 100.0) <= preco * 0.15;
    preco * (1.0 - d / 100.0)
  }

  // --------------------------------------------------------- selector

  /** A product whose category the client has bought before. */
  predicate Priorizado(c: ClienteInfo, p: ProdutoMock) {
    |c.historico| > 0 && p.categoria in c.historico
  }

  function Prioritarios(c: ClienteInfo, cands: seq<ProdutoMock>): seq<ProdutoMock> {
    Filter(cands, p => Priorizado(c, p))
  }

  function Novos(c: ClienteInfo, cands: seq<ProdutoMock>): seq<ProdutoMock> {
    Filter(cands, p => !Priorizado(c, p))
  }

  /** `int(quantidade * 0.6)`, exact over the route's range 1..20. */
  function NumPriorizados(q: int): (n: int)
    requires 1 <= q <= 20
    ensures 0 <= n <= q
  {
    (q * 6) / 10
  }

  /**
   * `selecionar_produtos_ia`: up to `int(0.6q)` products of known categories,
   * then up to the rest from new categories, topped up from the front of the
   * candidate list when short, and cut to `q`.
   */
  function SelecionarProdutos(c: ClienteInfo, cands: seq<ProdutoMock>, q: int): (r: seq<ProdutoMock>)
    requires 1 <= q <= 20
    ensures Min(q, |cands|) <= |r| <= q
    ensures forall x :: x in r ==> x in cands
  {
    var sel := Mix(c, cands, q);
    assert forall x :: x in sel ==> x in cands by {
      MixShape(c, cands, q);
    }
    var full := if |sel| < q then sel + Take(cands, q - |sel|) else sel;
    Take(full, q)
  }

  /** The mix before the top-up: prioritised products first, then new ones. */
  function Mix(c: ClienteInfo, cands: seq<ProdutoMock>, q: int): seq<ProdutoMock>
    requires 1 <= q <= 20
  {
    Take(Prioritarios(c, cands), NumPriorizados(q)) + Take(Novos(c, cands), q - NumPriorizados(q))
  }

  /** The mix holds at most `int(0.6q)` prioritised candidates followed by at most the rest of new ones. */
  lemma MixShape(c: ClienteInfo, cands: seq<ProdutoMock>, q: int)
    requires 1 <= q <= 20
    ensures var k1 := |Take(Prioritarios(c, cands), NumPriorizados(q))|;
            var m := Mix(c, cands, q);
            && k1 <= NumPriorizados(q) && |m| - k1 <= q - NumPriorizados(q) && k1 <= |m| <= q
            && (forall i :: 0 <= i < k1 ==> Priorizado(c, m[i]))
            && (forall i :: k1 <= i < |m| ==> !Priorizado(c, m[i]))
            && (forall x :: x in m ==> x in cands)
  {
    var a := Take(Prioritarios(c, cands), NumPriorizados(q));
    var b := Take(Novos(c, cands), q - NumPriorizados(q));
    assert forall i :: 0 <= i < |a| ==> a[i] in Prioritarios(c, cands);
    assert forall i :: 0 <= i < |b| ==> b[i] in Novos(c, cands);
  }

  /**
   * The selection is the mix followed by the top-up: after the mix, the
   * selection repeats the candidate list from its start.
   */
  lemma SelecionarShape(c: ClienteInfo, cands: seq<ProdutoMock>, q: int)
    requires 1 <= q <= 20
    ensures var m := Mix(c, cands, q);
            var r := SelecionarProdutos(c, cands, q);
            && |m| <= |r|
            && r[..|m|] == m
            && (forall i :: |m| <= i < |r| ==> i - |m| < |cands| && r[i] == cands[i - |m|])
  {
    MixShape(c, cands, q);
  }

  /** With an empty history nothing is prioritised. */
  lemma EmptyHistoryNoPriority(c: ClienteInfo, cands: seq<ProdutoMock>)
    requires |c.historico| == 0
    ensures Prioritarios(c, cands) == []
    ensures Novos(c, cands) == cands
  {
    FilterAll(cands, p => !Priorizado(c, p));
    FilterNone(cands, p => Priorizado(c, p));
  }

  /** The top-up can repeat a product: three candidates and five requested give the first two twice. */
  lemma SelectorCanRepeat()
    ensures var a := ProdutoMock("A", "a", "X", 1.0, 1, []);
            var b := ProdutoMock("B", "b", "X", 1.0, 1, []);
            var d := ProdutoMock("D", "d", "X", 1.0, 1, []);
            var c := ClienteInfo("CLI001", "n", [], None, None);
            var r := SelecionarProdutos(c, [a, b, d], 5);
            |r| == 5 && r[0] == r[2] && r[1] == r[3]
  {
    var a := ProdutoMock("A", "a", "X", 1.0, 1, []);
    var b := ProdutoMock("B", "b", "X", 1.0, 1, []);
    var d := ProdutoMock("D", "d", "X", 1.0, 1, []);
    var c := ClienteInfo("CLI001", "n", [], None, None);
    EmptyHistoryNoPriority(c, [a, b, d]);
    assert NumPriorizados(5) == 3;
  }

  // ------------------------------------------------------------ route

  /** The draws made for one selected product. */
  datatype SorteioProduto = SorteioProduto(uChance: real, uDesconto: real, uScore: real, generico: int)

  predicate ValidSorteio(d: SorteioProduto) {
    IsUnit(d.uChance) && IsUnit(d.uDesconto) && IsUnit(d.uScore) && 0 <= d.generico < |Genericos|
  }

  /** One `ProdutoRecomendado` built from a catalogue product. */
  function Recomendar(c: ClienteInfo, p: ProdutoMock, d: SorteioProduto): (r: ProdutoRecomendado)
    requires ValidSorteio(d)
    ensures r.idProduto == p.id && r.nome == p.nome && r.categoria == p.categoria
    ensures r.preco == p.preco && r.estoque == p.estoque && r.tags == p.tags
    ensures 0.0 <= r.desconto <= 15.0 && 65.0 <= r.confianca <= 98.0
    ensures r.motivo == GerarMotivo(c, p, d.generico)
    ensures p.preco >= 0.0 ==> 0.85 * p.preco <= r.precoFinal <= p.preco
  {
    var desconto := AplicarDesconto(c, d.uChance, d.uDesconto);
    ProdutoRecomendado(p.id, p.nome, p.categoria, p.preco, desconto,
                       PrecoFinal(p.preco, desconto), SimularScore(d.uScore),
                       GerarMotivo(c, p, d.generico), p.estoque, p.tags)
  }

  function ConfiancaOf(p: ProdutoRecomendado): real { p.confianca }
  function DescontoOf(p: ProdutoRecomendado): real { p.desconto }

  /** The recommended product is a candidate, with its catalogue fields copied. */
  predicate FromCandidate(p: ProdutoRecomendado, cands: seq<ProdutoMock>) {
    exists k :: 0 <= k < |cands| && cands[k].id == p.idProduto && cands[k].categoria == p.categoria
                && cands[k].preco == p.preco
  }

  /** A recommended product in the route's ranges, taken from the candidates. */
  predicate EmFaixa(p: ProdutoRecomendado, cands: seq<ProdutoMock>) {
    && 65.0 <= p.confianca <= 98.0
    && 0.0 <= p.desconto <= 15.0
    && FromCandidate(p, cands)
  }

  /** The selected products turned into recommendations, in selection order. */
  function Preparar(c: ClienteInfo, sel: seq<ProdutoMock>, cands: seq<ProdutoMock>, draws: seq<SorteioProduto>): (pre: seq<ProdutoRecomendado>)
    requires |sel| <= |draws| && forall i :: 0 <= i < |draws| ==> ValidSorteio(draws[i])
    requires forall x :: x in sel ==> x in cands
    ensures |pre| == |sel|
    ensures forall i :: 0 <= i < |pre| ==> pre[i].idProduto == sel[i].id && EmFaixa(pre[i], cands)
    ensures forall i :: 0 <= i < |pre| ==> pre[i] == Recomendar(c, sel[i], draws[i])
  {
    var pre := seq(|sel|, i requires 0 <= i < |sel| && |sel| <= |draws| && ValidSorteio(draws[i]) =>
                 Recomendar(c, sel[i], draws[i]));
    assert forall i :: 0 <= i < |pre| ==> FromCandidate(pre[i], cands) by {
      forall i | 0 <= i < |pre| ensures FromCandidate(pre[i], cands) {
        assert sel[i] in cands;
        var k :| 0 <= k < |cands| && cands[k] == sel[i];
      }
    }
    pre
  }

  /** The selected products turned into recommendations and sorted by confidence, highest first. */
  function Montar(c: ClienteInfo, sel: seq<ProdutoMock>, cands: seq<ProdutoMock>, draws: seq<SorteioProduto>): (prods: seq<ProdutoRecomendado>)
    requires |sel| <= |draws| && forall i :: 0 <= i < |draws| ==> ValidSorteio(draws[i])
    requires forall x :: x in sel ==> x in cands
    ensures |prods| == |sel|
    ensures multiset(prods) == multiset(Preparar(c, sel, cands, draws))
    ensures SortedDesc(prods, ConfiancaOf)
    ensures forall i :: 0 <= i < |prods| ==> EmFaixa(prods[i], cands)
  {
    var pre := Preparar(c, sel, cands, draws);
    var prods := SortDesc(pre, ConfiancaOf);
    EmFaixaPreservada(pre, prods, cands);
    prods
  }

  /** Reordering keeps every recommendation in range. */
  lemma EmFaixaPreservada(pre: seq<ProdutoRecomendado>, prods: seq<ProdutoRecomendado>, cands: seq<ProdutoMock>)
    requires forall i :: 0 <= i < |pre| ==> EmFaixa(pre[i], cands)
    requires forall y :: y in prods ==> y in pre
    ensures forall i :: 0 <= i < |prods| ==> EmFaixa(prods[i], cands)
  {
    forall i | 0 <= i < |prods| ensures EmFaixa(prods[i], cands) {
      assert prods[i] in pre;
    }
  }

  /** The averages of in-range recommendations are in range. */
  lemma MediasEmFaixa(prods: seq<ProdutoRecomendado>, cands: seq<ProdutoMock>)
    requires |prods| > 0 && forall i :: 0 <= i < |prods| ==> EmFaixa(prods[i], cands)
    ensures 65.0 <= MeanBy(prods, ConfiancaOf) <= 98.0
    ensures 0.0 <= MeanBy(prods, DescontoOf) <= 15.0
  {
    MeanByBounds(prods, ConfiancaOf, 65.0, 98.0);
    MeanByBounds(prods, DescontoOf, 0.0, 15.0);
  }

  /**
   * `gerar_recomendacao`: selects, prices and scores the products, sorts them
   * by confidence and appends the record to the history. An empty selection
   * divides by zero when the averages are computed, which the route turns
   * into a 500 before anything is appended.
   */
  function GerarRecomendacao(hist: seq<Registro>, c: ClienteInfo, q: int, cands: seq<ProdutoMock>,
                             draws: seq<SorteioProduto>, idRec: string, agora: int): (r: Result<(seq<Registro>, Registro)>)
    requires 1 <= q <= 20
    requires |draws| >= q && forall i :: 0 <= i < |draws| ==> ValidSorteio(draws[i])
    ensures r.Err? <==> |cands| == 0
    ensures r.Err? ==> r.code == 500
    ensures r.Ok? ==>
              var (h, rec) := r.value;
              && h == hist + [rec]
              && rec.idRecomendacao == idRec && rec.idCliente == c.idCliente && rec.nomeCliente == c.nome
              && rec.data == agora
              && rec.total == |rec.produtos| && Min(q, |cands|) <= |rec.produtos| <= q
              && SortedDesc(rec.produtos, ConfiancaOf)
              && (forall i :: 0 <= i < |rec.produtos| ==> EmFaixa(rec.produtos[i], cands))
              && 65.0 <= rec.confiancaMedia <= 98.0
              && 0.0 <= rec.descontoMedio <= 15.0
    ensures r.Ok? ==>
              var rec := r.value.1;
              && rec.produtos == Montar(c, SelecionarProdutos(c, cands, q), cands, draws)
              && rec.confiancaMedia == MeanBy(rec.produtos, ConfiancaOf)
              && rec.descontoMedio == MeanBy(rec.produtos, DescontoOf)
  {
    var sel := SelecionarProdutos(c, cands, q);
    if |sel| == 0 then Err(500)
    else
      var prods := Montar(c, sel, cands, draws);
      MediasEmFaixa(prods, cands);
      var rec := Registro(idRec, c.idCliente, c.nome, agora, prods, |prods|,
                          MeanBy(prods, ConfiancaOf), MeanBy(prods, DescontoOf));
      Ok((hist + [rec], rec))
  }
}

=== FILE: rec_history.dfy ===
/**
 * The read side of the recommendation routes and the feedback route, over
 * the in-memory recommendation history and feedback list: per-client
 * listing and summary, per-product consolidation, feedback registration,
 * paginated history and global statistics.
 *
 * `data_geracao` is an ISO timestamp string in the source and sorting
 * compares those strings; the model uses epoch seconds, whose order agrees
 * with the order of same-format ISO strings.
 */
module RecHistory {
  import opened Common
  import opened Text
  import opened Seqs
  import opened Tally
  import opened RecEngine

  datatype Ordem = Recente | Antiga | PorConfianca

  function DataOf(r: Registro): real { r.data as real }
  function DataNegOf(r: Registro): real { -(r.data as real) }
  function ConfiancaMediaOf(r: Registro): real { r.confiancaMedia }
  function DescontoMedioOf(r: Registro): real { r.descontoMedio }

  /** The client's records, in history order. */
  function DoCliente(hist: seq<Registro>, id: string): (rs: seq<Registro>)
    ensures forall x :: x in rs <==> x in hist && x.idCliente == id
    ensures |rs| == 0 <==> forall i :: 0 <= i < |hist| ==> hist[i].idCliente != id
  {
    var rs := Filter(hist, (r: Registro) => r.idCliente == id);
    assert forall i :: 0 <= i < |hist| && hist[i].idCliente == id ==> hist[i] in rs;
    assert |rs| > 0 ==> rs[0] in rs;
    rs
  }

  /** The client's records keep their history order. */
  lemma DoClienteEmOrdem(hist: seq<Registro>, id: string)
    ensures IsSubseq(DoCliente(hist, id), hist)
  {
    FilterIsSubseq(hist, (r: Registro) => r.idCliente == id);
  }

  // --------------------------------------------------- per-client list

  /**
   * `re.match(r'^CLI\d{3}$', id)` over ASCII digits. Python's `$` also
   * matches just before a final newline, so one trailing newline is accepted.
   */
  predicate IdClienteValido(id: string) {
    && (|id| == 6 || (|id| == 7 && id[6] == '\n'))
    && id[..3] == "CLI"
    && IsAsciiDigit(id[3]) && IsAsciiDigit(id[4]) && IsAsciiDigit(id[5])
  }

  /** Valid ids are `CLI` and three digits, once a single final newline is set aside. */
  lemma IdClienteValidoSse(id: string)
    ensures IdClienteValido(id) <==>
              var c := if |id| == 7 && id[6] == '\n' then id[..6] else id;
              |c| == 6 && c[..3] == "CLI" && forall i :: 3 <= i < 6 ==> IsAsciiDigit(c[i])
  {
  }

  /** The pattern accepts `CLI001` and `CLI001` plus a newline, and rejects a fourth digit or lower case. */
  lemma IdClienteExemplos()
    ensures IdClienteValido("CLI001") && IdClienteValido("CLI001\n")
    ensures !IdClienteValido("CLI0012") && !IdClienteValido("cli001") && !IdClienteValido("CLI01")
  {
    assert "cli001"[..3] != "CLI" by { assert "cli001"[0] != 'C'; }
  }

  /** The three orders of the `ordem` query parameter; each is a stable sort. */
  function Ordenar(rs: seq<Registro>, ordem: Ordem): (r: seq<Registro>)
    ensures |r| == |rs| && multiset(r) == multiset(rs)
    ensures ordem == Recente ==> forall i, j :: 0 <= i < j < |r| ==> r[i].data >= r[j].data
    ensures ordem == Antiga ==> forall i, j :: 0 <= i < j < |r| ==> r[i].data <= r[j].data
    ensures ordem == PorConfianca ==> forall i, j :: 0 <= i < j < |r| ==> r[i].confiancaMedia >= r[j].confiancaMedia
  {
    match ordem
    case Recente =>
      var r := SortDesc(rs, DataOf);
      assert forall i, j :: 0 <= i < j < |r| ==> DataOf(r[i]) >= DataOf(r[j]);
      r
    case Antiga =>
      var r := SortDesc(rs, DataNegOf);
      assert forall i, j :: 0 <= i < j < |r| ==> DataNegOf(r[i]) >= DataNegOf(r[j]);
      r
    case PorConfianca => SortDesc(rs, ConfiancaMediaOf)
  }

  /**
   * `listar_recomendacoes_cliente`: the client's records in the chosen order,
   * cut to `limite`. With no record it answers 400 when the id does not look
   * like `CLI` plus three digits, and 404 when it does.
   */
  function ListarRecomendacoesCliente(hist: seq<Registro>, id: string, limite: int, ordem: Ordem): (r: Result<seq<Registro>>)
    requires 1 <= limite <= 50
    ensures r.Err? <==> forall i :: 0 <= i < |hist| ==> hist[i].idCliente != id
    ensures r.Err? ==> (r.code == 400 <==> !IdClienteValido(id)) && (r.code == 400 || r.code == 404)
    ensures r.Ok? ==> |r.value| == Min(limite, |DoCliente(hist, id)|)
    ensures r.Ok? ==> r.value == Take(Ordenar(DoCliente(hist, id), ordem), limite)
    ensures r.Ok? ==> forall i :: 0 <= i < |r.value| ==> r.value[i] in hist && r.value[i].idCliente == id
    ensures r.Ok? && ordem == Recente ==> forall i, j :: 0 <= i < j < |r.value| ==> r.value[i].data >= r.value[j].data
    ensures r.Ok? && ordem == Antiga ==> forall i, j :: 0 <= i < j < |r.value| ==> r.value[i].data <= r.value[j].data
    ensures r.Ok? && ordem == PorConfianca ==>
              forall i, j :: 0 <= i < j < |r.value| ==> r.value[i].confiancaMedia >= r.value[j].confiancaMedia
  {
    var mine := DoCliente(hist, id);
    if |mine| == 0 then
      if !IdClienteValido(id) then Err(400) else Err(404)
    else
      PrefixoOrdenado(hist, id, ordem, limite);
      Ok(Take(Ordenar(mine, ordem), limite))
  }

  /** The first `limite` of the client's ordered records are client records of the history, in the requested order. */
  lemma PrefixoOrdenado(hist: seq<Registro>, id: string, ordem: Ordem, limite: nat)
    ensures var r := Take(Ordenar(DoCliente(hist, id), ordem), limite);
            && |r| == Min(limite, |DoCliente(hist, id)|)
            && (forall i :: 0 <= i < |r| ==> r[i] in hist && r[i].idCliente == id)
            && (ordem == Recente ==> forall i, j :: 0 <= i < j < |r| ==> r[i].data >= r[j].data)
            && (ordem == Antiga ==> forall i, j :: 0 <= i < j < |r| ==> r[i].data <= r[j].data)
            && (ordem == PorConfianca ==> forall i, j :: 0 <= i < j < |r| ==> r[i].confiancaMedia >= r[j].confiancaMedia)
  {
    PrefixoDoCliente(hist, id, ordem, limite);
  }

  lemma PrefixoDoCliente(hist: seq<Registro>, id: string, ordem: Ordem, limite: nat)
    ensures var r := Take(Ordenar(DoCliente(hist, id), ordem), limite);
            forall i :: 0 <= i < |r| ==> r[i] in hist && r[i].idCliente == id
  {
    var rs := DoCliente(hist, id);
    var sorted := Ordenar(rs, ordem);
    var r := Take(sorted, limite);
    forall i | 0 <= i < |r| ensures r[i] in rs {
      assert r[i] == sorted[i];
      assert sorted[i] in multiset(sorted);
    }
  }

  // ------------------------------------------------------ summary

  /** All products of a list of records, record by record. */
  function ProdutosDe(rs: seq<Registro>): seq<ProdutoRecomendado>
    decreases |rs|
  {
    if |rs| == 0 then [] else rs[0].produtos + ProdutosDe(rs[1..])
  }

  function CategoriasDe(ps: seq<ProdutoRecomendado>): (cs: seq<string>)
    ensures |cs| == |ps| && forall i :: 0 <= i < |ps| ==> cs[i] == ps[i].categoria
  {
    seq(|ps|, i requires 0 <= i < |ps| => ps[i].categoria)
  }

  /** `sum(len(rec["produtos_recomendados"]) ...)` counts exactly the flattened products. */
  lemma {:induction false} TotalProdutos(rs: seq<Registro>)
    ensures SumBy(rs, (r: Registro) => |r.produtos| as real) == |ProdutosDe(rs)| as real
    decreases |rs|
  {
    if |rs| > 0 {
      TotalProdutos(rs[1..]);
    }
  }

  /** `max(recs, key=data)`: the index of the first record with the latest date. */
  function MaisRecente(rs: seq<Registro>): (i: int)
    requires |rs| > 0
    ensures 0 <= i < |rs|
    ensures forall j :: 0 <= j < |rs| ==> rs[j].data <= rs[i].data
    ensures forall j :: 0 <= j < i ==> rs[j].data < rs[i].data
    decreases |rs|
  {
    if |rs| == 1 then 0
    else
      var i := MaisRecente(rs[..|rs| - 1]);
      assert forall j :: 0 <= j < |rs| - 1 ==> rs[..|rs| - 1][j] == rs[j];
      if rs[|rs| - 1].data > rs[i].data then |rs| - 1 else i
  }

  datatype Feedback = Feedback(
    idFeedback: string,
    data: int,
    idRecomendacao: string,
    idProduto: string,
    aceito: bool,
    comprado: bool,
    motivoRecusa: Option<string>,
    observacoes: Option<string>)

  predicate DeAlgum(f: Feedback, rs: seq<Registro>) {
    exists i :: 0 <= i < |rs| && rs[i].idRecomendacao == f.idRecomendacao
  }

  datatype Resumo = Resumo(
    nomeCliente: string,
    totalRecomendacoes: nat,
    totalProdutos: nat,
    confiancaMedia: real,
    descontoMedio: real,
    ultima: int,
    categorias: seq<(string, nat)>,
    totalFeedbacks: nat,
    aceitos: nat,
    comprados: nat,
    taxaAceitacao: real,
    taxaConversao: real)

  function AceitoFb(f: Feedback): bool { f.aceito }
  function CompradoFb(f: Feedback): bool { f.comprado }

  /** The feedback entries about one of the recommendations in `rs`, in feedback order. */
  function FeedbacksDe(fbs: seq<Feedback>, rs: seq<Registro>): (r: seq<Feedback>)
    ensures |r| <= |fbs|
    ensures forall f :: f in r <==> f in fbs && DeAlgum(f, rs)
  {
    Filter(fbs, (f: Feedback) => DeAlgum(f, rs))
  }

  /** `obter_resumo_cliente`: 404 when the client has no record, otherwise the summary of those records. */
  function ObterResumoCliente(hist: seq<Registro>, fbs: seq<Feedback>, id: string): (r: Result<Resumo>)
    ensures r.Err? <==> |DoCliente(hist, id)| == 0
    ensures r.Err? ==> r.code == 404
    ensures r.Ok? ==> r.value == Resumir(DoCliente(hist, id), fbs)
  {
    var mine := DoCliente(hist, id);
    if |mine| == 0 then Err(404) else Ok(Resumir(mine, fbs))
  }

  /**
   * The summary of a client's records: totals, the mean confidence and
   * discount, the five most recommended categories, the feedback counts and
   * rates over the feedback about those records, and the name and date of
   * the latest record.
   */
  function Resumir(mine: seq<Registro>, fbs: seq<Feedback>): (s: Resumo)
    requires |mine| > 0
    ensures s.totalRecomendacoes == |mine|
    ensures s.totalProdutos == |ProdutosDe(mine)|
    ensures s.confiancaMedia == MeanBy(mine, ConfiancaMediaOf)
    ensures s.descontoMedio == MeanBy(mine, DescontoMedioOf)
    ensures s.categorias == Top(CategoriasDe(ProdutosDe(mine)), 5)
    ensures s.totalFeedbacks == |FeedbacksDe(fbs, mine)|
    ensures s.aceitos == Count(FeedbacksDe(fbs, mine), AceitoFb)
    ensures s.comprados == Count(FeedbacksDe(fbs, mine), CompradoFb)
    ensures s.taxaAceitacao == Taxa(s.aceitos, s.totalFeedbacks)
    ensures s.taxaConversao == Taxa(s.comprados, s.totalFeedbacks)
    ensures s.ultima == mine[MaisRecente(mine)].data && s.nomeCliente == mine[MaisRecente(mine)].nomeCliente
    ensures forall j :: 0 <= j < |mine| ==> mine[j].data <= s.ultima
  {
    var doCliente := FeedbacksDe(fbs, mine);
    var aceitos := Count(doCliente, AceitoFb);
    var comprados := Count(doCliente, CompradoFb);
    var u := MaisRecente(mine);
    Resumo(
      mine[u].nomeCliente,
      |mine|,
      |ProdutosDe(mine)|,
      MeanBy(mine, ConfiancaMediaOf),
      MeanBy(mine, DescontoMedioOf),
      mine[u].data,
      Top(CategoriasDe(ProdutosDe(mine)), 5),
      |doCliente|,
      aceitos,
      comprados,
      Taxa(aceitos, |doCliente|),
      Taxa(comprados, |doCliente|))
  }

  /**
   * The acceptance rate of a summary is 0 exactly when no feedback about the
   * client was accepted, and 100 exactly when there is feedback and all of it
   * was accepted.
   */
  lemma ResumoTaxas(mine: seq<Registro>, fbs: seq<Feedback>)
    requires |mine| > 0
    ensures var s := Resumir(mine, fbs);
            var fs := FeedbacksDe(fbs, mine);
            && (s.taxaAceitacao == 0.0 <==> forall i :: 0 <= i < |fs| ==> !fs[i].aceito)
            && (s.taxaAceitacao == 100.0 <==> |fs| > 0 && forall i :: 0 <= i < |fs| ==> fs[i].aceito)
  {
    var s := Resumir(mine, fbs);
    var fs := FeedbacksDe(fbs, mine);
    TaxaExtremos(s.aceitos, s.totalFeedbacks);
    assert s.aceitos == 0 <==> forall i :: 0 <= i < |fs| ==> !AceitoFb(fs[i]);
    assert s.aceitos == |fs| <==> forall i :: 0 <= i < |fs| ==> AceitoFb(fs[i]);
  }

  /**
   * The summary's means stay within the ranges the generator draws from:
   * confidence in [65, 98] and discount in [0, 15].
   */
  lemma ResumoEmFaixa(mine: seq<Registro>, fbs: seq<Feedback>)
    requires |mine| > 0
    requires forall j :: 0 <= j < |mine| ==> 65.0 <= mine[j].confiancaMedia <= 98.0
    requires forall j :: 0 <= j < |mine| ==> 0.0 <= mine[j].descontoMedio <= 15.0
    ensures 65.0 <= Resumir(mine, fbs).confiancaMedia <= 98.0
    ensures 0.0 <= Resumir(mine, fbs).descontoMedio <= 15.0
    ensures Resumir(mine, fbs).aceitos <= Resumir(mine, fbs).totalFeedbacks <= |fbs|
  {
    MeanByBounds(mine, ConfiancaMediaOf, 65.0, 98.0);
    MeanByBounds(mine, DescontoMedioOf, 0.0, 15.0);
  }

  // ------------------------------------------------ consolidation

  function IdOf(p: ProdutoRecomendado): string { p.idProduto }

  /** The index of the first occurrence of `e` in `ps`. */
  function Pos(ps: seq<ProdutoRecomendado>, e: ProdutoRecomendado): (i: int)
    requires e in ps
    ensures 0 <= i < |ps| && ps[i] == e
    ensures forall j :: 0 <= j < i ==> ps[j] != e
    decreases |ps|
  {
    if ps[0] == e then 0
    else
      assert e in ps[1..];
      1 + Pos(ps[1..], e)
  }

  /**
   * `e` is the first occurrence, in `ps`, of the highest confidence among
   * the products that share its id.
   */
  predicate Melhor(e: ProdutoRecomendado, ps: seq<ProdutoRecomendado>) {
    && e in ps
    && (forall j :: 0 <= j < |ps| && ps[j].idProduto == e.idProduto ==> ps[j].confianca <= e.confianca)
    && (forall j :: 0 <= j < Pos(ps, e) && ps[j].idProduto == e.idProduto ==> ps[j].confianca < e.confianca)
  }

  function IdIndex(t: seq<ProdutoRecomendado>, id: string): (k: int)
    ensures -1 <= k < |t|
    ensures k >= 0 ==> t[k].idProduto == id
    ensures k < 0 ==> forall j :: 0 <= j < |t| ==> t[j].idProduto != id
  {
    FirstWhere(t, (p: ProdutoRecomendado) => p.idProduto == id)
  }

  /** One entry per product id of `ps`, each the best occurrence of that id. */
  predicate IsConsolidation(t: seq<ProdutoRecomendado>, ps: seq<ProdutoRecomendado>) {
    && UniqueBy(t, IdOf)
    && (forall k :: 0 <= k < |t| ==> Melhor(t[k], ps))
    && (forall j :: 0 <= j < |ps| ==> IdIndex(t, ps[j].idProduto) >= 0)
  }

  /** One step of the consolidation loop: a new id is appended, a strictly better one replaces in place. */
  function Upsert(t: seq<ProdutoRecomendado>, p: ProdutoRecomendado): seq<ProdutoRecomendado> {
    var k := IdIndex(t, p.idProduto);
    if k < 0 then t + [p]
    else if p.confianca > t[k].confianca then t[k := p]
    else t
  }

  lemma PosAppend(ps: seq<ProdutoRecomendado>, p: ProdutoRecomendado, e: ProdutoRecomendado)
    requires e in ps
    ensures e in ps + [p] && Pos(ps + [p], e) == Pos(ps, e)
  {
    var ps' := ps + [p];
    var i := Pos(ps, e);
    assert ps'[i] == e;
    assert forall j :: 0 <= j < |ps| ==> ps'[j] == ps[j];
    var i' := Pos(ps', e);
    assert i' <= i;
  }

  lemma MelhorBound(e: ProdutoRecomendado, ps: seq<ProdutoRecomendado>, j: int)
    requires Melhor(e, ps) && 0 <= j < |ps| && ps[j].idProduto == e.idProduto
    ensures ps[j].confianca <= e.confianca
  {
  }

  /** An entry that `p` does not beat stays the best one once `p` is appended. */
  lemma KeepsEntry(e: ProdutoRecomendado, ps: seq<ProdutoRecomendado>, p: ProdutoRecomendado)
    requires Melhor(e, ps)
    requires e.idProduto != p.idProduto || p.confianca <= e.confianca
    ensures Melhor(e, ps + [p])
  {
    var ps' := ps + [p];
    PosAppend(ps, p, e);
    assert forall j :: 0 <= j < |ps| ==> ps'[j] == ps[j];
  }

  /** `p` becomes the best entry of its id when every earlier one has lower confidence. */
  lemma NewBest(ps: seq<ProdutoRecomendado>, p: ProdutoRecomendado)
    requires forall j :: 0 <= j < |ps| && ps[j].idProduto == p.idProduto ==> ps[j].confianca < p.confianca
    ensures Melhor(p, ps + [p])
  {
    var ps' := ps + [p];
    assert ps'[|ps|] == p;
    assert forall j :: 0 <= j < |ps| ==> ps'[j] == ps[j];
  }

  lemma AppendCase(t: seq<ProdutoRecomendado>, ps: seq<ProdutoRecomendado>, p: ProdutoRecomendado)
    requires IsConsolidation(t, ps)
    requires IdIndex(t, p.idProduto) < 0
    ensures IsConsolidation(t + [p], ps + [p])
  {
    assert forall j :: 0 <= j < |ps| ==> ps[j].idProduto != p.idProduto;
    AppendUnique(t, p);
    AppendMelhor(t, ps, p);
    AppendCobre(t, ps, p);
  }

  lemma AppendUnique(t: seq<ProdutoRecomendado>, p: ProdutoRecomendado)
    requires UniqueBy(t, IdOf) && IdIndex(t, p.idProduto) < 0
    ensures UniqueBy(t + [p], IdOf)
  {
    var t' := t + [p];
    forall i, j | 0 <= i < j < |t'| ensures IdOf(t'[i]) != IdOf(t'[j]) {
      if j == |t| {
        assert t'[i] == t[i];
      } else {
        assert t'[i] == t[i] && t'[j] == t[j];
      }
    }
  }

  lemma AppendMelhor(t: seq<ProdutoRecomendado>, ps: seq<ProdutoRecomendado>, p: ProdutoRecomendado)
    requires forall k :: 0 <= k < |t| ==> Melhor(t[k], ps)
    requires forall j :: 0 <= j < |ps| ==> ps[j].idProduto != p.idProduto
    ensures forall k :: 0 <= k < |t + [p]| ==> Melhor((t + [p])[k], ps + [p])
  {
    var t' := t + [p];
    NewBest(ps, p);
    forall i | 0 <= i < |t'| ensures Melhor(t'[i], ps + [p]) {
      if i < |t| {
        assert t'[i] == t[i];
        KeepsEntry(t[i], ps, p);
      }
    }
  }

  lemma AppendCobre(t: seq<ProdutoRecomendado>, ps: seq<ProdutoRecomendado>, p: ProdutoRecomendado)
    requires forall j :: 0 <= j < |ps| ==> IdIndex(t, ps[j].idProduto) >= 0
    ensures forall j :: 0 <= j < |ps + [p]| ==> IdIndex(t + [p], (ps + [p])[j].idProduto) >= 0
  {
    var t' := t + [p];
    var ps' := ps + [p];
    forall j | 0 <= j < |ps'| ensures IdIndex(t', ps'[j].idProduto) >= 0 {
      if j < |ps| {
        var i := IdIndex(t, ps[j].idProduto);
        assert t'[i].idProduto == ps'[j].idProduto;
      } else {
        assert t'[|t|].idProduto == ps'[j].idProduto;
      }
    }
  }

  lemma ReplaceCase(t: seq<ProdutoRecomendado>, ps: seq<ProdutoRecomendado>, p: ProdutoRecomendado, k: int)
    requires IsConsolidation(t, ps)
    requires 0 <= k < |t| && t[k].idProduto == p.idProduto && p.confianca > t[k].confianca
    ensures IsConsolidation(t[k := p], ps + [p])
  {
    ReplaceUnique(t, p, k);
    ReplaceMelhor(t, ps, p, k, t[k := p]);
    ReplaceCobre(t, ps, p, k);
  }

  lemma ReplaceUnique(t: seq<ProdutoRecomendado>, p: ProdutoRecomendado, k: int)
    requires UniqueBy(t, IdOf) && 0 <= k < |t| && t[k].idProduto == p.idProduto
    ensures UniqueBy(t[k := p], IdOf)
  {
    var t' := t[k := p];
    forall i, j | 0 <= i < j < |t'| ensures IdOf(t'[i]) != IdOf(t'[j]) {
      assert IdOf(t'[i]) == IdOf(t[i]) && IdOf(t'[j]) == IdOf(t[j]);
    }
  }

  lemma ReplaceMelhor(t: seq<ProdutoRecomendado>, ps: seq<ProdutoRecomendado>, p: ProdutoRecomendado, k: int,
                      t': seq<ProdutoRecomendado>)
    requires forall i :: 0 <= i < |t| ==> Melhor(t[i], ps)
    requires UniqueBy(t, IdOf)
    requires 0 <= k < |t| && t[k].idProduto == p.idProduto && p.confianca > t[k].confianca
    requires t' == t[k := p]
    ensures forall i :: 0 <= i < |t'| ==> Melhor(t'[i], ps + [p])
  {
    forall j | 0 <= j < |ps| && ps[j].idProduto == p.idProduto
      ensures ps[j].confianca < p.confianca
    {
      MelhorBound(t[k], ps, j);
    }
    NewBest(ps, p);
    forall i | 0 <= i < |t'| ensures Melhor(t'[i], ps + [p]) {
      if i != k {
        assert IdOf(t[i]) != IdOf(t[k]);
        KeepsEntry(t[i], ps, p);
      }
    }
  }

  lemma ReplaceCobre(t: seq<ProdutoRecomendado>, ps: seq<ProdutoRecomendado>, p: ProdutoRecomendado, k: int)
    requires forall j :: 0 <= j < |ps| ==> IdIndex(t, ps[j].idProduto) >= 0
    requires 0 <= k < |t| && t[k].idProduto == p.idProduto
    ensures forall j :: 0 <= j < |ps + [p]| ==> IdIndex(t[k := p], (ps + [p])[j].idProduto) >= 0
  {
    var t' := t[k := p];
    var ps' := ps + [p];
    forall j | 0 <= j < |ps'| ensures IdIndex(t', ps'[j].idProduto) >= 0 {
      if j < |ps| {
        var i := IdIndex(t, ps[j].idProduto);
        assert t'[i].idProduto == ps'[j].idProduto;
      } else {
        assert t'[k].idProduto == ps'[j].idProduto;
      }
    }
  }

  lemma KeepCase(t: seq<ProdutoRecomendado>, ps: seq<ProdutoRecomendado>, p: ProdutoRecomendado, k: int)
    requires IsConsolidation(t, ps)
    requires 0 <= k < |t| && t[k].idProduto == p.idProduto && p.confianca <= t[k].confianca
    ensures IsConsolidation(t, ps + [p])
  {
    var ps' := ps + [p];
    forall i | 0 <= i < |t| ensures Melhor(t[i], ps') {
      KeepsEntry(t[i], ps, p);
    }
    forall j | 0 <= j < |ps'| ensures IdIndex(t, ps'[j].idProduto) >= 0 {
      if j < |ps| {
        assert ps'[j] == ps[j];
      }
    }
  }

  lemma UpsertConsolidation(t: seq<ProdutoRecomendado>, ps: seq<ProdutoRecomendado>, p: ProdutoRecomendado)
    requires IsConsolidation(t, ps)
    ensures IsConsolidation(Upsert(t, p), ps + [p])
  {
    var k := IdIndex(t, p.idProduto);
    if k < 0 {
      AppendCase(t, ps, p);
    } else if p.confianca > t[k].confianca {
      ReplaceCase(t, ps, p, k);
    } else {
      KeepCase(t, ps, p, k);
    }
  }

  /** The consolidation dict, built left to right over `ps`. */
  function Consolidar(ps: seq<ProdutoRecomendado>): (t: seq<ProdutoRecomendado>)
    ensures IsConsolidation(t, ps)
    decreases |ps|
  {
    if |ps| == 0 then []
    else
      var init := ps[..|ps| - 1];
      assert ps == init + [ps[|ps| - 1]];
      UpsertConsolidation(Consolidar(init), init, ps[|ps| - 1]);
      Upsert(Consolidar(init), ps[|ps| - 1])
  }

  /** The category filter: skipped when `categoria` is falsy, otherwise compared lower-cased. */
  predicate CategoriaOk(p: ProdutoRecomendado, categoria: Option<string>) {
    !Truthy(categoria) || Lower(p.categoria) == Lower(categoria.value)
  }

  predicate Passa(p: ProdutoRecomendado, categoria: Option<string>, minConfianca: real) {
    CategoriaOk(p, categoria) && p.confianca >= minConfianca
  }

  /** The two filters, then the sort by confidence, over a list with unique ids. */
  function FiltrarOrdenar(t: seq<ProdutoRecomendado>, categoria: Option<string>, minConfianca: real): (r: seq<ProdutoRecomendado>)
    requires UniqueBy(t, IdOf)
    ensures UniqueBy(r, IdOf) && SortedDesc(r, ConfiancaOf)
    ensures forall e :: e in r <==> e in t && Passa(e, categoria, minConfianca)
  {
    var porCategoria := Filter(t, (p: ProdutoRecomendado) => CategoriaOk(p, categoria));
    var porConfianca := Filter(porCategoria, (p: ProdutoRecomendado) => p.confianca >= minConfianca);
    FilterUniqueBy(t, (p: ProdutoRecomendado) => CategoriaOk(p, categoria), IdOf);
    FilterUniqueBy(porCategoria, (p: ProdutoRecomendado) => p.confianca >= minConfianca, IdOf);
    UniqueByDistinct(porConfianca, IdOf);
    SortDescDistinct(porConfianca, ConfiancaOf);
    var sorted := SortDesc(porConfianca, ConfiancaOf);
    UniqueByFromSubset(porConfianca, sorted, IdOf);
    sorted
  }

  lemma InConsolidation(t: seq<ProdutoRecomendado>, ps: seq<ProdutoRecomendado>, e: ProdutoRecomendado)
    requires IsConsolidation(t, ps) && e in t
    ensures Melhor(e, ps)
  {
    var k :| 0 <= k < |t| && t[k] == e;
  }

  /**
   * `listar_produtos_recomendados_cliente`: the consolidated products that
   * pass the category and confidence filters, highest confidence first, at
   * most `limite` of them.
   */
  function ListarProdutosCliente(hist: seq<Registro>, id: string, categoria: Option<string>,
                                 minConfianca: real, limite: int): (r: Result<seq<ProdutoRecomendado>>)
    requires 0.0 <= minConfianca <= 100.0 && 1 <= limite <= 100
    ensures r.Err? <==> |DoCliente(hist, id)| == 0
    ensures r.Err? ==> r.code == 404
    ensures r.Ok? ==>
              var ps := ProdutosDe(DoCliente(hist, id));
              && |r.value| <= limite
              && UniqueBy(r.value, IdOf)
              && SortedDesc(r.value, ConfiancaOf)
              && (forall k :: 0 <= k < |r.value| ==>
                    Melhor(r.value[k], ps) && Passa(r.value[k], categoria, minConfianca))
              && (|r.value| < limite ==>
                    (forall e :: e in Consolidar(ps) && Passa(e, categoria, minConfianca) ==> e in r.value))
              && (forall e, k :: (e in Consolidar(ps) && Passa(e, categoria, minConfianca) && e !in r.value
                                 && 0 <= k < |r.value|) ==> e.confianca <= r.value[k].confianca)
  {
    var mine := DoCliente(hist, id);
    if |mine| == 0 then Err(404)
    else
      var ps := ProdutosDe(mine);
      var t := Consolidar(ps);
      var sorted := FiltrarOrdenar(t, categoria, minConfianca);
      var r := Take(sorted, limite);
      PaginaDaConsolidacao(ps, t, sorted, categoria, minConfianca, limite);
      Ok(r)
  }

  /** The first `limite` filtered entries of a consolidation: the facts the listing promises. */
  lemma PaginaDaConsolidacao(ps: seq<ProdutoRecomendado>, t: seq<ProdutoRecomendado>, sorted: seq<ProdutoRecomendado>,
                             categoria: Option<string>, minConfianca: real, limite: nat)
    requires IsConsolidation(t, ps)
    requires UniqueBy(sorted, IdOf) && SortedDesc(sorted, ConfiancaOf)
    requires forall e :: e in sorted <==> e in t && Passa(e, categoria, minConfianca)
    ensures var r := Take(sorted, limite);
            && |r| <= limite
            && UniqueBy(r, IdOf)
            && SortedDesc(r, ConfiancaOf)
            && (forall k :: 0 <= k < |r| ==> Melhor(r[k], ps) && Passa(r[k], categoria, minConfianca))
            && (|r| < limite ==> (forall e :: e in t && Passa(e, categoria, minConfianca) ==> e in r))
            && (forall e, k :: e in t && Passa(e, categoria, minConfianca) && e !in r && 0 <= k < |r|
                              ==> e.confianca <= r[k].confianca)
  {
    var r := Take(sorted, limite);
    forall k | 0 <= k < |r| ensures Melhor(r[k], ps) && Passa(r[k], categoria, minConfianca) {
      assert r[k] == sorted[k];
      assert r[k] in sorted;
      InConsolidation(t, ps, r[k]);
    }
    if |r| < limite {
      assert r == sorted;
    }
    forall e, k | e in t && Passa(e, categoria, minConfianca) && e !in r && 0 <= k < |r|
      ensures e.confianca <= r[k].confianca
    {
      assert e in sorted;
      var m :| 0 <= m < |sorted| && sorted[m] == e;
      InPrefix(sorted, limite, m);
      assert r[k] == sorted[k];
      assert ConfiancaOf(sorted[k]) >= ConfiancaOf(sorted[m]);
    }
  }

  // ------------------------------------------------------ feedback

  datatype FeedbackRequest = FeedbackRequest(
    idRecomendacao: string,
    idProduto: string,
    aceito: bool,
    comprado: bool,
    motivoRecusa: Option<string>,
    observacoes: Option<string>)

  /** The learning contribution reported back: CRÍTICO, ALTO, MÉDIO or BAIXO. */
  datatype Contribuicao = Critico | Alto | Medio | Baixo

  /** Priority: a purchase beats an acceptance, which beats a stated refusal reason. */
  function Classificar(f: FeedbackRequest): (c: Contribuicao)
    ensures c == Critico <==> f.comprado
    ensures c == Alto <==> !f.comprado && f.aceito
    ensures c == Medio <==> !f.comprado && !f.aceito && Truthy(f.motivoRecusa)
    ensures c == Baixo <==> !f.comprado && !f.aceito && !Truthy(f.motivoRecusa)
  {
    if f.comprado then Critico
    else if f.aceito then Alto
    else if Truthy(f.motivoRecusa) then Medio
    else Baixo
  }

  predicate Existe(hist: seq<Registro>, idRec: string) {
    exists i :: 0 <= i < |hist| && hist[i].idRecomendacao == idRec
  }

  /**
   * `registrar_feedback`: 404 for an unknown recommendation; otherwise
   * exactly one entry, stamped with the generated id and the clock, is
   * appended.
   */
  function RegistrarFeedback(hist: seq<Registro>, fbs: seq<Feedback>, f: FeedbackRequest,
                             idFeedback: string, agora: int): (r: Result<(seq<Feedback>, Contribuicao)>)
    ensures r.Err? <==> !Existe(hist, f.idRecomendacao)
    ensures r.Err? ==> r.code == 404
    ensures r.Ok? ==> |r.value.0| == |fbs| + 1 && r.value.0[..|fbs|] == fbs
    ensures r.Ok? ==> var e := r.value.0[|fbs|];
              && e.idFeedback == idFeedback && e.data == agora
              && e.idRecomendacao == f.idRecomendacao && e.idProduto == f.idProduto
              && e.aceito == f.aceito && e.comprado == f.comprado
              && e.motivoRecusa == f.motivoRecusa && e.observacoes == f.observacoes
    ensures r.Ok? ==> r.value.1 == Classificar(f)
  {
    if !Existe(hist, f.idRecomendacao) then Err(404)
    else
      var e := Feedback(idFeedback, agora, f.idRecomendacao, f.idProduto, f.aceito, f.comprado,
                        f.motivoRecusa, f.observacoes);
      Ok((fbs + [e], Classificar(f)))
  }

  // ----------------------------------------------- history listing

  /** `listar_historico`: newest first, then `[offset:offset+limite]`. */
  function ListarHistorico(hist: seq<Registro>, limite: int, offset: int): (r: seq<Registro>)
    requires 1 <= limite <= 100 && offset >= 0
    ensures |r| == Min(limite, Max(0, |hist| - offset))
    ensures offset >= |hist| ==> r == []
    ensures forall i, j :: 0 <= i < j < |r| ==> r[i].data >= r[j].data
    ensures forall i :: 0 <= i < |r| ==> r[i] in hist
    ensures forall i :: 0 <= i < |r| ==> offset + i < |hist| && r[i] == SortDesc(hist, DataOf)[offset + i]
  {
    var sorted := SortDesc(hist, DataOf);
    var r := Slice(sorted, offset, offset + limite);
    assert forall i :: 0 <= i < |r| ==> r[i] in sorted;
    assert forall i, j :: 0 <= i < j < |r| ==> DataOf(r[i]) >= DataOf(r[j]);
    r
  }

  /** Two consecutive pages of size `l` are the page of size `2l` at the same offset. */
  lemma PaginasConsecutivas(hist: seq<Registro>, l: int, offset: int)
    requires 1 <= l <= 50 && offset >= 0
    ensures ListarHistorico(hist, l, offset) + ListarHistorico(hist, l, offset + l)
            == ListarHistorico(hist, 2 * l, offset)
  {
    var sorted := SortDesc(hist, DataOf);
    assert ListarHistorico(hist, l, offset) == Slice(sorted, offset, offset + l);
    assert ListarHistorico(hist, l, offset + l) == Slice(sorted, offset + l, offset + 2 * l);
    assert ListarHistorico(hist, 2 * l, offset) == Slice(sorted, offset, offset + 2 * l);
    SliceConcat(sorted, offset, offset + l, offset + 2 * l);
  }

  /** `buscar_recomendacao`: the first record with that id, or 404. */
  function BuscarRecomendacao(hist: seq<Registro>, idRec: string): (r: Result<Registro>)
    ensures r.Err? <==> !Existe(hist, idRec)
    ensures r.Err? ==> r.code == 404
    ensures r.Ok? ==> r.value.idRecomendacao == idRec
    ensures r.Ok? ==> exists i :: (0 <= i < |hist| && hist[i] == r.value
                                   && forall j :: 0 <= j < i ==> hist[j].idRecomendacao != idRec)
    decreases |hist|
  {
    if |hist| == 0 then Err(404)
    else if hist[0].idRecomendacao == idRec then Ok(hist[0])
    else
      var r := BuscarRecomendacao(hist[1..], idRec);
      if r.Ok? then
        assert exists i :: (0 <= i < |hist| && hist[i] == r.value
                            && forall j :: 0 <= j < i ==> hist[j].idRecomendacao != idRec) by {
          var i :| 0 <= i < |hist[1..]| && hist[1..][i] == r.value
                   && forall j :: 0 <= j < i ==> hist[1..][j].idRecomendacao != idRec;
          assert hist[i + 1] == r.value;
          assert forall j :: 1 <= j < i + 1 ==> hist[j] == hist[1..][j - 1];
        }
        r
      else
        assert !Existe(hist, idRec) by {
          assert forall i :: 1 <= i < |hist| ==> hist[i] == hist[1..][i - 1];
        }
        r
  }

  // ---------------------------------------------------- statistics

  datatype Estatisticas = Estatisticas(
    total: nat,
    taxaAceitacao: real,
    taxaConversao: real,
    categorias: seq<(string, nat)>,
    horarios: seq<string>)

  /** The peak hours the route reports: a fixed list, not computed from the history. */
  const HorariosPico: seq<string> := ["09:00-12:00", "14:00-17:00", "19:00-21:00"]

  /**
   * `obter_estatisticas`: zeros and empty lists for an empty history (even
   * when feedback exists); otherwise the acceptance and purchase rates over
   * every feedback entry, the five most recommended categories and the fixed
   * peak hours.
   */
  function ObterEstatisticas(hist: seq<Registro>, fbs: seq<Feedback>): (e: Estatisticas)
    ensures |hist| == 0 ==> e == Estatisticas(0, 0.0, 0.0, [], [])
    ensures |hist| > 0 ==>
              && e.total == |hist|
              && e.taxaAceitacao == Taxa(Count(fbs, AceitoFb), |fbs|)
              && e.taxaConversao == Taxa(Count(fbs, CompradoFb), |fbs|)
              && e.categorias == Top(CategoriasDe(ProdutosDe(hist)), 5)
              && e.horarios == HorariosPico
  {
    if |hist| == 0 then Estatisticas(0, 0.0, 0.0, [], [])
    else
      Estatisticas(|hist|, Taxa(Count(fbs, AceitoFb), |fbs|), Taxa(Count(fbs, CompradoFb), |fbs|),
                   Top(CategoriasDe(ProdutosDe(hist)), 5), HorariosPico)
  }

  /**
   * The global acceptance rate is 0 exactly when no feedback entry was
   * accepted, and 100 exactly when there is feedback and all of it was
   * accepted; the categories are the most frequent ones, with their true counts.
   */
  lemma EstatisticasSignificado(hist: seq<Registro>, fbs: seq<Feedback>)
    requires |hist| > 0
    ensures var e := ObterEstatisticas(hist, fbs);
            && (e.taxaAceitacao == 0.0 <==> forall i :: 0 <= i < |fbs| ==> !fbs[i].aceito)
            && (e.taxaAceitacao == 100.0 <==> |fbs| > 0 && forall i :: 0 <= i < |fbs| ==> fbs[i].aceito)
            && |e.categorias| == Min(5, |Tally.Tally(CategoriasDe(ProdutosDe(hist)))|)
            && (forall k :: 0 <= k < |e.categorias| ==>
                  e.categorias[k].1 == multiset(CategoriasDe(ProdutosDe(hist)))[e.categorias[k].0])
  {
    var aceitos := Count(fbs, AceitoFb);
    TaxaExtremos(aceitos, |fbs|);
    assert aceitos == 0 <==> forall i :: 0 <= i < |fbs| ==> !AceitoFb(fbs[i]);
    assert aceitos == |fbs| <==> forall i :: 0 <= i < |fbs| ==> AceitoFb(fbs[i]);
  }

  /** `limpar_historico`: both lists become empty. */
  function LimparHistorico(hist: seq<Registro>, fbs: seq<Feedback>): (r: (seq<Registro>, seq<Feedback>))
    ensures |r.0| == 0 && |r.1| == 0
  {
    ([], [])
  }
}

=== FILE: seller_feedback.dfy ===
/**
 * The seller's feedback page: the seller marks each recommended product as
 * accepted or refused, sends the feedback of a recommendation once every
 * product is marked, and sees statistics over the recommendations sent.
 */
module SellerFeedback {
  import opened Common
  import opened Seqs

  /** `aceito` is `null` until the seller marks the product. */
  datatype Produto = Produto(id: int, nome: string, preco: real, aceito: Option<bool>)

  datatype Recomendacao = Recomendacao(
    id: int,
    cliente: string,
    timestamp: string,
    produtos: seq<Produto>,
    feedbackEnviado: bool)

  /** The page state: the list, the open recommendation, the comment and the overall rating. */
  datatype Tela = Tela(recs: seq<Recomendacao>, atual: Option<int>, comentario: string, avaliacaoGeral: int)

  /** The product as the mark leaves it: `prodId` gets `aceito`, every other product is kept. */
  function Marcar(p: Produto, prodId: int, aceito: bool): (q: Produto)
    ensures q.id == p.id && q.nome == p.nome && q.preco == p.preco
    ensures q.aceito == (if p.id == prodId then Some(aceito) else p.aceito)
  {
    if p.id == prodId then p.(aceito := Some(aceito)) else p
  }

  /**
   * `handleAvaliarProduto`: sets `aceito` on the products with id `prodId`
   * of the recommendations with id `recId`. Nothing checks whether the
   * feedback was already sent.
   */
  function AvaliarProduto(recs: seq<Recomendacao>, recId: int, prodId: int, aceito: bool): (r: seq<Recomendacao>)
    ensures |r| == |recs|
    ensures forall i :: 0 <= i < |r| ==>
              && r[i].id == recs[i].id && r[i].cliente == recs[i].cliente
              && r[i].timestamp == recs[i].timestamp
              && r[i].feedbackEnviado == recs[i].feedbackEnviado
              && |r[i].produtos| == |recs[i].produtos|
    ensures forall i :: 0 <= i < |r| && recs[i].id != recId ==> r[i] == recs[i]
    ensures forall i, j :: 0 <= i < |r| && recs[i].id == recId && 0 <= j < |r[i].produtos| ==>
              r[i].produtos[j] == Marcar(recs[i].produtos[j], prodId, aceito)
  {
    seq(|recs|, i requires 0 <= i < |recs| =>
      if recs[i].id == recId then
        recs[i].(produtos := seq(|recs[i].produtos|, j requires 0 <= j < |recs[i].produtos| =>
                                   Marcar(recs[i].produtos[j], prodId, aceito)))
      else recs[i])
  }

  /** Every product of the recommendation has been marked. */
  predicate TodosAvaliados(rec: Recomendacao) {
    forall j :: 0 <= j < |rec.produtos| ==> rec.produtos[j].aceito.Some?
  }

  /** `recs.find(r => r.id === id)`: the index of the first recommendation with that id. */
  function Encontrar(recs: seq<Recomendacao>, id: int): (k: int)
    ensures -1 <= k < |recs|
    ensures k >= 0 ==> recs[k].id == id && forall j :: 0 <= j < k ==> recs[j].id != id
    ensures k < 0 ==> forall j :: 0 <= j < |recs| ==> recs[j].id != id
  {
    FirstWhere(recs, (r: Recomendacao) => r.id == id)
  }

  /**
   * `handleEnviarFeedback`: nothing happens for an unknown id or while the
   * first recommendation with that id has an unmarked product; otherwise
   * every recommendation with that id is marked sent and the form is cleared.
   */
  function EnviarFeedback(t: Tela, recId: int): (r: Tela)
    ensures var k := Encontrar(t.recs, recId);
            k < 0 || !TodosAvaliados(t.recs[k]) ==> r == t
    ensures var k := Encontrar(t.recs, recId);
            k >= 0 && TodosAvaliados(t.recs[k]) ==>
              && r.atual == None && r.comentario == "" && r.avaliacaoGeral == 0
              && |r.recs| == |t.recs|
              && r.recs[k].feedbackEnviado
              && (forall i :: 0 <= i < |r.recs| && t.recs[i].id != recId ==> r.recs[i] == t.recs[i])
              && (forall i :: 0 <= i < |r.recs| && t.recs[i].id == recId ==>
                    r.recs[i] == t.recs[i].(feedbackEnviado := true))
  {
    var k := Encontrar(t.recs, recId);
    if k < 0 || !TodosAvaliados(t.recs[k]) then t
    else
      var recs := seq(|t.recs|, i requires 0 <= i < |t.recs| =>
                    if t.recs[i].id == recId then t.recs[i].(feedbackEnviado := true) else t.recs[i]);
      Tela(recs, None, "", 0)
  }

  /** No handler of the page turns `feedbackEnviado` back to false. */
  lemma EnvioNuncaDesfeito(t: Tela, recId: int, prodId: int, aceito: bool, i: int)
    requires 0 <= i < |t.recs| && t.recs[i].feedbackEnviado
    ensures AvaliarProduto(t.recs, recId, prodId, aceito)[i].feedbackEnviado
    ensures EnviarFeedback(t, recId).recs[i].feedbackEnviado
  {
  }

  /** Marking a product of a sent recommendation still changes it: the page has no guard. */
  lemma AvaliarSemGuarda()
    ensures var p := Produto(101, "Notebook", 3200.0, Some(true));
            var rec := Recomendacao(1, "Cliente", "", [p], true);
            AvaliarProduto([rec], 1, 101, false)[0].produtos[0].aceito == Some(false)
  {
  }

  // ---------------------------------------------------- statistics

  function Enviadas(recs: seq<Recomendacao>): seq<Recomendacao> {
    Filter(recs, (r: Recomendacao) => r.feedbackEnviado)
  }

  function AceitoOf(p: Produto): bool { p.aceito == Some(true) }

  /** Products across the list. */
  function NumProdutos(rs: seq<Recomendacao>): nat
    decreases |rs|
  {
    if |rs| == 0 then 0 else |rs[0].produtos| + NumProdutos(rs[1..])
  }

  /** Products marked `aceito === true` across the list. */
  function NumAceitos(rs: seq<Recomendacao>): nat
    decreases |rs|
  {
    if |rs| == 0 then 0 else Count(rs[0].produtos, AceitoOf) + NumAceitos(rs[1..])
  }

  lemma {:induction false} AceitosAteProdutos(rs: seq<Recomendacao>)
    ensures NumAceitos(rs) <= NumProdutos(rs)
    decreases |rs|
  {
    if |rs| > 0 {
      AceitosAteProdutos(rs[1..]);
    }
  }

  datatype Estatisticas = Estatisticas(totalRecomendacoes: nat, totalProdutos: nat, produtosAceitos: nat, taxaAceitacao: real)

  /** `calcularEstatisticas`: counts over the sent recommendations only. */
  function CalcularEstatisticas(recs: seq<Recomendacao>): (e: Estatisticas)
    ensures e.totalRecomendacoes <= |recs|
    ensures e.totalRecomendacoes == |Enviadas(recs)|
    ensures e.totalProdutos == NumProdutos(Enviadas(recs))
    ensures e.produtosAceitos == NumAceitos(Enviadas(recs))
    ensures e.produtosAceitos <= e.totalProdutos
    ensures e.taxaAceitacao == Taxa(e.produtosAceitos, e.totalProdutos)
    ensures 0.0 <= e.taxaAceitacao <= 100.0
    ensures e.totalProdutos == 0 ==> e.taxaAceitacao == 0.0
    ensures (forall i :: 0 <= i < |recs| ==> !recs[i].feedbackEnviado) ==> e == Estatisticas(0, 0, 0, 0.0)
  {
    var env := Enviadas(recs);
    AceitosAteProdutos(env);
    NenhumaEnviada(recs);
    Estatisticas(|env|, NumProdutos(env), NumAceitos(env), Taxa(NumAceitos(env), NumProdutos(env)))
  }

  /** Every product counted is accepted exactly when the accepted count reaches the product count. */
  lemma {:induction false} TodosAceitos(rs: seq<Recomendacao>)
    ensures NumAceitos(rs) == NumProdutos(rs) <==>
            forall i, j :: 0 <= i < |rs| && 0 <= j < |rs[i].produtos| ==> rs[i].produtos[j].aceito == Some(true)
    ensures NumAceitos(rs) == 0 <==>
            forall i, j :: 0 <= i < |rs| && 0 <= j < |rs[i].produtos| ==> rs[i].produtos[j].aceito != Some(true)
    decreases |rs|
  {
    if |rs| > 0 {
      TodosAceitos(rs[1..]);
      AceitosAteProdutos(rs[1..]);
      assert forall i :: 1 <= i < |rs| ==> rs[i] == rs[1..][i - 1];
    }
  }

  /** The rate is 0 exactly when no sent product is accepted, and 100 exactly when there are some and all are. */
  lemma TaxaDasEnviadas(recs: seq<Recomendacao>)
    ensures var e := CalcularEstatisticas(recs);
            var env := Enviadas(recs);
            (e.taxaAceitacao == 0.0 <==>
               forall i, j :: 0 <= i < |env| && 0 <= j < |env[i].produtos| ==> env[i].produtos[j].aceito != Some(true))
            && (e.taxaAceitacao == 100.0 <==>
               e.totalProdutos > 0 &&
               forall i, j :: 0 <= i < |env| && 0 <= j < |env[i].produtos| ==> env[i].produtos[j].aceito == Some(true))
  {
    var e := CalcularEstatisticas(recs);
    TaxaExtremos(e.produtosAceitos, e.totalProdutos);
    TodosAceitos(Enviadas(recs));
  }

  lemma NenhumaEnviada(recs: seq<Recomendacao>)
    ensures (forall i :: 0 <= i < |recs| ==> !recs[i].feedbackEnviado) ==> Enviadas(recs) == []
  {
    if forall i :: 0 <= i < |recs| ==> !recs[i].feedbackEnviado {
      FilterNone(recs, (r: Recomendacao) => r.feedbackEnviado);
    }
  }

  /** Marking products of recommendations not yet sent leaves the statistics unchanged. */
  lemma {:induction false} AvaliarPendenteMantemEstatisticas(recs: seq<Recomendacao>, recId: int, prodId: int, aceito: bool)
    requires forall i :: 0 <= i < |recs| && recs[i].id == recId ==> !recs[i].feedbackEnviado
    ensures Enviadas(AvaliarProduto(recs, recId, prodId, aceito)) == Enviadas(recs)
    ensures CalcularEstatisticas(AvaliarProduto(recs, recId, prodId, aceito)) == CalcularEstatisticas(recs)
    decreases |recs|
  {
    if |recs| > 0 {
      var r := AvaliarProduto(recs, recId, prodId, aceito);
      assert AvaliarProduto(recs[1..], recId, prodId, aceito) == r[1..];
      AvaliarPendenteMantemEstatisticas(recs[1..], recId, prodId, aceito);
      assert r[0].feedbackEnviado ==> r[0] == recs[0];
    }
  }
}

=== FILE: seqs.dfy ===
/**
 * Sequence operations that the pages and routes use over their in-memory
 * lists: `filter`, stable sorting by a numeric key, and Python slicing.
 */
module Seqs {
  import opened Common

  /** `s.findIndex(p)`: the position of the first element satisfying `p`, or -1. */
  function FirstWhere<T>(s: seq<T>, p: T -> bool): (k: int)
    ensures -1 <= k < |s|
    ensures k >= 0 ==> p(s[k]) && forall j :: 0 <= j < k ==> !p(s[j])
    ensures k < 0 <==> forall j :: 0 <= j < |s| ==> !p(s[j])
    decreases |s|
  {
    if |s| == 0 then -1
    else if p(s[0]) then 0
    else
      var k := FirstWhere(s[1..], p);
      if k < 0 then -1 else k + 1
  }

  /** `s.filter(p)` / `[x for x in s if p(x)]`. */
  function Filter<T(==,!new)>(s: seq<T>, p: T -> bool): (r: seq<T>)
    ensures |r| <= |s|
    ensures forall x :: x in r <==> x in s && p(x)
    ensures forall i :: 0 <= i < |r| ==> p(r[i])
    decreases |s|
  {
    if |s| == 0 then []
    else if p(s[0]) then [s[0]] + Filter(s[1..], p)
    else Filter(s[1..], p)
  }

  /** `r` is `s` with some elements deleted, order kept. */
  predicate IsSubseq<T(==,!new)>(r: seq<T>, s: seq<T>)
    decreases |s|
  {
    if |r| == 0 then true
    else if |s| == 0 then false
    else if r[0] == s[0] then IsSubseq(r[1..], s[1..])
    else IsSubseq(r, s[1..])
  }

  /** A filtered list is an order-preserving subsequence of its source. */
  lemma {:induction false} FilterIsSubseq<T(!new)>(s: seq<T>, p: T -> bool)
    ensures IsSubseq(Filter(s, p), s)
    decreases |s|
  {
    if |s| > 0 {
      FilterIsSubseq(s[1..], p);
    }
  }

  /** A filter that every element passes returns the whole list. */
  lemma {:induction false} FilterAll<T(!new)>(s: seq<T>, p: T -> bool)
    requires forall i :: 0 <= i < |s| ==> p(s[i])
    ensures Filter(s, p) == s
    decreases |s|
  {
    if |s| > 0 {
      FilterAll(s[1..], p);
    }
  }

  /** A predicate no element satisfies filters everything out. */
  lemma {:induction false} FilterNone<T(!new)>(s: seq<T>, p: T -> bool)
    requires forall i :: 0 <= i < |s| ==> !p(s[i])
    ensures Filter(s, p) == []
    decreases |s|
  {
    if |s| > 0 {
      FilterNone(s[1..], p);
    }
  }

  /** `s.filter(p).length`. */
  function Count<T(==,!new)>(s: seq<T>, p: T -> bool): (n: nat)
    ensures n <= |s|
    ensures n == 0 <==> forall i :: 0 <= i < |s| ==> !p(s[i])
    ensures n == |s| <==> forall i :: 0 <= i < |s| ==> p(s[i])
  {
    FilterLength(s, p);
    |Filter(s, p)|
  }

  /** The filter keeps nothing exactly when no element passes, and everything exactly when all do. */
  lemma {:induction false} FilterLength<T(!new)>(s: seq<T>, p: T -> bool)
    ensures |Filter(s, p)| == 0 <==> forall i :: 0 <= i < |s| ==> !p(s[i])
    ensures |Filter(s, p)| == |s| <==> forall i :: 0 <= i < |s| ==> p(s[i])
    decreases |s|
  {
    if |s| > 0 {
      FilterLength(s[1..], p);
      assert forall i :: 1 <= i < |s| ==> s[i] == s[1..][i - 1];
      assert s[0] in s;
    }
  }

  /** No element occurs twice. */
  predicate Distinct<T(==)>(s: seq<T>) {
    forall i, j :: 0 <= i < j < |s| ==> s[i] != s[j]
  }

  /** Non-increasing by `key`: what `sort(key, reverse=True)` and `sort((a, b) => b.k - a.k)` produce. */
  ghost predicate SortedDesc<T>(s: seq<T>, key: T -> real) {
    forall i, j :: 0 <= i < j < |s| ==> key(s[i]) >= key(s[j])
  }

  /** In a non-increasing list, an element with a strictly larger key comes first. */
  lemma SortedDescBefore<T>(s: seq<T>, key: T -> real, a: int, b: int)
    requires SortedDesc(s, key) && 0 <= a < |s| && 0 <= b < |s|
    requires key(s[b]) > key(s[a])
    ensures b < a
  {
  }

  /** Sorting puts an element with a strictly larger key ahead of one with a smaller key. */
  lemma SortDescPutsAhead<T(!new)>(s: seq<T>, key: T -> real, x: T, y: T) returns (a: int, b: int)
    requires x in s && y in s && key(y) > key(x)
    ensures var r := SortDesc(s, key);
            0 <= b < a < |r| && r[a] == x && r[b] == y
  {
    var r := SortDesc(s, key);
    assert x in r && y in r;
    a :| 0 <= a < |r| && r[a] == x;
    b :| 0 <= b < |r| && r[b] == y;
    SortedDescBefore(r, key, a, b);
  }

  /**
   * Inserts `x` in front of the first element whose key does not exceed its own,
   * so that `x` precedes the equal keys that follow it in the input: the
   * insertion step of a stable sort.
   */
  function InsertDesc<T(==,!new)>(x: T, s: seq<T>, key: T -> real): (r: seq<T>)
    ensures multiset(r) == multiset(s) + multiset{x}
    ensures forall y :: y in r <==> y == x || y in s
    ensures |r| == |s| + 1
    decreases |s|
  {
    if |s| == 0 then [x]
    else if key(s[0]) > key(x) then
      assert s == [s[0]] + s[1..];
      [s[0]] + InsertDesc(x, s[1..], key)
    else
      [x] + s
  }

  /** Inserting into a non-increasing list keeps it non-increasing. */
  lemma {:induction false} InsertDescSorted<T(!new)>(x: T, s: seq<T>, key: T -> real)
    requires SortedDesc(s, key)
    ensures SortedDesc(InsertDesc(x, s, key), key)
    decreases |s|
  {
    if |s| > 0 && key(s[0]) > key(x) {
      assert SortedDesc(s[1..], key);
      InsertDescSorted(x, s[1..], key);
      var rest := InsertDesc(x, s[1..], key);
      forall k | 0 <= k < |rest|
        ensures key(s[0]) >= key(rest[k])
      {
        assert rest[k] in rest;
        if rest[k] != x {
          var m :| 0 <= m < |s[1..]| && s[1..][m] == rest[k];
          assert s[1 + m] == rest[k];
        }
      }
      assert InsertDesc(x, s, key) == [s[0]] + rest;
    }
  }

  /** Stable sort, non-increasing by `key`: Python `sort(key=k, reverse=True)` and the JavaScript comparator `b.k - a.k`. */
  function SortDesc<T(==,!new)>(s: seq<T>, key: T -> real): (r: seq<T>)
    ensures SortedDesc(r, key)
    ensures multiset(r) == multiset(s)
    ensures forall y :: y in r <==> y in s
    ensures |r| == |s|
    decreases |s|
  {
    if |s| == 0 then []
    else
      assert s == [s[0]] + s[1..];
      var t := SortDesc(s[1..], key);
      InsertDescSorted(s[0], t, key);
      InsertDesc(s[0], t, key)
  }

  /** The elements whose key is `k`. */
  function MesmaChave<T>(key: T -> real, k: real): T -> bool {
    (y: T) => key(y) == k
  }

  /** Filtering a non-empty list: its head, if it passes, then the filtered rest. */
  lemma FilterHead<T(!new)>(s: seq<T>, p: T -> bool)
    requires |s| > 0
    ensures Filter(s, p) == (if p(s[0]) then [s[0]] else []) + Filter(s[1..], p)
  {
  }

  /** Filtering a list that starts with `x`. */
  lemma FilterCons<T(!new)>(x: T, s: seq<T>, p: T -> bool)
    ensures Filter([x] + s, p) == (if p(x) then [x] else []) + Filter(s, p)
  {
    assert ([x] + s)[1..] == s;
  }

  /** Inserting `x` puts it ahead of every element with its own key. */
  lemma {:induction false} FilterInsertDesc<T(!new)>(x: T, s: seq<T>, key: T -> real, k: real)
    ensures Filter(InsertDesc(x, s, key), MesmaChave(key, k))
            == (if key(x) == k then [x] else []) + Filter(s, MesmaChave(key, k))
    decreases |s|
  {
    if |s| == 0 {
      FilterCons(x, [], MesmaChave(key, k));
    } else if key(s[0]) > key(x) {
      FilterInsertDesc(x, s[1..], key, k);
      FilterInsertDescPasso(x, s, key, k);
    } else {
      FilterCons(x, s, MesmaChave(key, k));
    }
  }

  /** Two lists one of which is empty can change places in front of a third. */
  lemma TrocaVazia<T>(a: seq<T>, b: seq<T>, c: seq<T>)
    requires a == [] || b == []
    ensures a + (b + c) == b + (a + c)
  {
    if a == [] {
      assert a + (b + c) == b + c;
    } else {
      assert b + (a + c) == a + c;
    }
  }

  /** The step of FilterInsertDesc where `x` moves past a head with a larger key. */
  lemma FilterInsertDescPasso<T(!new)>(x: T, s: seq<T>, key: T -> real, k: real)
    requires |s| > 0 && key(s[0]) > key(x)
    requires Filter(InsertDesc(x, s[1..], key), MesmaChave(key, k))
             == (if key(x) == k then [x] else []) + Filter(s[1..], MesmaChave(key, k))
    ensures Filter(InsertDesc(x, s, key), MesmaChave(key, k))
            == (if key(x) == k then [x] else []) + Filter(s, MesmaChave(key, k))
  {
    var p := MesmaChave(key, k);
    var t := InsertDesc(x, s, key);
    var ex := if key(x) == k then [x] else [];
    var e0 := if p(s[0]) then [s[0]] else [];
    assert t[0] == s[0] && t[1..] == InsertDesc(x, s[1..], key);
    calc {
      Filter(t, p);
      { FilterHead(t, p); }
      e0 + Filter(t[1..], p);
      e0 + (ex + Filter(s[1..], p));
      { assert key(x) == k ==> !p(s[0]);
        TrocaVazia(e0, ex, Filter(s[1..], p)); }
      ex + (e0 + Filter(s[1..], p));
      { FilterHead(s, p); }
      ex + Filter(s, p);
    }
  }

  /**
   * SortDesc is stable: for every key value, the elements with that key
   * appear in the sorted list in the same order as in the input.
   */
  lemma {:induction false} SortDescEstavel<T(!new)>(s: seq<T>, key: T -> real, k: real)
    ensures Filter(SortDesc(s, key), MesmaChave(key, k)) == Filter(s, MesmaChave(key, k))
    decreases |s|
  {
    if |s| > 0 {
      SortDescEstavel(s[1..], key, k);
      FilterInsertDesc(s[0], SortDesc(s[1..], key), key, k);
    }
  }

  /** Inserting an element that is not yet present keeps a list free of duplicates. */
  lemma {:induction false} InsertDescDistinct<T(!new)>(x: T, s: seq<T>, key: T -> real)
    requires Distinct(s) && x !in s
    ensures Distinct(InsertDesc(x, s, key))
    decreases |s|
  {
    if |s| > 0 && key(s[0]) > key(x) {
      assert s == [s[0]] + s[1..];
      assert Distinct(s[1..]);
      InsertDescDistinct(x, s[1..], key);
      var rest := InsertDesc(x, s[1..], key);
      assert s[0] !in s[1..];
      assert s[0] !in rest;
      assert InsertDesc(x, s, key) == [s[0]] + rest;
    }
  }

  /** Sorting a list free of duplicates gives a list free of duplicates. */
  lemma {:induction false} SortDescDistinct<T(!new)>(s: seq<T>, key: T -> real)
    requires Distinct(s)
    ensures Distinct(SortDesc(s, key))
    decreases |s|
  {
    if |s| > 0 {
      assert s == [s[0]] + s[1..];
      assert Distinct(s[1..]);
      SortDescDistinct(s[1..], key);
      assert s[0] !in s[1..];
      InsertDescDistinct(s[0], SortDesc(s[1..], key), key);
    }
  }

  /** Python `s[:n]` and JavaScript `slice(0, n)` for `n >= 0`. */
  function Take<T>(s: seq<T>, n: nat): (r: seq<T>)
    ensures |r| == if n <= |s| then n else |s|
    ensures forall i :: 0 <= i < |r| ==> r[i] == s[i]
  {
    if n <= |s| then s[..n] else s
  }

  /** An element before position `n` is in the prefix of length `n`. */
  lemma InPrefix<T>(s: seq<T>, n: nat, m: nat)
    requires m < |s|
    ensures m < n ==> s[m] in Take(s, n)
  {
    if m < n {
      assert Take(s, n)[m] == s[m];
    }
  }

  /** Python `s[a:b]` for `0 <= a <= b`: indices past the end are clipped. */
  function Slice<T>(s: seq<T>, a: nat, b: nat): (r: seq<T>)
    requires a <= b
    ensures |r| <= b - a
    ensures |r| == Min(b, |s|) - Min(a, |s|)
    ensures a >= |s| ==> r == []
    ensures forall i :: 0 <= i < |r| ==> a + i < |s| && r[i] == s[a + i]
  {
    var lo := if a <= |s| then a else |s|;
    var hi := if b <= |s| then b else |s|;
    s[lo..hi]
  }

  /** Adjacent slices concatenate: `s[a:b] + s[b:c] == s[a:c]`. */
  lemma SliceConcat<T>(s: seq<T>, a: nat, b: nat, c: nat)
    requires a <= b <= c
    ensures Slice(s, a, b) + Slice(s, b, c) == Slice(s, a, c)
  {
    var x := if a <= |s| then a else |s|;
    var y := if b <= |s| then b else |s|;
    var z := if c <= |s| then c else |s|;
    assert s[x..y] + s[y..z] == s[x..z];
  }

  /** No two elements share a key. */
  predicate UniqueBy<T, K(==)>(s: seq<T>, key: T -> K) {
    forall i, j :: 0 <= i < j < |s| ==> key(s[i]) != key(s[j])
  }

  /** Filtering keeps keys unique. */
  lemma {:induction false} FilterUniqueBy<T(!new), K>(s: seq<T>, p: T -> bool, key: T -> K)
    requires UniqueBy(s, key)
    ensures UniqueBy(Filter(s, p), key)
    decreases |s|
  {
    if |s| > 0 {
      assert UniqueBy(s[1..], key) by {
        forall i, j | 0 <= i < j < |s[1..]| ensures key(s[1..][i]) != key(s[1..][j]) {
          assert s[1..][i] == s[i + 1] && s[1..][j] == s[j + 1];
        }
      }
      FilterUniqueBy(s[1..], p, key);
      var rest := Filter(s[1..], p);
      if p(s[0]) {
        forall k | 0 <= k < |rest| ensures key(s[0]) != key(rest[k]) {
          assert rest[k] in s[1..];
          var m :| 0 <= m < |s[1..]| && s[1..][m] == rest[k];
          assert s[m + 1] == rest[k];
        }
      }
    }
  }

  /** A duplicate-free list whose elements all come from a list with unique keys has unique keys. */
  lemma UniqueByFromSubset<T, K>(s: seq<T>, r: seq<T>, key: T -> K)
    requires UniqueBy(s, key) && Distinct(r)
    requires forall y :: y in r ==> y in s
    ensures UniqueBy(r, key)
  {
    forall i, j | 0 <= i < j < |r| ensures key(r[i]) != key(r[j]) {
      assert r[i] in s && r[j] in s;
      var a :| 0 <= a < |s| && s[a] == r[i];
      var b :| 0 <= b < |s| && s[b] == r[j];
    }
  }

  /** Unique keys make the elements themselves distinct. */
  lemma UniqueByDistinct<T, K>(s: seq<T>, key: T -> K)
    requires UniqueBy(s, key)
    ensures Distinct(s)
  {
  }

  /** The sum of `f` over a list, left to right. */
  function SumBy<T>(s: seq<T>, f: T -> real): real
    decreases |s|
  {
    if |s| == 0 then 0.0 else f(s[0]) + SumBy(s[1..], f)
  }

  /** Sum over a concatenation. */
  lemma {:induction false} SumByAppend<T>(a: seq<T>, b: seq<T>, f: T -> real)
    ensures SumBy(a + b, f) == SumBy(a, f) + SumBy(b, f)
    decreases |a|
  {
    if |a| > 0 {
      assert (a + b)[0] == a[0];
      assert (a + b)[1..] == a[1..] + b;
      SumByAppend(a[1..], b, f);
    } else {
      assert a + b == b;
    }
  }

  /** A sum of terms in [lo, hi] lies in [n * lo, n * hi]. */
  lemma {:induction false} SumByBounds<T>(s: seq<T>, f: T -> real, lo: real, hi: real)
    requires forall i :: 0 <= i < |s| ==> lo <= f(s[i]) <= hi
    ensures |s| as real * lo <= SumBy(s, f) <= |s| as real * hi
    decreases |s|
  {
    if |s| > 0 {
      assert forall i :: 0 <= i < |s[1..]| ==> s[1..][i] == s[i + 1];
      SumByBounds(s[1..], f, lo, hi);
      assert |s| as real * lo == |s[1..]| as real * lo + lo;
      assert |s| as real * hi == |s[1..]| as real * hi + hi;
    }
  }

  /** The arithmetic mean of `f` over a non-empty list: `sum(...) / len(...)`. */
  function MeanBy<T>(s: seq<T>, f: T -> real): real
    requires |s| > 0
  {
    SumBy(s, f) / |s| as real
  }

  /** The mean of terms in [lo, hi] lies in [lo, hi]. */
  lemma MeanByBounds<T>(s: seq<T>, f: T -> real, lo: real, hi: real)
    requires |s| > 0
    requires forall i :: 0 <= i < |s| ==> lo <= f(s[i]) <= hi
    ensures lo <= MeanBy(s, f) <= hi
  {
    SumByBounds(s, f, lo, hi);
    MeanBetween(SumBy(s, f), |s| as real, lo, hi);
  }

  lemma MeanBetween(sum: real, n: real, lo: real, hi: real)
    requires n > 0.0 && n * lo <= sum <= n * hi
    ensures lo <= sum / n <= hi
  {
    var m := sum / n;
    assert m * n == sum;
    assert (m - lo) * n >= 0.0;
    assert (hi - m) * n >= 0.0;
  }
}

=== FILE: source_form.dfy ===
/**
 * The administrator's data-source page: the connection form with its
 * per-type default port, create and edit through one submit handler, the
 * simulated connection test and deletion.
 */
module SourceForm {
  import opened Common
  import opened Seqs

  datatype Tipo = Mysql | Postgresql | Sqlserver | Mongodb | Api | Csv | Excel

  datatype StatusDs = Active | Pending | Inactive | ErrorStatus

  /** `port` is `None` where the form holds `''`. */
  datatype Formulario = Formulario(
    name: string,
    tipo: Tipo,
    host: string,
    port: Option<int>,
    database: string,
    username: string,
    password: string,
    additionalParams: string)

  datatype DataSource = DataSource(
    id: int,
    name: string,
    tipo: Tipo,
    host: string,
    port: Option<int>,
    database: string,
    username: string,
    password: string,
    additionalParams: string,
    status: StatusDs,
    lastSync: string)

  datatype Pagina = Pagina(
    sources: seq<DataSource>,
    form: Formulario,
    showForm: bool,
    editingId: Option<int>,
    showPassword: bool)

  /** The `connectionTypes` table: the default port, `null` for files. */
  function PortaPadrao(t: Tipo): (p: Option<int>)
    ensures p.None? <==> t == Csv || t == Excel
  {
    match t
    case Mysql => Some(3306)
    case Postgresql => Some(5432)
    case Sqlserver => Some(1433)
    case Mongodb => Some(27017)
    case Api => Some(443)
    case Csv => None
    case Excel => None
  }

  /** `handleTypeChange`: the type and its default port; every other field is kept. */
  function MudarTipo(f: Formulario, t: Tipo): (r: Formulario)
    ensures r.tipo == t && r.port == PortaPadrao(t)
    ensures r.(tipo := f.tipo, port := f.port) == f
  {
    f.(tipo := t, port := PortaPadrao(t))
  }

  /** Choosing a type twice is choosing it once; the last choice decides the port. */
  lemma MudarTipoUltimoVence(f: Formulario, a: Tipo, b: Tipo)
    ensures MudarTipo(MudarTipo(f, a), b) == MudarTipo(f, b)
  {
  }

  const FormularioVazio: Formulario := Formulario("", Mysql, "", None, "", "", "", "")

  /** `resetForm`: the empty form with type 'mysql', hidden, not editing. */
  function ResetForm(p: Pagina): (r: Pagina)
    ensures r.form == FormularioVazio && r.form.tipo == Mysql
    ensures !r.showForm && r.editingId.None? && !r.showPassword
    ensures r.sources == p.sources
  {
    Pagina(p.sources, FormularioVazio, false, None, false)
  }

  /** `if (editingId)`: an id of 0 counts as not editing. */
  predicate Editando(p: Pagina) {
    p.editingId.Some? && p.editingId.value != 0
  }

  /** The source as the edit leaves it: the form's fields, status 'active', never synchronised. */
  function Sobrescrever(ds: DataSource, f: Formulario): (r: DataSource)
    ensures r.id == ds.id
    ensures r.name == f.name && r.tipo == f.tipo && r.host == f.host && r.port == f.port
    ensures r.database == f.database && r.username == f.username && r.password == f.password
    ensures r.additionalParams == f.additionalParams
    ensures r.status == Active && r.lastSync == "Nunca sincronizado"
  {
    DataSource(ds.id, f.name, f.tipo, f.host, f.port, f.database, f.username, f.password,
               f.additionalParams, Active, "Nunca sincronizado")
  }

  /**
   * `handleSubmit`: while editing, every source with the edited id is
   * overwritten from the form; otherwise one 'pending' source numbered by
   * the clock is appended. The form is reset either way.
   */
  function Submit(p: Pagina, agora: int): (r: Pagina)
    ensures r == ResetForm(r)
    ensures Editando(p) ==>
              && |r.sources| == |p.sources|
              && forall i :: 0 <= i < |p.sources| ==>
                   r.sources[i] == if p.sources[i].id == p.editingId.value then Sobrescrever(p.sources[i], p.form)
                                   else p.sources[i]
    ensures !Editando(p) ==>
              && |r.sources| == |p.sources| + 1 && r.sources[..|p.sources|] == p.sources
              && r.sources[|p.sources|].id == agora
              && r.sources[|p.sources|].status == Pending
              && r.sources[|p.sources|].lastSync == "Nunca sincronizado"
              && r.sources[|p.sources|].name == p.form.name
              && r.sources[|p.sources|].tipo == p.form.tipo
              && r.sources[|p.sources|].host == p.form.host
              && r.sources[|p.sources|].port == p.form.port
              && r.sources[|p.sources|].database == p.form.database
              && r.sources[|p.sources|].username == p.form.username
              && r.sources[|p.sources|].password == p.form.password
              && r.sources[|p.sources|].additionalParams == p.form.additionalParams
  {
    var f := p.form;
    var sources :=
      if Editando(p) then
        seq(|p.sources|, i requires 0 <= i < |p.sources| =>
          if p.sources[i].id == p.editingId.value then Sobrescrever(p.sources[i], f) else p.sources[i])
      else
        p.sources + [DataSource(agora, f.name, f.tipo, f.host, f.port, f.database, f.username, f.password,
                                f.additionalParams, Pending, "Nunca sincronizado")];
    ResetForm(p.(sources := sources))
  }

  /** `handleEdit`: the form is filled from the source with an empty password, and editing starts. */
  function Edit(p: Pagina, s: DataSource): (r: Pagina)
    ensures r.form.name == s.name && r.form.tipo == s.tipo && r.form.host == s.host && r.form.port == s.port
    ensures r.form.database == s.database && r.form.username == s.username
    ensures r.form.password == "" && r.form.additionalParams == ""
    ensures r.editingId == Some(s.id) && r.showForm
    ensures r.sources == p.sources
  {
    p.(form := Formulario(s.name, s.tipo, s.host, s.port, s.database, s.username, "", ""),
       editingId := Some(s.id), showForm := true)
  }

  /**
   * Editing a source and submitting unchanged keeps its connection fields,
   * but activates it and empties its stored password.
   */
  lemma EditarSemMudar(p: Pagina, k: int, agora: int)
    requires 0 <= k < |p.sources| && p.sources[k].id != 0
    ensures var r := Submit(Edit(p, p.sources[k]), agora).sources;
            && |r| == |p.sources|
            && r[k].name == p.sources[k].name && r[k].host == p.sources[k].host && r[k].port == p.sources[k].port
            && r[k].password == "" && r[k].status == Active
  {
  }

  /** `testConnection`: the sources with that id become 'active' with the current time; an unknown id throws and changes nothing. */
  function TestConnection(sources: seq<DataSource>, id: int, agoraTexto: string): (r: seq<DataSource>)
    ensures (forall i :: 0 <= i < |sources| ==> sources[i].id != id) ==> r == sources
    ensures |r| == |sources|
    ensures forall i :: 0 <= i < |sources| ==>
              r[i] == if sources[i].id == id then sources[i].(status := Active, lastSync := agoraTexto) else sources[i]
  {
    seq(|sources|, i requires 0 <= i < |sources| =>
      if sources[i].id == id then sources[i].(status := Active, lastSync := agoraTexto) else sources[i])
  }

  /** `handleDelete`: when confirmed, exactly the sources with that id disappear, order kept. */
  function Delete(sources: seq<DataSource>, id: int, confirmado: bool): (r: seq<DataSource>)
    ensures !confirmado ==> r == sources
    ensures confirmado ==> IsSubseq(r, sources) && forall x :: x in r <==> x in sources && x.id != id
  {
    if confirmado then
      FilterIsSubseq(sources, (x: DataSource) => x.id != id);
      Filter(sources, (x: DataSource) => x.id != id)
    else sources
  }
}

=== FILE: sources.dfy ===
/**
 * The data-source routes: creating, updating, activating and deactivating a
 * source, the password encoding, and the manual synchronisation with its
 * one-hour throttle and status rules, over an in-memory table of sources.
 *
 * The FonteDados model and its enums are not part of this model; the status
 * and type values are the ones the routes' documentation lists. Times are
 * epoch seconds.
 */
module Sources {
  import opened Common
  import opened Seqs
  import opened Text

  datatype StatusFonte = Ativa | Inativa | ErroFonte | Pendente | Sincronizando

  datatype TipoFonte = Mysql | Postgresql | Sqlserver | Oracle | Mongodb | Api | Csv | Excel

  /** An encoded password; the base64 text itself is not modelled. */
  datatype Cifrada = Base64(plain: string)

  /** `criptografar_senha`: a falsy password is stored as `None`. */
  function Criptografar(senha: Option<string>): (r: Option<Cifrada>)
    ensures r.None? <==> !Truthy(senha)
  {
    if !Truthy(senha) then None else Some(Base64(senha.value))
  }

  /** `descriptografar_senha`: a falsy stored value decodes to `None`. */
  function Descriptografar(c: Option<Cifrada>): (r: Option<string>)
    ensures c.None? ==> r.None?
  {
    if c.None? || c.value.plain == "" then None else Some(c.value.plain)
  }

  /** Decoding an encoded password gives it back; an empty or missing one stays missing. */
  lemma SenhaIdaEVolta(senha: Option<string>)
    ensures Truthy(senha) ==> Descriptografar(Criptografar(senha)) == senha
    ensures !Truthy(senha) ==> Descriptografar(Criptografar(senha)) == None
  {
  }

  datatype Fonte = Fonte(
    id: int,
    nome: string,
    tipo: TipoFonte,
    status: StatusFonte,
    host: Option<string>,
    port: Option<int>,
    database: Option<string>,
    username: Option<string>,
    senha: Option<Cifrada>,
    urlApi: Option<string>,
    frequenciaSyncHoras: int,
    ultimaSync: Option<int>,
    proximaSync: Option<int>,
    totalImportados: int,
    totalErros: int,
    tempoUltimaSync: real,
    mensagemErro: Option<string>,
    atualizadoEm: Option<int>)

  /** The first source with that id, or -1. */
  function IndiceDe(fs: seq<Fonte>, id: int): (k: int)
    ensures -1 <= k < |fs|
    ensures k >= 0 ==> fs[k].id == id && forall j :: 0 <= j < k ==> fs[j].id != id
    ensures k < 0 ==> forall j :: 0 <= j < |fs| ==> fs[j].id != id
  {
    FirstWhere(fs, (f: Fonte) => f.id == id)
  }

  predicate IdsUnicos(fs: seq<Fonte>) {
    UniqueBy(fs, (x: Fonte) => x.id)
  }

  predicate NomesUnicos(fs: seq<Fonte>) {
    UniqueBy(fs, (x: Fonte) => x.nome)
  }

  // ------------------------------------------------- synchronisation

  /** The random batch: `randint(100, 5000)`, `randint(10, 500)`, `randint(0, 10)`. */
  datatype Lote = Lote(importados: int, atualizados: int, comErro: int)

  predicate LoteValido(l: Lote) {
    100 <= l.importados <= 5000 && 10 <= l.atualizados <= 500 && 0 <= l.comErro <= 10
  }

  datatype ResultadoSync = ResultadoSync(sucesso: bool, importados: int, atualizados: int, comErro: int, data: Option<int>)

  /** Less than one hour since the last synchronisation, and not forced. */
  predicate Recente(f: Fonte, force: bool, agora: int) {
    !force && f.ultimaSync.Some? && agora - f.ultimaSync.value < 3600
  }

  /**
   * `executar_sincronizacao`: a throttled call reports failure with zero
   * counts and leaves the source as it was; otherwise the clocks move, the
   * batch counts are added, and the source becomes ATIVA only when the batch
   * had no errors.
   */
  function ExecutarSincronizacao(f: Fonte, force: bool, agora: int, lote: Lote, duracao: real): (r: (Fonte, ResultadoSync))
    requires LoteValido(lote)
    ensures Recente(f, force, agora) ==>
              r.0 == f && r.1 == ResultadoSync(false, 0, 0, 0, f.ultimaSync)
    ensures !Recente(f, force, agora) ==>
              var g := r.0;
              && r.1 == ResultadoSync(true, lote.importados, lote.atualizados, lote.comErro, Some(agora))
              && g.ultimaSync == Some(agora)
              && g.proximaSync == Some(agora + f.frequenciaSyncHoras * 3600)
              && g.totalImportados == f.totalImportados + lote.importados
              && g.totalErros == f.totalErros + lote.comErro
              && g.tempoUltimaSync == duracao
              && (lote.comErro == 0 ==> g.status == Ativa && g.mensagemErro.None?)
              && (lote.comErro > 0 ==> g.status == f.status && g.mensagemErro.Some?)
              && g.id == f.id && g.nome == f.nome && g.senha == f.senha
              && g == f.(ultimaSync := g.ultimaSync, proximaSync := g.proximaSync,
                         totalImportados := g.totalImportados, totalErros := g.totalErros,
                         tempoUltimaSync := g.tempoUltimaSync, mensagemErro := g.mensagemErro,
                         status := g.status)
    ensures r.0.totalImportados >= f.totalImportados && r.0.totalErros >= f.totalErros
  {
    if Recente(f, force, agora) then
      (f, ResultadoSync(false, 0, 0, 0, f.ultimaSync))
    else
      var g := f.(ultimaSync := Some(agora),
                  proximaSync := Some(agora + f.frequenciaSyncHoras * 3600),
                  totalImportados := f.totalImportados + lote.importados,
                  totalErros := f.totalErros + lote.comErro,
                  tempoUltimaSync := duracao);
      var g := if lote.comErro > 0 then g.(mensagemErro := Some(NatToString(lote.comErro) + " registros com erro de validação"))
               else g.(mensagemErro := None, status := Ativa);
      (g, ResultadoSync(true, lote.importados, lote.atualizados, lote.comErro, Some(agora)))
  }

  /**
   * `sincronizar_fonte`: 404 for an unknown id, 409 while the source is
   * SINCRONIZANDO, both changing nothing; otherwise the source is marked
   * SINCRONIZANDO and synchronised. `falha` is the message of an exception
   * raised during the synchronisation: the source then becomes ERRO with
   * that message and the route answers 500.
   */
  function SincronizarFonte(fs: seq<Fonte>, id: int, force: bool, agora: int, lote: Lote, duracao: real,
                            falha: Option<string>): (r: (seq<Fonte>, Result<ResultadoSync>))
    requires LoteValido(lote)
    ensures var k := IndiceDe(fs, id);
            k < 0 ==> r == (fs, Err(404))
    ensures var k := IndiceDe(fs, id);
            k >= 0 && fs[k].status == Sincronizando ==> r == (fs, Err(409))
    ensures var k := IndiceDe(fs, id);
            k >= 0 && fs[k].status != Sincronizando ==>
              && |r.0| == |fs|
              && (forall j :: 0 <= j < |fs| && j != k ==> r.0[j] == fs[j])
              && (falha.Some? ==> r.1 == Err(500) && r.0[k] == fs[k].(status := ErroFonte, mensagemErro := falha))
              && (falha.None? ==>
                    (r.1.Ok?
                     && (r.0[k], r.1.value) == ExecutarSincronizacao(fs[k].(status := Sincronizando), force, agora, lote, duracao)))
  {
    var k := IndiceDe(fs, id);
    if k < 0 then (fs, Err(404))
    else if fs[k].status == Sincronizando then (fs, Err(409))
    else
      var marcada := fs[k].(status := Sincronizando);
      if falha.Some? then
        (fs[k := marcada.(status := ErroFonte, mensagemErro := falha)], Err(500))
      else
        var (g, res) := ExecutarSincronizacao(marcada, force, agora, lote, duracao);
        (fs[k := g], Ok(res))
  }

  /** A synchronisation that is not thrown keeps the source's counters non-decreasing. */
  lemma SincronizarContadores(fs: seq<Fonte>, id: int, force: bool, agora: int, lote: Lote, duracao: real, j: int)
    requires LoteValido(lote) && 0 <= j < |fs|
    ensures var r := SincronizarFonte(fs, id, force, agora, lote, duracao, None).0;
            |r| == |fs| && r[j].totalImportados >= fs[j].totalImportados && r[j].totalErros >= fs[j].totalErros
  {
  }

  /**
   * A throttled synchronisation leaves the source SINCRONIZANDO, so the next
   * call, whatever its arguments, is refused with 409.
   */
  lemma ThrottleTravaFonte(fs: seq<Fonte>, id: int, agora: int, lote: Lote, duracao: real,
                           force2: bool, agora2: int, lote2: Lote, duracao2: real)
    requires LoteValido(lote) && LoteValido(lote2)
    requires var k := IndiceDe(fs, id); k >= 0 && fs[k].status != Sincronizando && Recente(fs[k], false, agora)
    ensures var s := SincronizarFonte(fs, id, false, agora, lote, duracao, None);
            s.1 == Ok(ResultadoSync(false, 0, 0, 0, fs[IndiceDe(fs, id)].ultimaSync))
            && SincronizarFonte(s.0, id, force2, agora2, lote2, duracao2, None).1 == Err(409)
  {
    var k := IndiceDe(fs, id);
    var s := SincronizarFonte(fs, id, false, agora, lote, duracao, None);
    assert s.0[k].status == Sincronizando;
    assert IndiceDe(s.0, id) == k by {
      assert forall j :: 0 <= j < |s.0| ==> s.0[j].id == fs[j].id;
    }
  }

  /** A batch with errors leaves the source SINCRONIZANDO as well. */
  lemma ErrosTravamFonte(fs: seq<Fonte>, id: int, force: bool, agora: int, lote: Lote, duracao: real)
    requires LoteValido(lote) && lote.comErro > 0
    requires var k := IndiceDe(fs, id); k >= 0 && fs[k].status != Sincronizando
    ensures SincronizarFonte(fs, id, force, agora, lote, duracao, None).0[IndiceDe(fs, id)].status == Sincronizando
  {
  }

  /**
   * The synchronisation as evidently intended: a call that does not bring the
   * source to ATIVA gives it back the status it had before the call.
   */
  function SincronizarFonteCorrigida(fs: seq<Fonte>, id: int, force: bool, agora: int, lote: Lote, duracao: real,
                                     falha: Option<string>): (r: (seq<Fonte>, Result<ResultadoSync>))
    requires LoteValido(lote)
    ensures var k := IndiceDe(fs, id);
            k < 0 || fs[k].status == Sincronizando ==> r == SincronizarFonte(fs, id, force, agora, lote, duracao, falha)
    ensures var k := IndiceDe(fs, id);
            k >= 0 && fs[k].status != Sincronizando ==>
              && |r.0| == |fs|
              && r.0[k].status != Sincronizando
              && (forall j :: 0 <= j < |fs| && j != k ==> r.0[j] == fs[j])
              && r.1 == SincronizarFonte(fs, id, force, agora, lote, duracao, falha).1
  {
    var k := IndiceDe(fs, id);
    var s := SincronizarFonte(fs, id, force, agora, lote, duracao, falha);
    if k < 0 || fs[k].status == Sincronizando || s.0[k].status != Sincronizando then s
    else (s.0[k := s.0[k].(status := fs[k].status)], s.1)
  }

  /** With the correction, a throttled call no longer blocks the next one. */
  lemma CorrigidaNaoTrava(fs: seq<Fonte>, id: int, force: bool, agora: int, lote: Lote, duracao: real,
                          force2: bool, agora2: int, lote2: Lote, duracao2: real)
    requires LoteValido(lote) && LoteValido(lote2)
    requires IndiceDe(fs, id) >= 0 && fs[IndiceDe(fs, id)].status != Sincronizando
    ensures var s := SincronizarFonteCorrigida(fs, id, force, agora, lote, duracao, None);
            SincronizarFonteCorrigida(s.0, id, force2, agora2, lote2, duracao2, None).1 != Err(409)
  {
    var k := IndiceDe(fs, id);
    var s := SincronizarFonteCorrigida(fs, id, force, agora, lote, duracao, None);
    assert forall j :: 0 <= j < |s.0| ==> s.0[j].id == fs[j].id;
    assert IndiceDe(s.0, id) == k;
  }

  // ------------------------------------------------- create / update

  datatype FonteCreate = FonteCreate(
    nome: string,
    tipo: TipoFonte,
    host: Option<string>,
    port: Option<int>,
    database: Option<string>,
    username: Option<string>,
    senha: Option<string>,
    urlApi: Option<string>,
    frequenciaSyncHoras: int)

  predicate NomeEmUso(fs: seq<Fonte>, nome: string) {
    exists j :: 0 <= j < |fs| && fs[j].nome == nome
  }

  /**
   * `criar_fonte`: 400 when the name is in use; otherwise one PENDENTE
   * source is appended with the encoded password and zeroed counters.
   * `novoId` is the id the database assigns.
   */
  function CriarFonte(fs: seq<Fonte>, dados: FonteCreate, novoId: int): (r: Result<seq<Fonte>>)
    requires forall j :: 0 <= j < |fs| ==> fs[j].id != novoId
    ensures r.Err? <==> NomeEmUso(fs, dados.nome)
    ensures r.Err? ==> r.code == 400
    ensures r.Ok? ==> |r.value| == |fs| + 1 && r.value[..|fs|] == fs
    ensures r.Ok? ==> var f := r.value[|fs|];
              && f.id == novoId && f.nome == dados.nome && f.tipo == dados.tipo && f.status == Pendente
              && f.senha == Criptografar(dados.senha)
              && f.totalImportados == 0 && f.totalErros == 0 && f.ultimaSync.None?
    ensures r.Ok? ==> (NomesUnicos(fs) ==> NomesUnicos(r.value)) && (IdsUnicos(fs) ==> IdsUnicos(r.value))
  {
    if NomeEmUso(fs, dados.nome) then Err(400)
    else
      var f := Fonte(novoId, dados.nome, dados.tipo, Pendente, dados.host, dados.port, dados.database,
                     dados.username, Criptografar(dados.senha), dados.urlApi, dados.frequenciaSyncHoras,
                     None, None, 0, 0, 0.0, None, None);
      Ok(fs + [f])
  }

  /** The fields a PUT supplies; `None` is a field left out of the request. */
  datatype FonteUpdate = FonteUpdate(
    nome: Option<string>,
    tipo: Option<TipoFonte>,
    host: Option<string>,
    port: Option<int>,
    database: Option<string>,
    username: Option<string>,
    senha: Option<string>,
    urlApi: Option<string>,
    frequenciaSyncHoras: Option<int>,
    status: Option<StatusFonte>)

  function Ou<T>(o: Option<T>, d: T): T {
    if o.Some? then o.value else d
  }

  /** The supplied fields over the stored ones; a password is re-encoded only when truthy. */
  function Aplicar(f: Fonte, u: FonteUpdate, agora: int): (g: Fonte)
    ensures g.id == f.id && g.ultimaSync == f.ultimaSync && g.totalImportados == f.totalImportados
    ensures g.totalErros == f.totalErros
    ensures g.nome == Ou(u.nome, f.nome) && g.status == Ou(u.status, f.status)
    ensures g.senha == if Truthy(u.senha) then Criptografar(u.senha) else f.senha
    ensures g.atualizadoEm == Some(agora)
    ensures g.tipo == Ou(u.tipo, f.tipo) && g.frequenciaSyncHoras == Ou(u.frequenciaSyncHoras, f.frequenciaSyncHoras)
    ensures g.host == (if u.host.Some? then u.host else f.host)
    ensures g.port == (if u.port.Some? then u.port else f.port)
    ensures g.database == (if u.database.Some? then u.database else f.database)
    ensures g.username == (if u.username.Some? then u.username else f.username)
    ensures g.urlApi == (if u.urlApi.Some? then u.urlApi else f.urlApi)
    ensures g.proximaSync == f.proximaSync && g.mensagemErro == f.mensagemErro
    ensures g.tempoUltimaSync == f.tempoUltimaSync
  {
    f.(nome := Ou(u.nome, f.nome), tipo := Ou(u.tipo, f.tipo),
       host := if u.host.Some? then u.host else f.host,
       port := if u.port.Some? then u.port else f.port,
       database := if u.database.Some? then u.database else f.database,
       username := if u.username.Some? then u.username else f.username,
       senha := if Truthy(u.senha) then Criptografar(u.senha) else f.senha,
       urlApi := if u.urlApi.Some? then u.urlApi else f.urlApi,
       frequenciaSyncHoras := Ou(u.frequenciaSyncHoras, f.frequenciaSyncHoras),
       status := Ou(u.status, f.status),
       atualizadoEm := Some(agora))
  }

  /** Another source, with a different id, already has the name. */
  predicate NomeDeOutra(fs: seq<Fonte>, nome: string, id: int) {
    exists j :: 0 <= j < |fs| && fs[j].nome == nome && fs[j].id != id
  }

  /**
   * `atualizar_fonte`: 404 for an unknown id; 400 when the name changes to
   * one another source holds; otherwise the supplied fields are written and
   * the update time set. Keeping the source's own name is always allowed.
   */
  function AtualizarFonte(fs: seq<Fonte>, id: int, u: FonteUpdate, agora: int): (r: Result<seq<Fonte>>)
    ensures IndiceDe(fs, id) < 0 ==> r == Err(404)
    ensures var k := IndiceDe(fs, id);
            k >= 0 ==> (r == Err(400) <==> u.nome.Some? && u.nome.value != fs[k].nome && NomeDeOutra(fs, u.nome.value, id))
    ensures var k := IndiceDe(fs, id);
            r.Ok? ==> k >= 0 && r.value == fs[k := Aplicar(fs[k], u, agora)]
    ensures r.Ok? ==> (IdsUnicos(fs) && NomesUnicos(fs) ==> IdsUnicos(r.value) && NomesUnicos(r.value))
  {
    var k := IndiceDe(fs, id);
    if k < 0 then Err(404)
    else if u.nome.Some? && u.nome.value != fs[k].nome && NomeDeOutra(fs, u.nome.value, id) then Err(400)
    else
      var r := fs[k := Aplicar(fs[k], u, agora)];
      NomesPreservados(fs, k, Aplicar(fs[k], u, agora), id);
      Ok(r)
  }

  lemma NomesPreservados(fs: seq<Fonte>, k: int, g: Fonte, id: int)
    requires 0 <= k < |fs| && fs[k].id == id && g.id == id
    requires g.nome == fs[k].nome || !NomeDeOutra(fs, g.nome, id)
    ensures IdsUnicos(fs) && NomesUnicos(fs) ==> IdsUnicos(fs[k := g]) && NomesUnicos(fs[k := g])
  {
    if IdsUnicos(fs) && NomesUnicos(fs) {
      var r := fs[k := g];
      assert forall j :: 0 <= j < |fs| && j != k ==> fs[j].id != id;
    }
  }

  /** `ativar_fonte` / `desativar_fonte`: 404 for an unknown id, otherwise only the status and update time change. */
  function DefinirStatus(fs: seq<Fonte>, id: int, ativa: bool, agora: int): (r: Result<seq<Fonte>>)
    ensures r.Err? <==> IndiceDe(fs, id) < 0
    ensures r.Err? ==> r.code == 404
    ensures r.Ok? ==> var k := IndiceDe(fs, id);
              && |r.value| == |fs|
              && r.value[k] == fs[k].(status := if ativa then Ativa else Inativa, atualizadoEm := Some(agora))
              && forall j :: 0 <= j < |fs| && j != k ==> r.value[j] == fs[j]
  {
    var k := IndiceDe(fs, id);
    if k < 0 then Err(404)
    else Ok(fs[k := fs[k].(status := if ativa then Ativa else Inativa, atualizadoEm := Some(agora))])
  }

  /** Activating after deactivating ends ATIVA whatever the status was. */
  lemma DesativarAtivar(fs: seq<Fonte>, id: int, t1: int, t2: int)
    requires IndiceDe(fs, id) >= 0
    ensures var d := DefinirStatus(fs, id, false, t1);
            d.Ok? && DefinirStatus(d.value, id, true, t2).Ok?
            && DefinirStatus(d.value, id, true, t2).value[IndiceDe(fs, id)].status == Ativa
  {
    var k := IndiceDe(fs, id);
    var d := DefinirStatus(fs, id, false, t1);
    assert forall j :: 0 <= j < |d.value| ==> d.value[j].id == fs[j].id;
    assert IndiceDe(d.value, id) == k;
  }

  /** `excluir_fonte`: 404 for an unknown id, otherwise that source is removed. */
  function ExcluirFonte(fs: seq<Fonte>, id: int): (r: Result<seq<Fonte>>)
    ensures r.Err? <==> IndiceDe(fs, id) < 0
    ensures r.Err? ==> r.code == 404
    ensures r.Ok? ==> var k := IndiceDe(fs, id); |r.value| == |fs| - 1 && r.value == fs[..k] + fs[k + 1..]
    ensures r.Ok? && IdsUnicos(fs) ==> forall j :: 0 <= j < |r.value| ==> r.value[j].id != id
  {
    var k := IndiceDe(fs, id);
    if k < 0 then Err(404)
    else
      var r := fs[..k] + fs[k + 1..];
      assert forall j :: 0 <= j < |r| ==> r[j] == if j < k then fs[j] else fs[j + 1];
      Ok(r)
  }
}

=== FILE: storage.dfy ===
/**
 * The browser-side mock database: four `localStorage` keys holding JSON
 * lists. The user list is modelled field by field; the other three lists
 * are kept as opaque stored text, since nothing here reads their contents.
 * A missing key is `None`.
 */
module Storage {
  import opened Common
  import opened Seqs

  datatype UsuarioSalvo = UsuarioSalvo(
    id: int, nome: string, email: string, senha: string,
    papel: string, status: string, ultimoAcesso: string, criadoEm: string)

  datatype Armazenamento = Armazenamento(
    usuarios: Option<seq<UsuarioSalvo>>,
    fontes: Option<string>,
    recomendacoes: Option<string>,
    relatorios: Option<string>)

  /** The six users `_createDefaultUsers` writes. */
  const UsuariosPadrao: seq<UsuarioSalvo> := [
    UsuarioSalvo(1, "Admin Sistema", "admin@shopinfo.com", "admin123", "Administrador", "Ativo", "29/10/2025 10:00", "01/01/2025"),
    UsuarioSalvo(2, "Maria Santos", "maria.santos@shopinfo.com", "vendedor123", "Vendedor", "Ativo", "29/10/2025 08:15", "05/01/2025"),
    UsuarioSalvo(3, "Pedro Costa", "pedro.costa@shopinfo.com", "vendedor123", "Vendedor", "Ativo", "28/10/2025 17:45", "05/01/2025"),
    UsuarioSalvo(4, "Ana Oliveira", "ana.oliveira@shopinfo.com", "supervisor123", "Supervisor", "Ativo", "29/10/2025 09:30", "03/01/2025"),
    UsuarioSalvo(5, "Carlos Mendes", "carlos.mendes@shopinfo.com", "vendedor123", "Vendedor", "Inativo", "10/10/2025 16:20", "08/01/2025"),
    UsuarioSalvo(6, "João Silva", "joao.silva@shopinfo.com", "supervisor123", "Supervisor", "Ativo", "29/10/2025 07:45", "10/01/2025")
  ]

  predicate IdsUnicos(us: seq<UsuarioSalvo>) {
    UniqueBy(us, (x: UsuarioSalvo) => x.id)
  }

  predicate EmailsUnicos(us: seq<UsuarioSalvo>) {
    UniqueBy(us, (x: UsuarioSalvo) => x.email)
  }

  /** The default users have ids 1 to 6 in order, distinct e-mails, and one administrator. */
  lemma PadraoBemFormado()
    ensures |UsuariosPadrao| == 6
    ensures forall i :: 0 <= i < 6 ==> UsuariosPadrao[i].id == i + 1
    ensures IdsUnicos(UsuariosPadrao) && EmailsUnicos(UsuariosPadrao)
    ensures forall i :: 0 <= i < 6 ==> (UsuariosPadrao[i].papel == "Administrador" <==> i == 0)
  {
    var us := UsuariosPadrao;
    forall i, j | 0 <= i < j < |us| ensures us[i].email != us[j].email {
      EmailsPadraoDistinguidos(i, j);
    }
  }

  /** The default e-mails already differ in their first letter, except the two starting with `a`. */
  lemma EmailsPadraoDistinguidos(i: int, j: int)
    requires 0 <= i < j < 6
    ensures UsuariosPadrao[i].email != UsuariosPadrao[j].email
  {
    var e := UsuariosPadrao[i].email;
    var f := UsuariosPadrao[j].email;
    if i == 0 && j == 3 {
      assert e[1] == 'd' && f[1] == 'n';
    } else {
      assert e[0] != f[0];
    }
  }

  /** `getUsers() || []`: the stored list, or the empty list when the key is missing. */
  function Lista(st: Armazenamento): (us: seq<UsuarioSalvo>)
    ensures st.usuarios.Some? ==> us == st.usuarios.value
    ensures st.usuarios.None? ==> us == []
  {
    if st.usuarios.Some? then st.usuarios.value else []
  }

  /** `_createDefaultUsers`: only the user key is written. */
  function CriarPadrao(st: Armazenamento): (r: Armazenamento)
    ensures r.usuarios == Some(UsuariosPadrao)
    ensures r.fontes == st.fontes && r.recomendacoes == st.recomendacoes && r.relatorios == st.relatorios
  {
    st.(usuarios := Some(UsuariosPadrao))
  }

  /** `initialize`: writes the defaults only when the user list is missing or empty. */
  function Inicializar(st: Armazenamento): (r: Armazenamento)
    ensures st.usuarios.None? || st.usuarios == Some([]) ==> r == CriarPadrao(st)
    ensures st.usuarios.Some? && st.usuarios.value != [] ==> r == st
    ensures r.usuarios.Some? && |r.usuarios.value| > 0
  {
    if st.usuarios.None? || |st.usuarios.value| == 0 then CriarPadrao(st) else st
  }

  /** Initializing twice is initializing once. */
  lemma InicializarIdempotente(st: Armazenamento)
    ensures Inicializar(Inicializar(st)) == Inicializar(st)
  {
  }

  /** `addUser`: the user goes to the end of the list, which is created when missing. */
  function AdicionarUsuario(st: Armazenamento, u: UsuarioSalvo): (r: (Armazenamento, UsuarioSalvo))
    ensures r.0.usuarios == Some(Lista(st) + [u]) && r.1 == u
    ensures r.0.fontes == st.fontes && r.0.recomendacoes == st.recomendacoes && r.0.relatorios == st.relatorios
  {
    (st.(usuarios := Some(Lista(st) + [u])), u)
  }

  /** The fields of the object spread over a stored user; a missing key keeps the stored value. */
  datatype Alteracoes = Alteracoes(
    id: Option<int>, nome: Option<string>, email: Option<string>, senha: Option<string>,
    papel: Option<string>, status: Option<string>, ultimoAcesso: Option<string>, criadoEm: Option<string>)

  /** `{ ...u, ...dados }`. */
  function Mesclar(u: UsuarioSalvo, d: Alteracoes): (r: UsuarioSalvo)
    ensures r.id == (if d.id.Some? then d.id.value else u.id)
    ensures r.nome == (if d.nome.Some? then d.nome.value else u.nome)
    ensures r.email == (if d.email.Some? then d.email.value else u.email)
    ensures r.senha == (if d.senha.Some? then d.senha.value else u.senha)
    ensures r.papel == (if d.papel.Some? then d.papel.value else u.papel)
    ensures r.status == (if d.status.Some? then d.status.value else u.status)
    ensures r.ultimoAcesso == (if d.ultimoAcesso.Some? then d.ultimoAcesso.value else u.ultimoAcesso)
    ensures r.criadoEm == (if d.criadoEm.Some? then d.criadoEm.value else u.criadoEm)
    ensures d == Alteracoes(None, None, None, None, None, None, None, None) ==> r == u
  {
    UsuarioSalvo(
      if d.id.Some? then d.id.value else u.id,
      if d.nome.Some? then d.nome.value else u.nome,
      if d.email.Some? then d.email.value else u.email,
      if d.senha.Some? then d.senha.value else u.senha,
      if d.papel.Some? then d.papel.value else u.papel,
      if d.status.Some? then d.status.value else u.status,
      if d.ultimoAcesso.Some? then d.ultimoAcesso.value else u.ultimoAcesso,
      if d.criadoEm.Some? then d.criadoEm.value else u.criadoEm)
  }

  /** Every field of `u`, as a spread of a whole user object. */
  function Todos(u: UsuarioSalvo): (d: Alteracoes)
    ensures forall x :: Mesclar(x, d) == u
  {
    Alteracoes(Some(u.id), Some(u.nome), Some(u.email), Some(u.senha), Some(u.papel), Some(u.status), Some(u.ultimoAcesso), Some(u.criadoEm))
  }

  /** `findIndex(u => u.id === id)`. */
  function IndiceDe(us: seq<UsuarioSalvo>, id: int): (k: int)
    ensures -1 <= k < |us|
    ensures k >= 0 ==> us[k].id == id && forall j :: 0 <= j < k ==> us[j].id != id
    ensures k < 0 ==> forall j :: 0 <= j < |us| ==> us[j].id != id
  {
    FirstWhere(us, (u: UsuarioSalvo) => u.id == id)
  }

  /**
   * `updateUser`: the first user with that id gets the changes and is
   * returned; without one nothing is written and the result is `null`.
   */
  function AtualizarUsuario(st: Armazenamento, id: int, d: Alteracoes): (r: (Armazenamento, Option<UsuarioSalvo>))
    ensures r.1.None? <==> forall j :: 0 <= j < |Lista(st)| ==> Lista(st)[j].id != id
    ensures r.1.None? ==> r.0 == st
    ensures r.1.Some? ==> var k := IndiceDe(Lista(st), id);
              && r.0 == st.(usuarios := Some(Lista(st)[k := Mesclar(Lista(st)[k], d)]))
              && r.1.value == Mesclar(Lista(st)[k], d)
  {
    var us := Lista(st);
    var k := IndiceDe(us, id);
    if k < 0 then (st, None)
    else (st.(usuarios := Some(us[k := Mesclar(us[k], d)])), Some(Mesclar(us[k], d)))
  }

  /** An update that does not touch the id keeps ids unique. */
  lemma AtualizarMantemIds(st: Armazenamento, id: int, d: Alteracoes)
    requires IdsUnicos(Lista(st)) && (d.id.None? || d.id == Some(id))
    ensures IdsUnicos(Lista(AtualizarUsuario(st, id, d).0))
  {
  }

  /** `users.filter(u => u.id !== id)`. */
  function SemId(us: seq<UsuarioSalvo>, id: int): (r: seq<UsuarioSalvo>)
    ensures |r| <= |us|
    ensures forall x :: x in r <==> x in us && x.id != id
    ensures IsSubseq(r, us)
    decreases |us|
  {
    if |us| == 0 then []
    else if us[0].id != id then
      var t := SemId(us[1..], id);
      assert ([us[0]] + t)[1..] == t;
      [us[0]] + t
    else
      var t := SemId(us[1..], id);
      assert |t| > 0 ==> t[0] in t && t[0] != us[0];
      t
  }

  /** `deleteUser`: every user with that id is removed and the list is written back, even when it was missing. */
  function ExcluirUsuario(st: Armazenamento, id: int): (r: (Armazenamento, bool))
    ensures r.1
    ensures r.0.usuarios == Some(SemId(Lista(st), id))
    ensures forall x :: x in Lista(r.0) <==> x in Lista(st) && x.id != id
    ensures r.0.fontes == st.fontes && r.0.recomendacoes == st.recomendacoes && r.0.relatorios == st.relatorios
  {
    (st.(usuarios := Some(SemId(Lista(st), id))), true)
  }

  /** Deleting an id that is not there leaves the list as it was, now written out. */
  lemma {:induction false} ExcluirAusente(us: seq<UsuarioSalvo>, id: int)
    requires forall j :: 0 <= j < |us| ==> us[j].id != id
    ensures SemId(us, id) == us
    decreases |us|
  {
    if |us| > 0 {
      ExcluirAusente(us[1..], id);
    }
  }

  /** `clearAll`: all four keys are removed. */
  function LimparTudo(st: Armazenamento): (r: Armazenamento)
    ensures r.usuarios.None? && r.fontes.None? && r.recomendacoes.None? && r.relatorios.None?
  {
    Armazenamento(None, None, None, None)
  }

  /** `forceReset`: everything cleared, then the default users written. */
  function ForcarReset(st: Armazenamento): (r: Armazenamento)
    ensures r.usuarios == Some(UsuariosPadrao)
    ensures r.fontes.None? && r.recomendacoes.None? && r.relatorios.None?
  {
    CriarPadrao(LimparTudo(st))
  }

  /** After a reset, initializing changes nothing; after clearing, it restores the defaults. */
  lemma ResetEInicializar(st: Armazenamento)
    ensures Inicializar(ForcarReset(st)) == ForcarReset(st)
    ensures Inicializar(LimparTudo(st)) == ForcarReset(st)
  {
  }
}

=== FILE: tally.dfy ===
/**
 * Counting occurrences the way the routes do with a dict: keys in order of
 * first occurrence, each with its count, and the top entries by count.
 */
module Tally {
  import opened Common
  import opened Seqs

  function KeyOf<T>(p: (T, nat)): T { p.0 }
  function CountOf<T>(p: (T, nat)): real { p.1 as real }

  /** `t` has one pair per distinct element of `s`, holding that element's number of occurrences. */
  ghost predicate IsTally<T(!new)>(t: seq<(T, nat)>, s: seq<T>) {
    && UniqueBy(t, KeyOf)
    && (forall k :: 0 <= k < |t| ==> t[k].0 in s && t[k].1 == multiset(s)[t[k].0])
    && (forall x :: x in s ==> exists k :: 0 <= k < |t| && t[k].0 == x)
  }

  /** The position of key `x`, or -1. */
  function KeyIndex<T(==)>(t: seq<(T, nat)>, x: T): (k: int)
    ensures -1 <= k < |t|
    ensures k >= 0 ==> t[k].0 == x
    ensures k < 0 ==> forall j :: 0 <= j < |t| ==> t[j].0 != x
  {
    FirstWhere(t, (e: (T, nat)) => e.0 == x)
  }

  /** `counts[x] = counts.get(x, 0) + 1`. */
  function Bump<T(==)>(t: seq<(T, nat)>, x: T): seq<(T, nat)> {
    var k := KeyIndex(t, x);
    if k < 0 then t + [(x, 1)] else t[k := (x, t[k].1 + 1)]
  }

  lemma BumpTally<T(!new)>(t: seq<(T, nat)>, s: seq<T>, x: T)
    requires IsTally(t, s)
    ensures IsTally(Bump(t, x), s + [x])
  {
    BumpUnique(t, x);
    BumpCounts(t, s, x);
    BumpCovers(t, s, x);
  }

  lemma BumpUnique<T>(t: seq<(T, nat)>, x: T)
    requires UniqueBy(t, KeyOf)
    ensures UniqueBy(Bump(t, x), KeyOf)
  {
    var t' := Bump(t, x);
    var kx := KeyIndex(t, x);
    forall i, j | 0 <= i < j < |t'| ensures KeyOf(t'[i]) != KeyOf(t'[j]) {
      if j == |t| {
        assert t'[i] == t[i] && t'[j].0 == x;
      } else {
        assert KeyOf(t'[i]) == KeyOf(t[i]) && KeyOf(t'[j]) == KeyOf(t[j]);
      }
    }
  }

  lemma BumpCounts<T(!new)>(t: seq<(T, nat)>, s: seq<T>, x: T)
    requires IsTally(t, s)
    ensures var t' := Bump(t, x);
            forall k :: 0 <= k < |t'| ==> t'[k].0 in s + [x] && t'[k].1 == multiset(s + [x])[t'[k].0]
  {
    var s' := s + [x];
    assert multiset(s') == multiset(s) + multiset{x};
    var t' := Bump(t, x);
    var kx := KeyIndex(t, x);
    forall k | 0 <= k < |t'| ensures t'[k].0 in s' && t'[k].1 == multiset(s')[t'[k].0] {
      if k < |t| && k != kx {
        assert t'[k] == t[k] && t[k].0 != x;
      } else if k < |t| {
        assert t'[k] == (x, t[k].1 + 1);
      } else {
        assert kx < 0 && t'[k] == (x, 1);
        assert x !in s;
        assert multiset(s)[x] == 0;
      }
    }
  }

  lemma BumpCovers<T(!new)>(t: seq<(T, nat)>, s: seq<T>, x: T)
    requires forall y :: y in s ==> exists k :: 0 <= k < |t| && t[k].0 == y
    ensures var t' := Bump(t, x);
            forall y :: y in s + [x] ==> exists k :: 0 <= k < |t'| && t'[k].0 == y
  {
    var t' := Bump(t, x);
    var kx := KeyIndex(t, x);
    forall y | y in s + [x] ensures exists k :: 0 <= k < |t'| && t'[k].0 == y {
      if y == x {
        if kx < 0 { assert t'[|t|].0 == x; } else { assert t'[kx].0 == x; }
      } else {
        assert y in s;
        var k :| 0 <= k < |t| && t[k].0 == y;
        assert t'[k].0 == y;
      }
    }
  }

  /** The dict built by counting `s` left to right. */
  function Tally<T(==,!new)>(s: seq<T>): (t: seq<(T, nat)>)
    ensures IsTally(t, s)
    decreases |s|
  {
    if |s| == 0 then []
    else
      var init := s[..|s| - 1];
      assert s == init + [s[|s| - 1]];
      BumpTally(Tally(init), init, s[|s| - 1]);
      Bump(Tally(init), s[|s| - 1])
  }

  /** The tally sorted by count, highest first. */
  function Ranked<T(==,!new)>(s: seq<T>): (r: seq<(T, nat)>)
    ensures |r| == |Tally(s)|
    ensures SortedDesc(r, CountOf)
    ensures UniqueBy(r, KeyOf)
    ensures forall y :: y in r <==> y in Tally(s)
  {
    var t := Tally(s);
    UniqueByDistinct(t, KeyOf);
    SortDescDistinct(t, CountOf);
    UniqueByFromSubset(t, SortDesc(t, CountOf), KeyOf);
    SortDesc(t, CountOf)
  }

  /**
   * `sorted(counts.items(), key=count, reverse=True)[:n]`: at most `n` pairs
   * with their true counts, highest first.
   */
  function Top<T(==,!new)>(s: seq<T>, n: nat): (top: seq<(T, nat)>)
    ensures |top| == Min(n, |Tally(s)|)
    ensures forall k :: 0 <= k < |top| ==> top[k] == Ranked(s)[k]
    ensures SortedDesc(top, CountOf)
    ensures UniqueBy(top, KeyOf)
    ensures forall k :: 0 <= k < |top| ==> top[k].0 in s && top[k].1 == multiset(s)[top[k].0]
  {
    var r := Ranked(s);
    var top := Take(r, n);
    assert forall k :: 0 <= k < |top| ==> top[k] in Tally(s) by {
      forall k | 0 <= k < |top| ensures top[k] in Tally(s) { assert r[k] in r; }
    }
    top
  }

  /** No element left out of the top has a higher count than one kept. */
  lemma TopIsMaximal<T(!new)>(s: seq<T>, n: nat, x: T)
    requires x in s
    requires forall k :: 0 <= k < |Top(s, n)| ==> Top(s, n)[k].0 != x
    ensures forall k :: 0 <= k < |Top(s, n)| ==> Top(s, n)[k].1 >= multiset(s)[x]
  {
    var t := Tally(s);
    var r := Ranked(s);
    var top := Top(s, n);
    var kt :| 0 <= kt < |t| && t[kt].0 == x;
    assert t[kt] in r;
    var m :| 0 <= m < |r| && r[m] == t[kt];
    if m < |top| {
      assert false;
    }
    forall k | 0 <= k < |top| ensures top[k].1 >= multiset(s)[x] {
      assert top[k] == r[k];
      assert CountOf(r[k]) >= CountOf(r[m]);
    }
  }

  /** A non-empty input has a non-empty tally, so a positive `n` gives a non-empty top. */
  lemma TopNaoVazio<T(!new)>(s: seq<T>, n: nat)
    requires |s| > 0 && n > 0
    ensures |Top(s, n)| > 0
  {
    var t := Tally(s);
    assert s[0] in s;
    var k :| 0 <= k < |t| && t[k].0 == s[0];
  }
}

=== FILE: text.dfy ===
/**
 * Text helpers used by every search box and filter: ASCII lower-casing and
 * substring containment (JavaScript `includes`, Python `in`).
 */
module Text {

  /** Lower-cases one character; only ASCII letters are folded. */
  function LowerChar(c: char): char {
    if 'A' <= c <= 'Z' then (c as int + 32) as char else c
  }

  /** `toLowerCase()` / `lower()` restricted to ASCII. */
  function Lower(s: string): (r: string)
    ensures |r| == |s|
    ensures forall i :: 0 <= i < |s| ==> r[i] == LowerChar(s[i])
  {
    seq(|s|, i requires 0 <= i < |s| => LowerChar(s[i]))
  }

  /** `t` occurs in `s` starting at index `i`. */
  predicate OccursAt(s: string, t: string, i: int) {
    0 <= i && i + |t| <= |s| && s[i..i + |t|] == t
  }

  /** `s.includes(t)`: `t` occurs as a contiguous block of `s`. */
  predicate Contains(s: string, t: string) {
    exists i :: 0 <= i <= |s| && OccursAt(s, t, i)
  }

  /** Case-insensitive containment as the pages write it: `a.toLowerCase().includes(b.toLowerCase())`. */
  predicate ContainsCI(s: string, t: string) {
    Contains(Lower(s), Lower(t))
  }

  /** The empty search term occurs in every string, so an empty search box filters nothing out. */
  lemma ContainsEmpty(s: string)
    ensures Contains(s, "")
    ensures ContainsCI(s, "")
  {
    assert OccursAt(s, "", 0);
    assert Lower("") == "";
    assert OccursAt(Lower(s), "", 0);
  }

  /** Every string contains itself. */
  lemma ContainsSelf(s: string)
    ensures Contains(s, s)
  {
    assert OccursAt(s, s, 0);
  }

  predicate IsAsciiDigit(c: char) {
    '0' <= c <= '9'
  }

  /** Python `isdigit()` over ASCII: non-empty and every character a digit. */
  predicate AllDigits(s: string) {
    |s| > 0 && forall i :: 0 <= i < |s| ==> IsAsciiDigit(s[i])
  }

  /** Decimal rendering of a natural number, as `String(n)` prints it. */
  function NatToString(n: nat): (r: string)
    ensures |r| > 0
    ensures forall i :: 0 <= i < |r| ==> IsAsciiDigit(r[i])
  {
    if n < 10 then [Digit(n)] else NatToString(n / 10) + [Digit(n % 10)]
  }

  function Digit(d: nat): (c: char)
    requires d < 10
    ensures IsAsciiDigit(c)
  {
    (48 + d) as char
  }
}

=== FILE: user_admin.dfy ===
/**
 * The administrator's user-management page: the list of users held in page
 * state, the create/edit modal, deletion behind a confirmation and the search
 * box. Alerts are not modelled; a rejected submit leaves the page as it was.
 */
module UserAdmin {
  import opened Common
  import opened Text
  import opened Seqs

  datatype Usuario = Usuario(id: int, nome: string, email: string, papel: string, status: string, ultimoAcesso: string)

  datatype Formulario = Formulario(nome: string, email: string, senha: string, confirmacao: string, papel: string, status: string)

  datatype Modo = Criar | Editar

  datatype Pagina = Pagina(usuarios: seq<Usuario>, modalAberto: bool, modo: Modo, selecionado: Option<Usuario>, form: Formulario)

  const FormularioPadrao: Formulario := Formulario("", "", "", "", "Vendedor", "Ativo")

  /**
   * `handleOpenModal`: editing a given user copies its fields with empty
   * passwords and selects it; anything else shows the default form and leaves
   * the selection alone.
   */
  function AbrirModal(p: Pagina, modo: Modo, u: Option<Usuario>): (r: Pagina)
    ensures r.modalAberto && r.modo == modo && r.usuarios == p.usuarios
    ensures modo == Editar && u.Some? ==>
              && r.selecionado == u
              && r.form == Formulario(u.value.nome, u.value.email, "", "", u.value.papel, u.value.status)
    ensures !(modo == Editar && u.Some?) ==> r.selecionado == p.selecionado && r.form == FormularioPadrao
  {
    if modo == Editar && u.Some? then
      p.(modalAberto := true, modo := modo, selecionado := u,
         form := Formulario(u.value.nome, u.value.email, "", "", u.value.papel, u.value.status))
    else
      p.(modalAberto := true, modo := modo, form := FormularioPadrao)
  }

  /** `handleCloseModal`. */
  function FecharModal(p: Pagina): (r: Pagina)
    ensures !r.modalAberto && r.selecionado.None?
    ensures r.usuarios == p.usuarios && r.form == p.form && r.modo == p.modo
  {
    p.(modalAberto := false, selecionado := None)
  }

  /** `Math.max(...users.map(u => u.id), 0)`. */
  function MaiorId(us: seq<Usuario>): (m: int)
    ensures m >= 0
    ensures forall j :: 0 <= j < |us| ==> us[j].id <= m
    ensures m == 0 || exists j :: 0 <= j < |us| && us[j].id == m
    decreases |us|
  {
    if |us| == 0 then 0 else Max(us[0].id, MaiorId(us[1..]))
  }

  predicate EmailCadastrado(us: seq<Usuario>, e: string) {
    exists j :: 0 <= j < |us| && us[j].email == e
  }

  /** The edited copy of a user: only name, e-mail, role and status come from the form. */
  function Editado(x: Usuario, f: Formulario): Usuario {
    x.(nome := f.nome, email := f.email, papel := f.papel, status := f.status)
  }

  /** `users.map(u => u.id === sel.id ? {...u, ...} : u)`. */
  function EditarTodos(us: seq<Usuario>, id: int, f: Formulario): (r: seq<Usuario>)
    ensures |r| == |us|
    ensures forall j :: 0 <= j < |us| ==> r[j] == (if us[j].id == id then Editado(us[j], f) else us[j])
  {
    seq(|us|, j requires 0 <= j < |us| => if us[j].id == id then Editado(us[j], f) else us[j])
  }

  /** A create submit that passes every check of `handleSubmit`. */
  predicate CriacaoAceita(p: Pagina) {
    && p.form.nome != "" && p.form.email != ""
    && p.form.senha != "" && p.form.confirmacao != ""
    && p.form.senha == p.form.confirmacao
    && !EmailCadastrado(p.usuarios, p.form.email)
  }

  /**
   * `handleSubmit`. Creating needs both passwords, equal, and an unused
   * e-mail; the new user gets the next id. Editing only checks a non-empty
   * password against its confirmation, and rewrites every user with the
   * selected id. Both close the modal; any failed check changes nothing.
   */
  function Submeter(p: Pagina, agora: string): (r: Pagina)
    ensures p.form.nome == "" || p.form.email == "" ==> r == p
    ensures p.modo == Criar ==> (r != p <==> CriacaoAceita(p))
    ensures p.modo == Criar && CriacaoAceita(p) ==>
              && |r.usuarios| == |p.usuarios| + 1
              && r.usuarios[..|p.usuarios|] == p.usuarios
              && r.usuarios[|p.usuarios|] == Usuario(MaiorId(p.usuarios) + 1, p.form.nome, p.form.email, p.form.papel, p.form.status, agora)
              && !r.modalAberto
    ensures p.modo == Editar && p.form.senha != "" && p.form.senha != p.form.confirmacao ==> r == p
    ensures p.modo == Editar && p.form.nome != "" && p.form.email != ""
            && !(p.form.senha != "" && p.form.senha != p.form.confirmacao) && p.selecionado.Some? ==>
              r == FecharModal(p.(usuarios := EditarTodos(p.usuarios, p.selecionado.value.id, p.form)))
    ensures p.modo == Editar && p.selecionado.None? ==> r == p
    ensures p.modo == Editar && r != p ==>
              && p.selecionado.Some? && !r.modalAberto
              && |r.usuarios| == |p.usuarios|
              && forall j :: 0 <= j < |p.usuarios| ==>
                   r.usuarios[j] == (if p.usuarios[j].id == p.selecionado.value.id then Editado(p.usuarios[j], p.form) else p.usuarios[j])
  {
    if p.form.nome == "" || p.form.email == "" then p
    else if p.modo == Criar then
      if !CriacaoAceita(p) then p
      else
        var novo := Usuario(MaiorId(p.usuarios) + 1, p.form.nome, p.form.email, p.form.papel, p.form.status, agora);
        assert novo !in p.usuarios;
        FecharModal(p.(usuarios := p.usuarios + [novo]))
    else if p.form.senha != "" && p.form.senha != p.form.confirmacao then p
    else if p.selecionado.None? then p
    else
      var r := FecharModal(p.(usuarios := EditarTodos(p.usuarios, p.selecionado.value.id, p.form)));
      assert p.modalAberto ==> r != p;
      r
  }

  /** `handleDelete`: after confirmation every user with that id is gone and the rest keep their order. */
  function Excluir(us: seq<Usuario>, id: int, confirmado: bool): (r: seq<Usuario>)
    ensures !confirmado ==> r == us
    ensures confirmado ==> forall x :: x in r <==> x in us && x.id != id
    ensures confirmado ==> IsSubseq(r, us)
  {
    if confirmado then
      FilterIsSubseq(us, (u: Usuario) => u.id != id);
      Filter(us, (u: Usuario) => u.id != id)
    else us
  }

  /** The search box: name, e-mail or role contains the term, ignoring case. */
  function Filtrados(us: seq<Usuario>, termo: string): (r: seq<Usuario>)
    ensures forall x :: x in r <==> x in us && (ContainsCI(x.nome, termo) || ContainsCI(x.email, termo) || ContainsCI(x.papel, termo))
    ensures IsSubseq(r, us)
  {
    FilterIsSubseq(us, (u: Usuario) => ContainsCI(u.nome, termo) || ContainsCI(u.email, termo) || ContainsCI(u.papel, termo));
    Filter(us, (u: Usuario) => ContainsCI(u.nome, termo) || ContainsCI(u.email, termo) || ContainsCI(u.papel, termo))
  }

  /** An empty search box lists every user. */
  lemma BuscaVaziaListaTodos(us: seq<Usuario>)
    ensures Filtrados(us, "") == us
  {
    forall j | 0 <= j < |us| ensures ContainsCI(us[j].nome, "") {
      ContainsEmpty(us[j].nome);
    }
    FilterAll(us, (u: Usuario) => ContainsCI(u.nome, "") || ContainsCI(u.email, "") || ContainsCI(u.papel, ""));
  }

  predicate IdsUnicos(us: seq<Usuario>) {
    UniqueBy(us, (x: Usuario) => x.id)
  }

  predicate EmailsUnicos(us: seq<Usuario>) {
    UniqueBy(us, (x: Usuario) => x.email)
  }

  /** Every submit keeps ids unique: creation uses a fresh id and editing never changes one. */
  lemma SubmeterMantemIds(p: Pagina, agora: string)
    requires IdsUnicos(p.usuarios)
    ensures IdsUnicos(Submeter(p, agora).usuarios)
  {
    var r := Submeter(p, agora);
    if p.modo == Editar && r != p {
      assert forall j :: 0 <= j < |p.usuarios| ==> r.usuarios[j].id == p.usuarios[j].id;
    }
  }

  /** Creation keeps e-mails unique. */
  lemma CriarMantemEmails(p: Pagina, agora: string)
    requires p.modo == Criar && EmailsUnicos(p.usuarios)
    ensures EmailsUnicos(Submeter(p, agora).usuarios)
  {
  }

  /** Editing does not check the e-mail: one user can be given another's address. */
  lemma EdicaoDuplicaEmail()
    ensures var a := Usuario(1, "A", "a@x", "Vendedor", "Ativo", "");
            var b := Usuario(2, "B", "b@x", "Vendedor", "Ativo", "");
            var p := Pagina([a, b], true, Editar, Some(b), Formulario("B", "a@x", "", "", "Vendedor", "Ativo"));
            EmailsUnicos(p.usuarios) && !EmailsUnicos(Submeter(p, "").usuarios)
  {
    var a := Usuario(1, "A", "a@x", "Vendedor", "Ativo", "");
    var b := Usuario(2, "B", "b@x", "Vendedor", "Ativo", "");
    var p := Pagina([a, b], true, Editar, Some(b), Formulario("B", "a@x", "", "", "Vendedor", "Ativo"));
    var r := Submeter(p, "");
    assert r.usuarios[0] == a;
    assert r.usuarios[1].email == "a@x";
  }
}

=== FILE: user_api.dfy ===
/**
 * The user routes over an in-memory user table: create, update, delete,
 * status change, statistics and the filtered, paginated listing. Passwords
 * are stored through `hash`, which stands for SHA-256 and is not modelled.
 * Times are epoch seconds.
 */
module UserApi {
  import opened Common
  import opened Text
  import opened Seqs
  import opened UserSchemas

  datatype Usuario = Usuario(
    id: int,
    nome: string,
    email: string,
    senhaHash: string,
    tipo: TipoUsuario,
    status: StatusUsuario,
    departamento: Option<string>,
    telefone: Option<string>,
    criadoEm: int,
    atualizadoEm: int)

  /** The first user with that id, or -1. */
  function IndiceDe(us: seq<Usuario>, id: int): (k: int)
    ensures -1 <= k < |us|
    ensures k >= 0 ==> us[k].id == id && forall j :: 0 <= j < k ==> us[j].id != id
    ensures k < 0 ==> forall j :: 0 <= j < |us| ==> us[j].id != id
  {
    FirstWhere(us, (u: Usuario) => u.id == id)
  }

  /** `obter_usuario`: the user with that id, or 404. */
  function ObterUsuario(us: seq<Usuario>, id: int): (r: Result<Usuario>)
    ensures r.Err? <==> forall j :: 0 <= j < |us| ==> us[j].id != id
    ensures r.Err? ==> r.code == 404
    ensures r.Ok? ==> r.value in us && r.value.id == id
  {
    var k := IndiceDe(us, id);
    if k < 0 then Err(404) else Ok(us[k])
  }

  predicate EmailEmUso(us: seq<Usuario>, e: string) {
    exists j :: 0 <= j < |us| && us[j].email == e
  }

  predicate EmailsUnicos(us: seq<Usuario>) {
    UniqueBy(us, (x: Usuario) => x.email)
  }

  /**
   * `criar_usuario`: 400 when the e-mail is in use, leaving the table as it
   * was; otherwise one user is appended storing `hash(senha)`. `novoId` is the
   * id the database assigns.
   */
  function CriarUsuario(us: seq<Usuario>, d: UsuarioCreate, hash: string -> string, novoId: int, agora: int): (r: Result<seq<Usuario>>)
    requires forall j :: 0 <= j < |us| ==> us[j].id != novoId
    ensures r.Err? <==> EmailEmUso(us, d.email)
    ensures r.Err? ==> r.code == 400
    ensures r.Ok? ==> |r.value| == |us| + 1 && r.value[..|us|] == us
    ensures r.Ok? ==> var n := r.value[|us|];
              && n.id == novoId && n.nome == d.nome && n.email == d.email
              && n.senhaHash == hash(d.senha)
              && n.tipo == d.tipo && n.status == d.status
              && n.departamento == d.departamento && n.telefone == d.telefone
    ensures r.Ok? && EmailsUnicos(us) ==> EmailsUnicos(r.value)
  {
    if EmailEmUso(us, d.email) then Err(400)
    else Ok(us + [Usuario(novoId, d.nome, d.email, hash(d.senha), d.tipo, d.status, d.departamento, d.telefone, agora, agora)])
  }

  /** The supplied fields written over the user; a supplied password replaces the hash. */
  function Aplicar(x: Usuario, u: UsuarioUpdate, hash: string -> string, agora: int): (y: Usuario)
    ensures y.id == x.id && y.criadoEm == x.criadoEm && y.atualizadoEm == agora
    ensures y.nome == (if u.nome.Some? then u.nome.value else x.nome)
    ensures y.email == (if u.email.Some? then u.email.value else x.email)
    ensures y.senhaHash == (if u.senha.Some? then hash(u.senha.value) else x.senhaHash)
    ensures y.tipo == (if u.tipo.Some? then u.tipo.value else x.tipo)
    ensures y.status == (if u.status.Some? then u.status.value else x.status)
    ensures y.departamento == (if u.departamento.Some? then u.departamento else x.departamento)
    ensures y.telefone == (if u.telefone.Some? then u.telefone else x.telefone)
  {
    Usuario(x.id,
            if u.nome.Some? then u.nome.value else x.nome,
            if u.email.Some? then u.email.value else x.email,
            if u.senha.Some? then hash(u.senha.value) else x.senhaHash,
            if u.tipo.Some? then u.tipo.value else x.tipo,
            if u.status.Some? then u.status.value else x.status,
            if u.departamento.Some? then u.departamento else x.departamento,
            if u.telefone.Some? then u.telefone else x.telefone,
            x.criadoEm, agora)
  }

  /** The e-mail check: a truthy new address different from the user's own that someone already has. */
  predicate EmailConflita(us: seq<Usuario>, x: Usuario, u: UsuarioUpdate) {
    u.email.Some? && u.email.value != "" && u.email.value != x.email && EmailEmUso(us, u.email.value)
  }

  /**
   * `atualizar_usuario`: 404 for an unknown id, 400 when the new e-mail is
   * another user's; otherwise only the supplied fields and the update time
   * change.
   */
  function AtualizarUsuario(us: seq<Usuario>, id: int, u: UsuarioUpdate, hash: string -> string, agora: int): (r: Result<seq<Usuario>>)
    ensures IndiceDe(us, id) < 0 ==> r == Err(404)
    ensures var k := IndiceDe(us, id); k >= 0 ==> (r == Err(400) <==> EmailConflita(us, us[k], u))
    ensures r.Ok? ==> var k := IndiceDe(us, id);
              && 0 <= k && |r.value| == |us|
              && r.value[k] == Aplicar(us[k], u, hash, agora)
              && forall j :: 0 <= j < |us| && j != k ==> r.value[j] == us[j]
    ensures r.Ok? && EmailsUnicos(us) && (u.email.Some? ==> u.email.value != "") ==> EmailsUnicos(r.value)
  {
    var k := IndiceDe(us, id);
    if k < 0 then Err(404)
    else if EmailConflita(us, us[k], u) then Err(400)
    else
      var y := Aplicar(us[k], u, hash, agora);
      EmailsPreservados(us, k, y);
      Ok(us[k := y])
  }

  lemma EmailsPreservados(us: seq<Usuario>, k: int, y: Usuario)
    requires 0 <= k < |us|
    ensures EmailsUnicos(us) && (y.email == us[k].email || !EmailEmUso(us, y.email)) ==> EmailsUnicos(us[k := y])
  {
  }

  /** Any run of creates and updates that succeed keeps e-mails unique. */
  lemma CriarAtualizarMantemEmails(us: seq<Usuario>, d: UsuarioCreate, hash: string -> string, novoId: int,
                                   id: int, u: UsuarioUpdate, agora: int)
    requires EmailsUnicos(us) && forall j :: 0 <= j < |us| ==> us[j].id != novoId
    requires u.email.Some? ==> u.email.value != ""
    requires CriarUsuario(us, d, hash, novoId, agora).Ok?
    requires AtualizarUsuario(CriarUsuario(us, d, hash, novoId, agora).value, id, u, hash, agora).Ok?
    ensures EmailsUnicos(AtualizarUsuario(CriarUsuario(us, d, hash, novoId, agora).value, id, u, hash, agora).value)
  {
  }

  /** `deletar_usuario`: 404 for an unknown id, otherwise exactly that user is removed. */
  function DeletarUsuario(us: seq<Usuario>, id: int): (r: Result<seq<Usuario>>)
    ensures r.Err? <==> IndiceDe(us, id) < 0
    ensures r.Err? ==> r.code == 404
    ensures r.Ok? ==> var k := IndiceDe(us, id); |r.value| == |us| - 1 && r.value == us[..k] + us[k + 1..]
  {
    var k := IndiceDe(us, id);
    if k < 0 then Err(404) else Ok(us[..k] + us[k + 1..])
  }

  /** `StatusUsuario(s)`: only the three enum values parse. */
  function ParseStatus(s: string): (r: Option<StatusUsuario>)
    ensures r.Some? <==> s == "ativo" || s == "inativo" || s == "bloqueado"
  {
    if s == "ativo" then Some(Ativo)
    else if s == "inativo" then Some(Inativo)
    else if s == "bloqueado" then Some(Bloqueado)
    else None
  }

  /** `TipoUsuario(s)`. */
  function ParseTipo(s: string): (r: Option<TipoUsuario>)
    ensures r.Some? <==> s == "admin" || s == "gestor" || s == "vendedor"
  {
    if s == "admin" then Some(Admin)
    else if s == "gestor" then Some(Gestor)
    else if s == "vendedor" then Some(Vendedor)
    else None
  }

  /**
   * `alterar_status_usuario`: 404 for an unknown id, then 400 for a status
   * outside ativo, inativo and bloqueado; otherwise only the status and the
   * update time change.
   */
  function AlterarStatus(us: seq<Usuario>, id: int, novo: string, agora: int): (r: Result<seq<Usuario>>)
    ensures IndiceDe(us, id) < 0 ==> r == Err(404)
    ensures IndiceDe(us, id) >= 0 && ParseStatus(novo).None? ==> r == Err(400)
    ensures r.Ok? <==> IndiceDe(us, id) >= 0 && ParseStatus(novo).Some?
    ensures r.Ok? ==> var k := IndiceDe(us, id);
              && |r.value| == |us|
              && r.value[k] == us[k].(status := ParseStatus(novo).value, atualizadoEm := agora)
              && forall j :: 0 <= j < |us| && j != k ==> r.value[j] == us[j]
  {
    var k := IndiceDe(us, id);
    if k < 0 then Err(404)
    else
      var s := ParseStatus(novo);
      if s.None? then Err(400)
      else Ok(us[k := us[k].(status := s.value, atualizadoEm := agora)])
  }

  /** Changing the status keeps e-mails unique. */
  lemma AlterarStatusMantemEmails(us: seq<Usuario>, id: int, novo: string, agora: int)
    requires EmailsUnicos(us) && AlterarStatus(us, id, novo, agora).Ok?
    ensures EmailsUnicos(AlterarStatus(us, id, novo, agora).value)
  {
  }

  // ---------------------------------------------------- statistics

  function ComStatus(us: seq<Usuario>, s: StatusUsuario): nat
    decreases |us|
  {
    if |us| == 0 then 0 else (if us[0].status == s then 1 else 0) + ComStatus(us[1..], s)
  }

  function ComTipo(us: seq<Usuario>, t: TipoUsuario): nat
    decreases |us|
  {
    if |us| == 0 then 0 else (if us[0].tipo == t then 1 else 0) + ComTipo(us[1..], t)
  }

  datatype Estatisticas = Estatisticas(total: nat, ativos: nat, inativos: nat, bloqueados: nat,
                                       admins: nat, gestores: nat, vendedores: nat)

  /** `obter_estatisticas`: totals by status and by type. */
  function ObterEstatisticas(us: seq<Usuario>): (e: Estatisticas)
    ensures e.total == |us|
    ensures e.ativos == ComStatus(us, Ativo) && e.inativos == ComStatus(us, Inativo)
            && e.bloqueados == ComStatus(us, Bloqueado)
    ensures e.admins == ComTipo(us, Admin) && e.gestores == ComTipo(us, Gestor)
            && e.vendedores == ComTipo(us, Vendedor)
    ensures e.ativos + e.inativos + e.bloqueados == e.total
    ensures e.admins + e.gestores + e.vendedores == e.total
  {
    StatusSomam(us);
    TiposSomam(us);
    Estatisticas(|us|, ComStatus(us, Ativo), ComStatus(us, Inativo), ComStatus(us, Bloqueado),
                 ComTipo(us, Admin), ComTipo(us, Gestor), ComTipo(us, Vendedor))
  }

  /** A status count is 0 exactly when nobody has that status, and the total exactly when everybody has it. */
  lemma {:induction false} ComStatusSignificado(us: seq<Usuario>, s: StatusUsuario)
    ensures ComStatus(us, s) <= |us|
    ensures ComStatus(us, s) == 0 <==> forall i :: 0 <= i < |us| ==> us[i].status != s
    ensures ComStatus(us, s) == |us| <==> forall i :: 0 <= i < |us| ==> us[i].status == s
    decreases |us|
  {
    if |us| > 0 {
      ComStatusSignificado(us[1..], s);
      assert forall i :: 1 <= i < |us| ==> us[i] == us[1..][i - 1];
    }
  }

  /** A type count is 0 exactly when nobody has that type, and the total exactly when everybody has it. */
  lemma {:induction false} ComTipoSignificado(us: seq<Usuario>, t: TipoUsuario)
    ensures ComTipo(us, t) <= |us|
    ensures ComTipo(us, t) == 0 <==> forall i :: 0 <= i < |us| ==> us[i].tipo != t
    ensures ComTipo(us, t) == |us| <==> forall i :: 0 <= i < |us| ==> us[i].tipo == t
    decreases |us|
  {
    if |us| > 0 {
      ComTipoSignificado(us[1..], t);
      assert forall i :: 1 <= i < |us| ==> us[i] == us[1..][i - 1];
    }
  }

  lemma {:induction false} StatusSomam(us: seq<Usuario>)
    ensures ComStatus(us, Ativo) + ComStatus(us, Inativo) + ComStatus(us, Bloqueado) == |us|
    decreases |us|
  {
    if |us| > 0 {
      StatusSomam(us[1..]);
    }
  }

  lemma {:induction false} TiposSomam(us: seq<Usuario>)
    ensures ComTipo(us, Admin) + ComTipo(us, Gestor) + ComTipo(us, Vendedor) == |us|
    decreases |us|
  {
    if |us| > 0 {
      TiposSomam(us[1..]);
    }
  }

  // ------------------------------------------------------- listing

  /** The query filters; each one is skipped when falsy. */
  datatype Filtros = Filtros(busca: Option<string>, tipo: Option<string>, status: Option<string>, departamento: Option<string>)

  predicate Passa(x: Usuario, f: Filtros) {
    && (!Truthy(f.busca) || ContainsCI(x.nome, f.busca.value) || ContainsCI(x.email, f.busca.value))
    && (!Truthy(f.tipo) || ParseTipo(f.tipo.value) == Some(x.tipo))
    && (!Truthy(f.status) || ParseStatus(f.status.value) == Some(x.status))
    && (!Truthy(f.departamento) || (x.departamento.Some? && ContainsCI(x.departamento.value, f.departamento.value)))
  }

  function CriadoOf(x: Usuario): real { x.criadoEm as real }

  /**
   * `listar_usuarios`: 400 for an unknown tipo, then for an unknown status;
   * otherwise the matching users, newest first, from `offset`, at most
   * `limite` of them.
   */
  function ListarUsuarios(us: seq<Usuario>, f: Filtros, limite: int, offset: int): (r: Result<seq<Usuario>>)
    requires 1 <= limite <= 1000 && offset >= 0
    ensures r.Err? <==> (Truthy(f.tipo) && ParseTipo(f.tipo.value).None?) || (Truthy(f.status) && ParseStatus(f.status.value).None?)
    ensures r.Err? ==> r.code == 400
    ensures r.Ok? ==> |r.value| <= limite
    ensures r.Ok? ==> |r.value| == Min(limite, Max(0, |Ordenados(us, f)| - offset))
    ensures r.Ok? ==> forall i :: 0 <= i < |r.value| ==> r.value[i] == Ordenados(us, f)[offset + i]
    ensures r.Ok? ==> forall i :: 0 <= i < |r.value| ==> r.value[i] in us && Passa(r.value[i], f)
    ensures r.Ok? ==> forall i, j :: 0 <= i < j < |r.value| ==> r.value[i].criadoEm >= r.value[j].criadoEm
    ensures r.Ok? && offset == 0 && |r.value| < limite ==> forall x :: x in us && Passa(x, f) ==> x in r.value
  {
    if Truthy(f.tipo) && ParseTipo(f.tipo.value).None? then Err(400)
    else if Truthy(f.status) && ParseStatus(f.status.value).None? then Err(400)
    else Ok(Pagina(us, f, limite, offset))
  }

  /** Every matching user, newest first: the list the pages are cut from. */
  function Ordenados(us: seq<Usuario>, f: Filtros): (s: seq<Usuario>)
    ensures multiset(s) == multiset(Filter(us, (x: Usuario) => Passa(x, f)))
    ensures forall x :: x in s <==> x in us && Passa(x, f)
    ensures forall i, j :: 0 <= i < j < |s| ==> s[i].criadoEm >= s[j].criadoEm
  {
    var s := SortDesc(Filter(us, (x: Usuario) => Passa(x, f)), CriadoOf);
    assert forall i, j :: 0 <= i < j < |s| ==> CriadoOf(s[i]) >= CriadoOf(s[j]);
    s
  }

  /** The matching users, newest first, from `offset`, at most `limite` of them. */
  function Pagina(us: seq<Usuario>, f: Filtros, limite: nat, offset: nat): (r: seq<Usuario>)
    ensures |r| == Min(limite, Max(0, |Ordenados(us, f)| - offset))
    ensures forall i :: 0 <= i < |r| ==> r[i] == Ordenados(us, f)[offset + i]
    ensures forall i :: 0 <= i < |r| ==> r[i] in us && Passa(r[i], f)
    ensures forall i, j :: 0 <= i < j < |r| ==> r[i].criadoEm >= r[j].criadoEm
    ensures offset == 0 && |r| < limite ==> forall x :: x in us && Passa(x, f) ==> x in r
  {
    var s := Ordenados(us, f);
    var r := Slice(s, offset, offset + limite);
    assert offset == 0 && |r| < limite ==> r == s;
    r
  }

  /**
   * `listar_usuarios` as written: its query parameter `status` shadows the
   * `status` module of FastAPI, so raising the 400 for a bad tipo or status
   * reads `HTTP_400_BAD_REQUEST` off a string (or `None`); that raises
   * `AttributeError` and the client receives a 500 instead.
   */
  function ListarUsuariosComoEscrito(us: seq<Usuario>, f: Filtros, limite: int, offset: int): (r: Result<seq<Usuario>>)
    requires 1 <= limite <= 1000 && offset >= 0
    ensures r.Err? <==> (Truthy(f.tipo) && ParseTipo(f.tipo.value).None?) || (Truthy(f.status) && ParseStatus(f.status.value).None?)
    ensures r.Err? ==> r.code == 500
    ensures r.Ok? ==> forall i :: 0 <= i < |r.value| ==> r.value[i] in us && Passa(r.value[i], f)
  {
    var c := ListarUsuarios(us, f, limite, offset);
    if c.Err? then Err(500) else c
  }

  /** An unknown tipo is answered 500 by the code as written, where 400 is documented. */
  lemma TipoInvalidoDa500(us: seq<Usuario>)
    ensures ListarUsuariosComoEscrito(us, Filtros(None, Some("x"), None, None), 10, 0) == Err(500)
    ensures ListarUsuarios(us, Filtros(None, Some("x"), None, None), 10, 0) == Err(400)
  {
  }
}

=== FILE: user_schemas.dfy ===
/**
 * The request schemas of the user routes: field bounds, defaults and the
 * phone-number validator. A rejected payload is answered with 422.
 * E-mail format checking is not part of this model.
 */
module UserSchemas {
  import opened Common
  import opened Text

  datatype TipoUsuario = Admin | Gestor | Vendedor

  datatype StatusUsuario = Ativo | Inativo | Bloqueado

  /** The formatting characters the validator deletes. */
  predicate Separador(c: char) {
    c == ' ' || c == '-' || c == '(' || c == ')'
  }

  /** `v.replace(' ', '').replace('-', '').replace('(', '').replace(')', '')`. */
  function SemFormatacao(s: string): (r: string)
    ensures |r| <= |s|
    ensures forall i :: 0 <= i < |r| ==> !Separador(r[i]) && r[i] in s
    decreases |s|
  {
    if |s| == 0 then ""
    else if Separador(s[0]) then SemFormatacao(s[1..])
    else [s[0]] + SemFormatacao(s[1..])
  }

  /** Stripping keeps exactly the characters that are not separators. */
  lemma {:induction false} SemFormatacaoMembros(s: string)
    ensures forall c :: c in SemFormatacao(s) <==> c in s && !Separador(c)
    decreases |s|
  {
    if |s| > 0 {
      SemFormatacaoMembros(s[1..]);
      assert s == [s[0]] + s[1..];
    }
  }

  /**
   * `validar_telefone`: a falsy value passes unchanged; otherwise the value
   * passes, unchanged and unstripped, iff what is left after deleting the
   * separators is a non-empty run of digits.
   */
  function ValidarTelefone(v: Option<string>): (r: Result<Option<string>>)
    ensures !Truthy(v) ==> r == Ok(v)
    ensures Truthy(v) ==> (r.Ok? <==> AllDigits(SemFormatacao(v.value)))
    ensures r.Ok? ==> r.value == v
    ensures r.Err? ==> r.code == 422
  {
    if Truthy(v) && !AllDigits(SemFormatacao(v.value)) then Err(422) else Ok(v)
  }

  /**
   * The validator, stated without the stripping: a non-empty phone passes iff
   * it is made of digits and separators and holds at least one digit.
   */
  lemma TelefoneAceitoSse(t: string)
    requires t != ""
    ensures ValidarTelefone(Some(t)).Ok? <==>
              (forall c :: c in t ==> IsAsciiDigit(c) || Separador(c)) && (exists c :: c in t && IsAsciiDigit(c))
  {
    var r := SemFormatacao(t);
    SemFormatacaoMembros(t);
    if AllDigits(r) {
      assert r[0] in r;
      forall c | c in t ensures IsAsciiDigit(c) || Separador(c) {
        if !Separador(c) {
          assert c in r;
          var i :| 0 <= i < |r| && r[i] == c;
        }
      }
    }
    if (forall c :: c in t ==> IsAsciiDigit(c) || Separador(c)) && (exists c :: c in t && IsAsciiDigit(c)) {
      var c :| c in t && IsAsciiDigit(c);
      assert c in r;
      forall i | 0 <= i < |r| ensures IsAsciiDigit(r[i]) {
        assert r[i] in r;
      }
    }
  }

  /** A formatted number passes. */
  lemma TelefoneFormatadoAceito()
    ensures ValidarTelefone(Some("(85) 9-1")).Ok?
  {
    var t := "(85) 9-1";
    forall c | c in t ensures IsAsciiDigit(c) || Separador(c) {
      var i :| 0 <= i < |t| && t[i] == c;
    }
    assert t[1] in t && IsAsciiDigit(t[1]);
    TelefoneAceitoSse(t);
  }

  /** Separators alone do not pass, nor does a letter. */
  lemma TelefoneRecusado()
    ensures ValidarTelefone(Some("()- ")).Err?
    ensures ValidarTelefone(Some("85a")).Err?
  {
    assert SemFormatacao("()- ") == "";
    assert SemFormatacao("85a") == "85a";
    assert !IsAsciiDigit("85a"[2]);
  }

  /** The body of a create request, before validation; `None` is a field left out. */
  datatype UsuarioCreateIn = UsuarioCreateIn(
    nome: string,
    email: string,
    senha: string,
    tipo: Option<TipoUsuario>,
    status: Option<StatusUsuario>,
    departamento: Option<string>,
    telefone: Option<string>)

  /** A validated create request, defaults applied. */
  datatype UsuarioCreate = UsuarioCreate(
    nome: string,
    email: string,
    senha: string,
    tipo: TipoUsuario,
    status: StatusUsuario,
    departamento: Option<string>,
    telefone: Option<string>)

  /** An optional string field with a maximum length. */
  predicate CabeEm(o: Option<string>, max: nat) {
    o.None? || |o.value| <= max
  }

  /** The telefone field: at most 20 characters, then the validator. */
  predicate TelefoneValido(t: Option<string>) {
    CabeEm(t, 20) && ValidarTelefone(t).Ok?
  }

  /**
   * `UsuarioCreate`: nome of 3 to 200 characters, senha of at least 6,
   * departamento of at most 100, a valid telefone; tipo defaults to vendedor
   * and status to ativo.
   */
  function ValidarCreate(d: UsuarioCreateIn): (r: Result<UsuarioCreate>)
    ensures r.Ok? <==> 3 <= |d.nome| <= 200 && |d.senha| >= 6 && CabeEm(d.departamento, 100) && TelefoneValido(d.telefone)
    ensures r.Err? ==> r.code == 422
    ensures r.Ok? ==> r.value.nome == d.nome && r.value.email == d.email && r.value.senha == d.senha
    ensures r.Ok? ==> r.value.tipo == (if d.tipo.Some? then d.tipo.value else Vendedor)
    ensures r.Ok? ==> r.value.status == (if d.status.Some? then d.status.value else Ativo)
    ensures r.Ok? ==> r.value.departamento == d.departamento && r.value.telefone == d.telefone
  {
    if 3 <= |d.nome| <= 200 && |d.senha| >= 6 && CabeEm(d.departamento, 100) && TelefoneValido(d.telefone) then
      Ok(UsuarioCreate(d.nome, d.email, d.senha,
                       if d.tipo.Some? then d.tipo.value else Vendedor,
                       if d.status.Some? then d.status.value else Ativo,
                       d.departamento, d.telefone))
    else Err(422)
  }

  /** The body of an update request; every field is optional. */
  datatype UsuarioUpdate = UsuarioUpdate(
    nome: Option<string>,
    email: Option<string>,
    senha: Option<string>,
    tipo: Option<TipoUsuario>,
    status: Option<StatusUsuario>,
    departamento: Option<string>,
    telefone: Option<string>)

  /** `UsuarioUpdate`: the create bounds, applied only to the fields supplied. */
  function ValidarUpdate(u: UsuarioUpdate): (r: Result<UsuarioUpdate>)
    ensures r.Ok? <==>
              && (u.nome.None? || 3 <= |u.nome.value| <= 200)
              && (u.senha.None? || |u.senha.value| >= 6)
              && CabeEm(u.departamento, 100) && TelefoneValido(u.telefone)
    ensures r.Ok? ==> r.value == u
    ensures r.Err? ==> r.code == 422
  {
    if && (u.nome.None? || 3 <= |u.nome.value| <= 200)
       && (u.senha.None? || |u.senha.value| >= 6)
       && CabeEm(u.departamento, 100) && TelefoneValido(u.telefone)
    then Ok(u)
    else Err(422)
  }

  /** The update that supplies every field of a create request. */
  function ComoUpdate(c: UsuarioCreate): UsuarioUpdate {
    UsuarioUpdate(Some(c.nome), Some(c.email), Some(c.senha), Some(c.tipo), Some(c.status), c.departamento, c.telefone)
  }

  /** Whatever a create accepts, an update carrying all the same fields accepts too. */
  lemma CreateAceitoUpdateAceito(d: UsuarioCreateIn)
    requires ValidarCreate(d).Ok?
    ensures ValidarUpdate(ComoUpdate(ValidarCreate(d).value)).Ok?
  {
  }

  /** An update that supplies nothing is always accepted. */
  lemma UpdateVazioAceito()
    ensures ValidarUpdate(UsuarioUpdate(None, None, None, None, None, None, None)) == Ok(UsuarioUpdate(None, None, None, None, None, None, None))
  {
  }
}
